=== FILE: README.md ===
# NerdTutors in Dafny

NerdTutors is a tutoring web application. Students answer economics
questions in three ways: multiple-choice quizzes, typed answers, and
photographed handwritten answer sheets. The typed answers and the photos
are graded by Google's Gemini model behind two serverless endpoints.
Teachers maintain the question bank, build question batches and browse
the results on a dashboard.

This project models the decision logic of that application as pure
functions over explicit datatypes, and proves what each part promises.
The model covers:

- **The two grading endpoints**, `api/evaluate.js` (typed answers) and
  `api/ocr-evaluate.js` (photos). Each is a function from the request,
  the environment, a JSON parser and the outcome of its grading `fetch`
  to the reply and the Gemini call it makes (`Evaluate`, `OcrEvaluate`,
  `Http`, `ModelText`).
- **The two browser clients of those endpoints** and their zero-score
  fallbacks (`GeminiConfig`, `OcrScanApi`).
- **The question bank**: spreadsheet validation, the add and edit
  forms, filters, statistics, duplication and drafts (`Admin`); the CSV
  import and batch editor (`BatchManager`).
- **The quiz** (`McqTest`), the typed-answer page (`Student`) and the
  scanner page with its image intake and result rendering (`OcrScan`,
  `OcrScanCamera`, `OcrScanUi`, `OcrScanBatch`).
- **The teacher dashboard** (`Dashboard`) and **the landing page**
  (`Index`).

`CrossFile` follows requests from the page that builds them, through
the endpoint that receives them, back to what the page shows. Three
facts come out of it:

- The typed-answer page sends no maximum mark, and `api/evaluate.js`
  requires one. Every answer that page submits is refused with 400, and
  the page shows its failure message (`CrossFile.StudentSubmissionRefused`).
- The batch request of `gemini-config.js` carries none of the fields the
  endpoint checks. Every batch therefore ends in the zero-score fallback
  (`CrossFile.BatchAlwaysFallsBack`).
- The scanner page hands the picture to its client under the wrong name,
  so no picture reaches the endpoint (see Findings).

JavaScript values are modelled by `JsValue.Json`, with `undefined` as
`None`. The module also models truthiness, `||`, `??`, property access
and `+` on numbers and strings. The helper modules `Wrappers`, `Seqs`,
`Strings`, `Numbers` and `Tallies` give the sequence, string and number
operations the pages use. Oracles are parameters:

- JSON.parse is a function from text to a parsed value or an error;
- the Gemini service is the `fetch` outcome;
- the JPEG encoder is a function from quality to data URL;
- Math.random is a sequence of draws in [0, 1);
- the clock is a number of milliseconds.

An exception that escapes a serverless handler is the reply `Crashed`.

## Model

| member | source | states |
|---|---|---|
| `Evaluate.ReadBody` | api/evaluate.js:27-36 | A body that arrives as text is parsed: a parsed value becomes the body, a parse failure gives the parser's error; any other body is used as it came |
| `Evaluate.PromptQuotesFields` | api/evaluate.js:63-77 | The grading prompt carries the question, the student's answer and the maximum marks, each on its own labelled line |
| `Evaluate.PreflightAnswered` | api/evaluate.js:14-17 | An OPTIONS request is answered 200 with `{status: "ok"}` and nothing else happens |
| `Evaluate.OtherMethodsRefused` | api/evaluate.js:19-22 | Any method other than OPTIONS and POST gets 405 "Method not allowed" without a service call |
| `Evaluate.InvalidJsonRefused` | api/evaluate.js:27-36 | A text body that is not JSON gets 400 "Invalid JSON body" without a service call |
| `Evaluate.MissingFieldsRefused` | api/evaluate.js:40-46 | A falsy question, student answer or maximum mark (0 included) gets 400 "Missing required fields", whatever the environment holds |
| `Evaluate.MissingKeyRefused` | api/evaluate.js:50-55 | With the fields present but no non-empty GEMINI_API_KEY the reply is 500 "API key missing" and the service is not called |
| `Evaluate.CallShape` | api/evaluate.js:60-107 | A service call happens only for POST, uses the environment key, the fixed endpoint and settings (0.4, 32, 1, 512) and one text part holding the prompt built from the body |
| `Evaluate.RefusalIgnoresGateway` | api/evaluate.js:14-55 | Every refusal before the call is independent of what the service would answer |
| `Evaluate.GatewayFailuresAre500` | api/evaluate.js:102-150 | Transport error, non-2xx status, an envelope that is not JSON and a missing candidate text each give 500 with an `error` field |
| `Evaluate.UnparsedTextEchoed` | api/evaluate.js:160-171 | Model text that is not JSON after cleaning gives 200, score 0 and the whole cleaned single-line text as the second improvement |
| `Evaluate.GradePassedThrough` | api/evaluate.js:179-186 | A parsed grade is sent back with `??` defaults (0, [], "No feedback") and its score unchanged and unclamped |
| `ModelText.StripFencesFenceFree` | api/evaluate.js:154 | Removing the code fences leaves no fence behind, for every input |
| `ModelText.StripFencesFenceFreeUnchanged` | api/ocr-evaluate.js:166 | Text without a fence passes the fence removal unchanged |
| `ModelText.CollapseNewlines` | api/evaluate.js:155 | Folding newline runs into spaces leaves no newline and never lengthens the text |
| `ModelText.CollapseNewlinesUnchanged` | api/evaluate.js:155 | Text without a newline is left unchanged by the folding |
| `ModelText.CollapseNewlinesFenceFree` | api/evaluate.js:153-156 | Folding newlines into spaces cannot create a code fence |
| `ModelText.CleanEvaluateText` | api/evaluate.js:153-156 | The cleaned text parsed by the text evaluator has no newline and no fence |
| `ModelText.CleanOcrText` | api/ocr-evaluate.js:165-166 | The cleaned text parsed by the image evaluator has no fence and no surrounding white space |
| `ModelText.CleanEvaluateTextIdempotent` | api/evaluate.js:153-162 | A reply already in clean form (bare single-line JSON) is parsed exactly as sent |
| `ModelText.CleanEvaluateTextTwice` | api/evaluate.js:153-156 | Cleaning twice is the same as cleaning once |
| `OcrEvaluate.Pages` | api/ocr-evaluate.js:61 | The plural page wording is used exactly when more than one image was sent |
| `OcrEvaluate.QuestionFields` | api/ocr-evaluate.js:44-49 | A full-sheet question block shows "Not provided" for a falsy model answer and 5 for falsy marks |
| `OcrEvaluate.SingleFields` | api/ocr-evaluate.js:94-96 | The single-answer prompt shows placeholders for a falsy question or model answer and 5 for a falsy maximum |
| `OcrEvaluate.ImageList` | api/ocr-evaluate.js:27 | A truthy `images` is used as is; otherwise a truthy `image` becomes a one-entry list with MIME type defaulting to image/jpeg; otherwise the list is empty |
| `OcrEvaluate.ImageParts` | api/ocr-evaluate.js:128-133 | One inline part per image, in order, each with the image's data and its MIME type or image/jpeg |
| `OcrEvaluate.FailureBody` | api/ocr-evaluate.js:172-180 | Every failure after the checks answers score 0, empty extracted text and a non-empty `details` |
| `OcrEvaluate.ResolveKey` | api/ocr-evaluate.js:17 | The key is the first non-empty of GEMINI_API_KEY, GEMINI_API and GEMINI_KEY, and is truthy exactly when one of them is non-empty |
| `OcrEvaluate.Admit` | api/ocr-evaluate.js:9-31 | An admitted request has a key, a non-null body and a non-empty image list without null entries, and that list is the one the body describes |
| `OcrEvaluate.BuildCall` | api/ocr-evaluate.js:127-147 | The service call holds the image parts in order followed by the prompt, with temperature 0.2 and the resolved key |
| `OcrEvaluate.Handle` | api/ocr-evaluate.js:149-170 | The service is called exactly when the request is admitted |
| `OcrEvaluate.PreflightAnswered` | api/ocr-evaluate.js:9 | An OPTIONS request is answered 200 with an empty body |
| `OcrEvaluate.OtherMethodsRefused` | api/ocr-evaluate.js:10 | Any method other than OPTIONS and POST gets 405 "Method not allowed" |
| `OcrEvaluate.MissingKeyRefused` | api/ocr-evaluate.js:16-21 | Without any of the three key variables the reply is 500, before the body's content is looked at |
| `OcrEvaluate.NoImageRefused` | api/ocr-evaluate.js:23-31 | A body with neither `images` nor `image` gets 400 "No image provided. Send base64 image data." and no service call |
| `OcrEvaluate.SingleImageWrapped` | api/ocr-evaluate.js:27-143 | A lone `image` is sent as one inline part with the defaulted MIME type, followed by the prompt |
| `OcrEvaluate.ModeSelection` | api/ocr-evaluate.js:39-125 | The full-sheet prompt is used exactly when `mode` is "full-sheet" and `questions` is a non-empty array |
| `OcrEvaluate.FullSheetPagesWording` | api/ocr-evaluate.js:61 | Two full-sheet prompts differ in their page wording exactly when one image count is above one and the other is not |
| `OcrEvaluate.SinglePagesWording` | api/ocr-evaluate.js:108 | The same for the single-answer prompt |
| `OcrEvaluate.ReplyIsResultOrFailure` | api/ocr-evaluate.js:162-181 | After the call the reply is 200 with the parsed model JSON unchanged, or 500 with the failure body; it is 200 exactly when the fetch succeeds with a 2xx status, the envelope parses, the candidate text is a string and the cleaned text parses |
| `OcrEvaluate.ResultPassedThrough` | api/ocr-evaluate.js:162-170 | Model text that parses after cleaning is sent back as 200 with exactly the parsed JSON |
| `OcrEvaluate.FailuresAre500` | api/ocr-evaluate.js:150-181 | A transport error, a non-2xx reply, an envelope that is not JSON and a candidate text that is not a string each give 500 with the failure body carrying that error's message |
| `OcrEvaluate.MissingTextIs500` | api/ocr-evaluate.js:165-181 | A reply with no candidate text parses the empty text and gives 500 with the parser's message |
| `OcrEvaluate.UncleanTextIs500` | api/ocr-evaluate.js:166-181 | Model text that is not JSON after cleaning gives 500 with the parser's message |
| `OcrEvaluate.RefusalIgnoresGateway` | api/ocr-evaluate.js:9-31 | Every early reply is independent of what the service would answer |
| `GeminiConfig.SingleRequest` | gemini-config.js:9-13 | The posted body carries exactly the four fields the caller gave |
| `GeminiConfig.EvaluateWithGemini` | gemini-config.js:4-32 | The result always has exactly the fields score, improvements and feedback |
| `GeminiConfig.BackendResultNormalised` | gemini-config.js:15-22 | A 2xx JSON reply is passed on field by field with `??` defaults and an unclamped score |
| `GeminiConfig.FailuresFallBack` | gemini-config.js:23-43 | A transport error, a non-2xx status, a body that is not JSON and a null body all resolve to the fixed zero-score result, never a rejection |
| `GeminiConfig.CompleteResultKept` | gemini-config.js:15-22 | A reply that already has all three fields comes back with exactly those values |
| `GeminiConfig.AnswersObject` | gemini-config.js:55-58 | Every answer of the Map is copied under its key, and the object holds nothing else |
| `GeminiConfig.BatchRequest` | gemini-config.js:61-68 | The batch body carries the questions and the answers object and none of the single-answer fields |
| `GeminiConfig.BatchErrorMessages` | gemini-config.js:74-89 | A failed batch reply throws the body's `error` followed by `: details` when present, or the status line when the body is not JSON |
| `GeminiConfig.FallbackItem` | gemini-config.js:96-101 | A fallback entry has the question's id, score 0 and the given feedback |
| `GeminiConfig.FallbackFor` | gemini-config.js:96-101 | The fallback has one entry per question in order, and rejects exactly when some question is null |
| `GeminiConfig.EvaluateBatchWithGemini` | gemini-config.js:47-103 | A 2xx JSON reply is returned unchanged |
| `GeminiConfig.BatchFailureEntries` | gemini-config.js:92-102 | A batch failure gives one zero-score entry per question, in order, with its id and "System Error: " and the message as feedback |
| `GeminiConfig.EvaluateBatchClientSide` | gemini-config.js:106-114 | The disabled client-side batch gives one entry per question with the fixed unavailable message |
| `OcrScanApi.SingleRequest` | ocr-scan-api.js:16-30 | The single-mode body has mode "single", passes images, question and model answer through, and sends `maxMarks \|\| 5` |
| `OcrScanApi.FullSheetRequest` | ocr-scan-api.js:60-72 | The full-sheet body has mode "full-sheet" and exactly the images and questions it was given, and no `image` |
| `OcrScanApi.Settle` | ocr-scan-api.js:32-37 | A 2xx reply settles to its parsed body |
| `OcrScanApi.ServerErrorMessage` | ocr-scan-api.js:32-35 | A non-2xx reply fails with the body's non-empty `error`, else with "Server error: " and the status, also when the body is not JSON |
| `OcrScanApi.SingleFallback` | ocr-scan-api.js:41-49 | The single fallback has score 0, empty extracted text, `maxMarks \|\| 5` and "Evaluation failed: " and the message as its one improvement |
| `OcrScanApi.EvaluateSingle` | ocr-scan-api.js:16-51 | A settled reply is returned as is; any failure gives the fallback for its message, so the promise never rejects |
| `OcrScanApi.FallbackResult` | ocr-scan-api.js:87-95 | A per-question fallback carries the question's id, score 0 and `marks \|\| 5` |
| `OcrScanApi.TotalMaxMarksIsSum` | ocr-scan-api.js:97 | When every `marks \|\| 5` is a number, the reduce is their numeric sum |
| `OcrScanApi.FullSheetFallback` | ocr-scan-api.js:83-99 | One fallback result per question in order, total score 0, total maximum the reduce; rejects exactly when some question is null |
| `OcrScanApi.EvaluateFullSheet` | ocr-scan-api.js:60-101 | A settled reply is returned unchanged |
| `OcrScanApi.FullSheetFailureShape` | ocr-scan-api.js:83-99 | On failure each result has its question's id, score 0 and its maximum, and the total maximum is the sum of those maxima |
| `OcrScanBatch.DropdownOptions` | ocr-scan-batch.js:56-83 | No batches gives the single "No batches available" option; otherwise a "Select a batch" prompt then one option per batch, in order, valued by its id |
| `OcrScanBatch.OnBatchSelected` | ocr-scan-batch.js:86-118 | An empty choice clears the selection and locks the next step; an unknown id changes nothing; a known id selects that batch and unlocks the step |
| `OcrScanBatch.SelectionIsFirstMatch` | ocr-scan-batch.js:110-113 | The batch selected is the first loaded batch with that id |
| `OcrScanBatch.PercentageOf` | ocr-scan-batch.js:189-191 | 0 unless the maximum converts to a positive number; then the earned marks over the maximum, rounded, and NaN exactly when the earned marks do not convert to a number |
| `OcrScanBatch.PercentageIsRounded` | ocr-scan-batch.js:189-191 | For numeric totals with a positive maximum the percentage is `Math.round` of the exact share: the integer p with share - 0.5 < p <= share + 0.5, so halves round up. It is within 0..100 when the earned marks are within the maximum, and 100 for full marks |
| `Numbers.RoundNearest` | ocr-scan-batch.js:190 | `Math.round` gives a nearest integer: no integer is strictly closer to the rounded value |
| `OcrScanBatch.TextTotalsConvert` | ocr-scan-batch.js:189-191 | Earned marks or a maximum given as text that reads as a number give the same percentage as that number |
| `OcrScanBatch.PercentText` | ocr-scan-batch.js:201 | The saved text is "NaN%" for NaN and otherwise reads back, through `parseFloat`, as the percentage |
| `OcrScanBatch.FullItems` | ocr-scan-batch.js:171-186 | One item per batch question, matched to the answer at the same position; a null question throws |
| `OcrScanBatch.TotalEarnedIsSum` | ocr-scan-batch.js:173-176 | With numeric earned marks the running total is their sum |
| `OcrScanBatch.Totals` | ocr-scan-batch.js:147-187 | In full mode the maximum saved is the batch's `totalMarks \|\| 0`, not recomputed from the items |
| `OcrScanBatch.BatchSave` | ocr-scan-batch.js:139-211 | Nothing is saved without a signed-in user; a saved record has test type "ocr" and the user's id |
| `OcrScanBatch.SingleModeUsesFirst` | ocr-scan-batch.js:153-169 | Single mode saves one item for the first question and first result, with maximum `marks \|\| 5` and earned `score \|\| earnedMarks \|\| 0`, and the score text is those two |
| `OcrScanBatch.FullModeOneItemPerQuestion` | ocr-scan-batch.js:169-200 | Full mode saves one item per question; an unanswered question earns 0; the score text is the running total over the batch's stated total |
| `OcrScanBatch.FullModeTotalIsSum` | ocr-scan-batch.js:169-200 | With numeric earned marks the saved score is the sum of the items' earned marks over the batch's total |
| `Admin.AcceptedByExtension` | admin.js:332-339 | A file is accepted exactly when the text after its last dot is xlsx, xls or csv in any letter case |
| `Admin.NoDigitNoInt` | admin.js:412 | Text without a digit never parses as an integer, so such a marks cell is "not a number" |
| `Admin.FalsyMarksNotPositive` | admin.js:412-414 | An empty, zero, null, false or undefined marks cell never parses to a positive mark |
| `Admin.TextRowCheck` | admin.js:410-421 | A text row has no marks or model-answer error exactly when its marks parse to 1..100 and its model answer is not blank |
| `Admin.McqRowCheck` | admin.js:394-408 | An MCQ row has no option or answer error exactly when all four options are filled in and the answer reads A, B, C or D |
| `Admin.Difficulty` | admin.js:424-427 | The imported difficulty is always one of Easy, Medium, Hard, and a given valid level is kept |
| `Admin.Status` | admin.js:429-432 | The imported status is always active or inactive, and a given valid status is kept |
| `Admin.ValidateRow` | admin.js:378-449 | The record has row number index + 2, is valid exactly when it has no errors, is an MCQ worth 1 mark with four options exactly when the type reads "mcq", and lists the common errors followed by the type's own |
| `Admin.TextRowMarks` | admin.js:439 | A text row keeps the parsed mark, 0 when the cell does not parse |
| `Admin.ValidateExcelData` | admin.js:377-378 | One record per spreadsheet row, in order, with row numbers starting at 2 |
| `Admin.ProcessExcelFile` | admin.js:332-362 | A wrong extension and an empty sheet are refused with their messages; otherwise every row is validated |
| `Admin.DisplayPreview` | admin.js:463-472 | The preview lists exactly the valid rows, valid and invalid counts add up to all rows, and upload is disabled exactly when no row is valid |
| `Admin.FormMarks` | admin.js:759 | The form's mark is never 0: a missing or zero entry becomes 1 |
| `Admin.AddQuestionDoc` | admin.js:752-777 | An MCQ is stored with its options and answer and always 1 mark, without a model answer; a text question with its model answer and the form's mark, without options |
| `Admin.UpdateQuestionDoc` | admin.js:995-1025 | An edit writes every field of its type and clears the other type's fields with null |
| `Admin.UpdateAgreesWithAdd` | admin.js:752-777 | Editing with a form writes the same value as adding with it for every field a new question has |
| `Admin.FilterQuestions` | admin.js:1041-1050 | A question is shown exactly when its text or category contains the lower-cased search and it is in the chosen category |
| `Admin.ApplyAdvancedFilters` | admin.js:1313-1331 | A question is kept exactly when it passes search, category, status, difficulty and the marks range |
| `Admin.MarksNumber` | admin.js:1328 | Falsy marks count as 0; other marks are converted to a number as JavaScript's comparison does |
| `Admin.MarksTextFiltered` | admin.js:1328 | A question whose marks are the text of a number, or a one-number list, passes the filters exactly when it would with the number itself |
| `Admin.AdvancedFilterFacts` | admin.js:1313-1331 | The advanced filter keeps order, empty bounds mean marks 0..100, and a question without status counts as active |
| `Admin.CategoryKey` | admin.js:1072-1073 | A question without a category is counted under "Uncategorized" |
| `Admin.Statistics` | admin.js:1057-1083 | Every counter sums to the number of questions, and each category's count is the number of questions with that key |
| `Admin.UncategorizedCounted` | admin.js:1072-1073 | A question without a category makes the "Uncategorized" count at least 1 |
| `Admin.DuplicateDoc` | admin.js:1565-1567 | There is nothing to copy exactly when no question has the id |
| `Admin.DuplicateIsInactiveCopy` | admin.js:1565-1579 | The copy of the first question with the id is inactive, points back at it, appends " (Copy)" to its text and keeps its category, marks, model answer and difficulty |
| `Admin.DraftRoundTrip` | admin.js:1687-1745 | A draft saved within the last day with question text is restored field for field, with empty difficulty and status defaulted; an older one is discarded; one without text is left alone |
| `BatchManager.StripQuotes` | batch-manager.js:354 | Removing the outer quotes never lengthens a value and leaves a value without outer quotes unchanged |
| `BatchManager.QuotedCell` | batch-manager.js:354 | A quoted value reads back as the value itself |
| `BatchManager.HeaderName` | batch-manager.js:350 | A cleaned header holds no quote character |
| `BatchManager.RowFields` | batch-manager.js:358-361 | A row object has a key for every header, and a header not repeated later holds its own column's value, empty when the line is short |
| `BatchManager.CsvRows` | batch-manager.js:353-363 | One row per kept line, each keyed by exactly the headers |
| `BatchManager.ParseCsv` | batch-manager.js:346-366 | Fewer than two lines give no rows; otherwise one row per data line whose first value is not empty, each keyed by the header names |
| `BatchManager.ParsedRowColumns` | batch-manager.js:350-361 | With distinct headers, each parsed row maps every header to its column's value |
| `BatchManager.FirstAlias` | batch-manager.js:377-383 | A value is found exactly when some alias column holds a truthy value, and it is the value of the first such alias, every alias before it being missing or falsy |
| `BatchManager.IntOr` | batch-manager.js:383 | A non-zero integer is kept; text that does not parse, or parses to 0, gives the default |
| `BatchManager.ReadRow` | batch-manager.js:375-386 | A row throws exactly when its question value, or its answer value once the question has text, is not text; a row it takes has question text and a non-zero mark |
| `BatchManager.Taken` | batch-manager.js:375-387 | One question per row that imports, in order: the i-th is the question of the i-th such row |
| `BatchManager.TakenValid` | batch-manager.js:379-385 | Every question taken has text and a non-zero mark |
| `BatchManager.RunThrowsIff` | batch-manager.js:375-387 | The row loop ends in a throw exactly when some row throws |
| `BatchManager.RunAddsTaken` | batch-manager.js:375-387 | Without a throw, the loop adds exactly the questions of the rows that import |
| `BatchManager.RunStopsAtFirstThrow` | batch-manager.js:375-387 | A loop that throws stops at the first row that throws, with the questions of the rows before it already added |
| `BatchManager.ImportRows` | batch-manager.js:367-396 | No rows is reported as such; a row that throws fails the import with the earlier rows' questions kept; otherwise every row that imports gives its question, in order, and "none valid" when no row imports |
| `BatchManager.CsvNeverThrows` | batch-manager.js:336-339 | Rows read from CSV hold only text, so their import never fails |
| `BatchManager.NumberQuestionThrows` | batch-manager.js:329 | An Excel row whose `question` cell is a non-zero number makes the import throw |
| `BatchManager.ThrowKeepsEarlierRows` | batch-manager.js:329-335 | An Excel sheet whose second row throws keeps the first row's question added and ends as a failed import |
| `BatchManager.ImportUsesQuestionColumn` | batch-manager.js:374-385 | A row with a filled question column and a text answer is imported with that text, and with its marks column when that is a non-zero integer, as text or as a number |
| `BatchManager.AddQuestionItem` | batch-manager.js:199-232 | A new card goes after the others, takes the next counter value, is labelled one past the number of cards, and keeps the labels in order |
| `BatchManager.RemoveQuestionItem` | batch-manager.js:235-245 | The card is removed, the others keep their order and contents, and all are relabelled Q1..Qn |
| `BatchManager.ImportedCard` | batch-manager.js:385-387 | An imported question fills its card with its text, marks and answer |
| `BatchManager.EmptyMessages` | batch-manager.js:433-444 | There is no toast exactly when no card is empty |
| `BatchManager.SaveBatch` | batch-manager.js:409-465 | A blank name, no category or no cards are refused with their message; otherwise the batch is saved exactly when no card is empty, with one question per card, the count and the sum of the marks |
| `BatchManager.CollectQuestions` | batch-manager.js:430-449 | One toast per empty card, numbered from 1, and one question per card when none is empty |
| `BatchManager.TotalMarks` | batch-manager.js:456 | The total is the sum of the questions' marks |
| `BatchManager.BatchCard` | batch-manager.js:106-117 | A batch card shows the number of questions, at most three preview lines and how many more there are |
| `BatchManager.BatchCardTotals` | batch-manager.js:107-108 | A batch without questions shows zeros, and numeric marks total to their sum with a missing mark counting 0 |
| `McqTest.LoadSavedName` | mcq-test.js:77-87 | A name is loaded exactly when a non-empty one is stored and remembering is switched on, and it is the stored name |
| `McqTest.SavedNameRoundTrip` | mcq-test.js:77-110 | A saved non-empty name is what the next visit loads, and after clearing nothing is loaded |
| `McqTest.PickIndex` | mcq-test.js:465 | A draw in [0, 1) picks a position from 0 to i |
| `McqTest.Shuffle` | mcq-test.js:462-469 | The shuffled questions are a rearrangement of the pool: same length, same multiset |
| `McqTest.FreshAnswers` | mcq-test.js:203-213 | One blank, incorrect answer per question, carrying that question's id |
| `McqTest.StartQuiz` | mcq-test.js:172-224 | Without a name nothing starts; the typed name is stored only when remembering is ticked; an empty pool gives "no questions"; otherwise the quiz starts at the first of a rearrangement of the pool with blank answers |
| `McqTest.SelectOption` | mcq-test.js:282-290 | Only the current answer changes: it records the letter and is correct exactly when the letter is the question's correct answer |
| `McqTest.NextQuestion` | mcq-test.js:303-308 | Moves one forward unless on the last question, changing nothing else |
| `McqTest.PrevQuestion` | mcq-test.js:310-315 | Moves one back unless on the first question, changing nothing else |
| `McqTest.NavigationInverse` | mcq-test.js:303-315 | Forward then back, or back then forward, away from the ends returns to the same question |
| `McqTest.Score` | mcq-test.js:321-334 | Every answer counts as exactly one of skipped, correct or incorrect, and the counts add up to the number of answers |
| `McqTest.ResultClass` | mcq-test.js:356-365 | The score circle is high from 80, low below 50 and medium between |
| `McqTest.ResultOf` | mcq-test.js:374-382 | Each question is worth 1 mark and earns it exactly when answered correctly |
| `McqTest.FinishQuiz` | mcq-test.js:318-400 | The saved record counts correct, incorrect and skipped answers adding to the number of questions; the percentage is the share of correct answers rounded, 100 for all correct and 0 for none, written "n%"; the score is "correct/total", with one result per question |
| `McqTest.EarnedMarksCountCorrect` | mcq-test.js:374-382 | The earned marks of a saved quiz add up to its number of correct answers |
| `McqTest.RetryQuiz` | mcq-test.js:443-459 | Retrying empties the quiz at index 0 and takes the remembered name when there is one |
| `OcrScan.SelectMode` | ocr-scan.js:32-33 | Choosing a mode records it and changes nothing else |
| `OcrScan.LeaveFlow` | ocr-scan.js:84-88 | The back-to-modes button clears the mode and changes nothing else |
| `OcrScan.SetSingleImage` | ocr-scan.js:64 | The single-answer slot holds the picture handed over and nothing else changes |
| `OcrScan.SetFullSheetImage` | ocr-scan.js:151 | The full-sheet slot holds the picture handed over and nothing else changes |
| `OcrScan.AddQuestion` | ocr-scan.js:189-217 | The counter goes up by exactly one, a blank 5-mark card with that number is appended, and card numbers stay distinct and increasing |
| `OcrScan.FullSheetNext` | ocr-scan.js:155-163 | The first card is added only when none was ever added |
| `OcrScan.RemoveQuestion` | ocr-scan.js:219-226 | Exactly the card with that number goes, the others stay in order and keep their numbers, and the counter is unchanged |
| `OcrScan.FilterKeepsIncreasing` | ocr-scan.js:219-226 | Removing a card keeps the remaining card numbers increasing |
| `OcrScan.MarksOr5` | ocr-scan.js:234 | A card's mark is never 0: a non-zero integer is kept, anything else becomes 5 |
| `OcrScan.Filled` | ocr-scan.js:228-245 | The positions collected are increasing and are exactly the cards with non-blank question text |
| `OcrScan.GetQuestions` | ocr-scan.js:228-246 | One question per card with text, in card order, with the card's position as its id, the trimmed texts and a non-zero mark |
| `OcrScan.FilledAllWhenNoBlank` | ocr-scan.js:237-243 | With no blank card, the ids are q1..qn in order |
| `OcrScan.BlankFirstCardSkipsId` | ocr-scan.js:237-243 | A blank first card makes the first question's id q2 |
| `OcrScan.SingleArgsAsWritten` | ocr-scan.js:117-123 | The single-answer arguments as written carry the picture under `image` and `mimeType`, the question, answer and marks, and no `images` entry |
| `OcrScan.ImagesOf` | ocr-scan-api.js:16-25 | The picture as the one-entry list of data and MIME type the client forwards |
| `OcrScan.SingleArgs` | ocr-scan.js:117-123 | The corrected arguments carry the picture as an `images` list along with question, answer and marks |
| `OcrScan.SubmitSingle` | ocr-scan.js:96-124 | No call without a picture or with a blank question, each with its alert; otherwise the trimmed question and answer and `parseInt(max) \|\| 5` marks, with the picture under `image` and no `images` entry |
| `OcrScan.SubmitSingleCorrected` | ocr-scan.js:96-124 | The corrected submit alerts exactly when the page does, with the same alert, and otherwise sends the same question, answer and marks with the picture as an `images` list |
| `OcrScan.QuestionsJson` | ocr-scan.js:237-242 | Each collected question is sent as an object, in order |
| `OcrScan.FullSheetArgsAsWritten` | ocr-scan.js:264-268 | The full-sheet arguments as written carry the picture under `image` and `mimeType`, the questions, and no `images` entry |
| `OcrScan.FullSheetArgs` | ocr-scan.js:264-268 | The corrected arguments carry the picture as an `images` list and the questions |
| `OcrScan.SubmitFullSheet` | ocr-scan.js:248-268 | No call without a picture or without a question with text, each with its alert; otherwise the collected questions, with the picture under `image` and no `images` entry |
| `OcrScan.SubmitFullSheetCorrected` | ocr-scan.js:248-268 | The corrected submit alerts exactly when the page does, with the same alert, and otherwise sends the same questions with the picture as an `images` list |
| `OcrScan.ScanAnother` | ocr-scan.js:284-311 | The reset clears both pictures, the mode, the counter and the card list |
| `OcrScan.ScanAnotherRestartsNumbering` | ocr-scan.js:155-163 | After a reset, the next full-sheet step starts the list again at Q1 |
| `OcrScanCamera.Ratio` | ocr-scan-camera.js:105-106 | The scale factor brings both sides within 2048 and the limiting side to exactly 2048 |
| `OcrScanCamera.ScaledSize` | ocr-scan-camera.js:102-110 | A picture within 2048 on both sides keeps its size; a larger one is scaled so that both sides fit and one equals 2048 |
| `OcrScanCamera.CompressQuality` | ocr-scan-camera.js:116-124 | The loop stops once the data URL fits the budget or the quality is at most 0.3, every quality tried before was too large, and at most six reductions are made |
| `OcrScanCamera.Base64Of` | ocr-scan-camera.js:127 | The payload is undefined without a comma and never contains one |
| `OcrScanCamera.Base64OfDataUrl` | ocr-scan-camera.js:127 | A data URL with a comma-free header yields exactly its payload |
| `OcrScanCamera.CompressImage` | ocr-scan-camera.js:95-140 | The result is always JPEG at the scaled size, with a quality from 0.25 to 0.85 and the payload taken from its data URL |
| `OcrScanCamera.ImageReady` | ocr-scan-camera.js:63-84 | A ready picture is shown, unlocks the next step and is handed to the page |
| `OcrScanCamera.ResetUpload` | ocr-scan-camera.js:149-158 | A reset hides the preview, locks the next step and hands over no picture |
| `OcrScanCamera.ReplayKeepsLastPick` | ocr-scan-camera.js:63-158 | Over any run of ready and reset events the preview and the next button follow the picture held, which is the last picked one unless a reset came after it |
| `Dashboard.PercentOf` | dashboard.js:275-280 | A result without a percentage reads as NaN |
| `Dashboard.Score` | dashboard.js:154 | A percentage that does not read as a number counts as 0; otherwise its value |
| `Dashboard.StudentIds` | dashboard.js:145 | The set holds exactly the results' student ids |
| `Dashboard.StudentCountBounds` | dashboard.js:145-146 | There are never more students than results, and at least one when there is a result |
| `Dashboard.Scores` | dashboard.js:153-156 | One score per result, in order |
| `Dashboard.Mean` | dashboard.js:153-156 | The average times the number of values is their sum |
| `Dashboard.MeanWithin` | dashboard.js:153-156 | The average of values within a range lies within it |
| `Dashboard.Average` | dashboard.js:152-161 | There is an average exactly when there is a result, and it is the mean score |
| `Dashboard.AverageInRange` | dashboard.js:152-161 | Scores from 0 to 100 average between 0 and 100 |
| `Dashboard.ClassOf` | dashboard.js:195-198 | The badge is high from 80, low below 50 and medium between |
| `Dashboard.ChartBuckets` | dashboard.js:275-280 | The high, medium and low counts add up to the results whose percentage is a number |
| `Dashboard.BucketMatchesClass` | dashboard.js:195-198 | A numeric percentage falls in the chart bucket its badge names |
| `Dashboard.BucketsPartition` | dashboard.js:275-280 | No numeric percentage falls in two buckets or in none |
| `Dashboard.ApplyFilters` | dashboard.js:287-334 | The filtered list keeps the order and holds exactly the results that pass the name, type and score filters |
| `Dashboard.TypeFiltersComplementary` | dashboard.js:300-301 | The mcq and text type filters split the results into two parts that together cover them |
| `Dashboard.ScoreFilterMatchesClass` | dashboard.js:304-307 | The score filter keeps exactly the results whose badge is the chosen class |
| `Dashboard.ToggleSort` | dashboard.js:519-526 | Clicking the current column flips the order, and a new column sorts ascending |
| `Dashboard.ToggleTwice` | dashboard.js:519-526 | Clicking the same column twice restores the order |
| `Dashboard.Keys` | dashboard.js:622 | One grouping key per result, in order |
| `Dashboard.TestsPerStudent` | dashboard.js:620-636 | The tests per student add up to the number of results, each key counted as often as it occurs |
| `Dashboard.StudentOf` | dashboard.js:620-636 | A student's card exists exactly when a result has that key, and lists those results, their summed score and a last date no earlier than any of them |
| `Dashboard.Latest` | dashboard.js:634-636 | The last date is one of the results' dates and no earlier than any |
| `Dashboard.StudentTestsCounted` | dashboard.js:620-636 | A card lists exactly as many tests as the tally counts for that student |
| `Dashboard.StudentAverage` | dashboard.js:640-643 | The card's average times its number of tests is the summed score |
| `Dashboard.MaxOf` | dashboard.js:806 | The highest score is one of the scores and no score is above it |
| `Dashboard.MinOf` | dashboard.js:807 | The lowest score is one of the scores and no score is below it |
| `Dashboard.CalcStats` | dashboard.js:800-809 | No results give all zeros; otherwise the count, and a mean score between the lowest and the highest |
| `Dashboard.Quote` | dashboard.js:455 | A CSV field starts and ends with a quote |
| `Dashboard.DoubleQuotes` | dashboard.js:455 | Doubling adds one character per quote in the text |
| `Dashboard.QuoteRoundTrip` | dashboard.js:431-433 | A quoted field reads back as the original text |
| `Dashboard.AnalyticsCounts` | dashboard.js:905-909 | MCQ, OCR and text counts add up to the total, text being what is neither MCQ nor OCR |
| `Dashboard.TypePartition` | dashboard.js:796-798 | Every result is exactly one of MCQ, OCR and text |
| `Dashboard.ExportSplitsByType` | dashboard.js:890-893 | The MCQ and text exports together cover every result once |
| `Student.WordAt` | js/student.js:92 | The word at the front is the longest prefix without white space |
| `Student.Words` | js/student.js:92 | The words are non-empty runs without white space |
| `Student.NoWordsIffBlank` | js/student.js:92-93 | A text has no word exactly when it is blank |
| `Student.WordsStep` | js/student.js:92 | A word character ending a word adds one word; anything else adds none |
| `Student.WordCount` | js/student.js:91-94 | The count shown is the number of words of the text, trimmed or not, and 0 exactly for blank text |
| `Student.CountWords` | js/student.js:92-93 | Counting the characters that end a word gives the number of words |
| `Student.WordsOfTrim` | js/student.js:92 | Trimming before splitting changes nothing about the words |
| `Student.StartTest` | js/student.js:51-76 | A blank name or no selected question is refused with its alert, an unknown question is "not found", otherwise the test starts with the trimmed name and that question |
| `Student.RequestBody` | js/student.js:114-120 | The request carries the question and the answer but no maximum mark |
| `Student.SubmitAnswer` | js/student.js:97-121 | Nothing is sent exactly when the answer is blank; otherwise the trimmed answer is posted without a maximum mark |
| `Student.SubmissionId` | js/student.js:130 | The submission id starts with the question id and an underscore |
| `Student.SubmissionIdsDistinct` | js/student.js:130 | Two submissions to one question at different milliseconds get different ids |
| `Student.AfterReply` | js/student.js:123-147 | A reply that is not 2xx fails with the page's message, and a saved record carries the id built from the question and the time |
| `Student.TierOf` | js/student.js:164-170 | The circle is excellent exactly when the score converts to a number from 80, good exactly when it converts to one from 60 below 80, and needs improvement for a missing score |
| `Student.TierOfText` | js/student.js:164-170 | A score given as text that reads as a number gets the tier of that number |
| `Student.TierMonotone` | js/student.js:164-170 | A higher score never gets a lower tier |
| `Index.DisplayName` | index.js:42 | A non-empty display name is kept; otherwise the address up to its first `@`, the whole address when it has none |
| `Index.LocalPartShown` | index.js:123 | Without a display name, the shown name is the address's local part |
| `Index.SavedUser` | index.js:37-44 | The stored user keeps id and address, and its name is the one the navigation bar shows |
| `Index.SavedNameIsShown` | index.js:37-44 | The saved name is never empty when the address does not start with `@` |
| `Index.ConcatChars` | index.js:116 | Two characters join into two; the sum is only a number when both are missing |
| `Index.InitialsAsWritten` | index.js:112-119 | "U" for a missing or empty name, the first two characters uppercased without a space, and a thrown error exactly when the first two space-separated pieces are both empty |
| `Index.DoubledSpacePieces` | index.js:114 | "A  B" splits into "A", "" and "B" |
| `Index.DoubledSpaceShowsUndefined` | index.js:114-117 | As written, the name "A  B" gets the initials "AUNDEFINED" |
| `Index.LoneSpaceThrows` | index.js:114-117 | As written, the name " " throws instead of giving initials |
| `Index.Words` | index.js:114 | The words of a name are non-empty and hold no space |
| `Index.Initials` | index.js:112-119 | The corrected initials are one or two characters, never a space, and "U" for a missing or all-space name |
| `Index.DoubledSpaceInitials` | index.js:114-117 | Corrected, the name "A  B" gets the initials "AB" |
| `Index.InitialsAgree` | index.js:112-119 | The written and the corrected initials agree on every name whose first two pieces are non-empty, and on every name without a space |
| `Index.LoginErrorMessage` | index.js:69-72 | Each of the three known error codes gets its own message, and any other code gets "Login failed!" |
| `Index.PageOf` | index.js:225-256 | Each test button leads to one of the three test pages |
| `Index.ClickTest` | index.js:225-256 | A signed-in user goes to the test's page, and anyone else gets the sign-in alert for that test |
| `Index.PagesDistinct` | index.js:225-256 | Different test buttons lead to different pages |
| `CrossFile.StudentSubmissionRefused` | js/student.js:109-125 | Every answer the answer page posts is refused 400 for missing fields, and the page then shows its failure message |
| `CrossFile.GeminiSingleAdmitted` | gemini-config.js:9-13 | A single request with a question, answer and maximum reaches the service when a key is configured |
| `CrossFile.BatchAlwaysFallsBack` | gemini-config.js:61-101 | The batch request is refused 400 for missing fields, so every question gets a zero score with feedback naming the missing fields |
| `CrossFile.ForwardSingle` | ocr-scan-api.js:16-30 | The client forwards the argument object's `images` unchanged |
| `CrossFile.SingleAsWrittenRefused` | ocr-scan.js:117-123 | Every single-answer call the page makes, as written, is refused by a configured endpoint with 400 "No image provided" and calls no service |
| `CrossFile.NoImageReplyShown` | ocr-scan-api.js:32-49 | Reading that refusal, the scanner shows a zero score whose only hint repeats the endpoint's message |
| `CrossFile.OnePictureAdmitted` | api/ocr-evaluate.js:23-31 | A request whose `images` is a one-picture list is admitted with that picture |
| `CrossFile.OnePictureSheetAdmitted` | api/ocr-evaluate.js:23-44 | A request with a one-picture `images` list and a question list without `null` is admitted with that picture, in either mode |
| `CrossFile.SingleCorrectedAdmitted` | ocr-scan.js:117-123 | Every single-answer call of the corrected page is admitted with exactly its one picture and calls the service |
| `CrossFile.ForwardFullSheet` | ocr-scan-api.js:60-72 | The full-sheet client forwards the argument object's `images` and `questions` unchanged |
| `CrossFile.FullSheetAsWrittenRefused` | ocr-scan.js:264-268 | Every full-sheet call the page makes, as written, is refused with 400 |
| `CrossFile.FullSheetCorrectedAdmitted` | ocr-scan.js:264-268 | Every full-sheet call of the corrected page is admitted with exactly its one picture |
| `CrossFile.QuizBandKept` | mcq-test.js:390 | The percentage a quiz saves reads back on the dashboard as the same number, so the dashboard's high and low bands agree with the quiz page's |
| `JsValue.ToNumber` | ocr-scan-ui.js:51 | Conversion to a number: a number is itself, null is 0, booleans are 0 and 1, text is read as a decimal literal (blank text is 0), undefined and plain objects are NaN |
| `JsValue.ToNumberOfText` | ocr-scan-ui.js:51 | The text of an integer and a one-integer list convert to that integer, and the empty list to 0 |
| `Numbers.StringNumber` | ocr-scan-ui.js:51 | Blank text reads as 0 |
| `Numbers.SignedDecimal` | ocr-scan-ui.js:51 | Unsigned text reads as a whole decimal literal, and a leading minus negates it |
| `Numbers.UnsignedDecimal` | ocr-scan-ui.js:51 | Text read as a whole decimal literal has the value `parseFloat` gives it |
| `Numbers.StringNumberIntToString` | ocr-scan-ui.js:51 | The decimal text of every integer converts back to that integer |
| `Numbers.StringNumberPercentIsNaN` | mcq-test.js:390 | A saved `"n%"` text converts to NaN, while `parseFloat` reads it as n |
| `OcrScanUi.Scaled` | ocr-scan-ui.js:51 | The rounded percentage exists exactly when score and divisor are numbers and the divisor is not 0, and is the rounded share for a positive divisor |
| `OcrScanUi.SinglePercentage` | ocr-scan-ui.js:51 | A falsy maximum divides by 5, a positive maximum gives the rounded percentage, a score within the marks gives 0..100, and a score that is not a number gives NaN |
| `OcrScanUi.SheetPercentage` | ocr-scan-ui.js:109-111 | 0 unless the total maximum converts to a positive number, and 0 for a falsy score; otherwise the rounded percentage, within 0..100 when the score is within the total, and NaN exactly when a truthy score does not convert to a number |
| `OcrScanUi.QuestionPercentage` | ocr-scan-ui.js:117 | 0 when the question's marks do not convert to a positive number; otherwise the rounded percentage, NaN for a score that is not a number |
| `OcrScanUi.TextScoresConvert` | ocr-scan-ui.js:49-111 | A score given as text that reads as a number shows the same percentage as that number on both results pages |
| `OcrScanUi.ClassOf` | ocr-scan-ui.js:278-283 | Excellent from 80, good from 60, average from 40, poor below that and for NaN |
| `OcrScanUi.ClassMonotone` | ocr-scan-ui.js:278-283 | A higher percentage never gets a worse class |
| `OcrScanUi.EmojiOf` | ocr-scan-ui.js:288-294 | The emoji thresholds are 90, 80, 60 and 40, and NaN gets the lowest |
| `OcrScanUi.EmojiAgreesWithClass` | ocr-scan-ui.js:278-294 | The two top emojis are exactly the excellent class, and each lower emoji matches one class |
| `OcrScanUi.UpdateSteps` | ocr-scan-ui.js:263-273 | A step is active exactly when its number is the active step, completed exactly when it is below, and never both |
| `OcrScanUi.StepsProgress` | ocr-scan-ui.js:263-273 | Moving to a later step keeps completed steps completed and completes the one that was active |
| `JsValue.EscapeText` | ocr-scan-ui.js:299-304 | A falsy value gives the empty text, the result never holds `<` or `>`, and text without markup characters is unchanged |

## Left out

- Firebase: sign-in, sign-up, sign-out and every Firestore read and write are outside the model. They are external services. The model computes the documents the pages write, and takes the documents they read as parameters. Server timestamps and author e-mails in those documents are left out.
- The DOM: rendering, modals, toasts, animations, `setTimeout` delays, scrolling and chart drawing. The model keeps only the values these show.
- CORS headers and console logging in the two endpoints. They do not affect the status or the body.
- The Gemini model. It is an oracle: the endpoints take the outcome of their grading `fetch` as a parameter.
- The second `fetch` of `api/evaluate.js` (lines 173-176). It asks for the list of Gemini models after a successful grading, is not awaited, and only logs the answer, so it never changes the reply.
- JSON.parse. It is a parameter. Only its answers matter to the pages.
- Reading files: the XLSX workbook in `processExcelFile`, the file reader in `handleCsvFile` and image decoding in `compressImage`. The model starts from the sheet's rows, the CSV text, and the picture's size plus an encoder function.
- Dates: the dashboard's date filter and "today" count, date formatting, and the quiz timer's minutes:seconds display. Times are plain millisecond numbers.
- Sort comparators in `sortTable` and `renderStudentsPage`, and the key order of `Object.values`. Only the sort state and the per-student grouping are modelled.
- The dashboard's detail modal, its per-item progress bars, the recent-results list and the body rows of `exportResult`. Only the CSV quoting and the export counts are modelled.
- `loadQuestions`, `loadMCQQuestions`, `loadBatches`, `editBatch`, `deleteBatch`, `uploadQuestions` and the template download. These are database reads and writes or file downloads with no decision logic beyond the parts modelled.
- Numbers are exact reals: IEEE-754 rounding and `toFixed` formatting are not modelled.
- Numbers.ParseInt: only the prefix `0x`/`0X` selects another base, as in JavaScript's `parseInt` without a radix; `0b` and `0o` read as 0. Radix arguments other than the default are not modelled, because the application never passes one.
- Numbers.ParseFloat: exponents and `Infinity` are not modelled. Only sign, digits and a fraction are read, which covers the `"n%"` texts the pages save.
- Numbers.NumberText: a non-integer is written in plain decimal notation rather than JavaScript's shortest round-trip digits or exponent notation.
- Strings.ToLower and Strings.ToUpper map ASCII letters only. Full Unicode case mapping is out of scope.
- Index.InitialsAsWritten: a string is a sequence of Unicode characters, whereas JavaScript's `[0]` and `substring(0, 2)` (index.js:116-118) take UTF-16 code units. For a name that starts with a character outside the Basic Multilingual Plane, such as an emoji, JavaScript takes a lone surrogate, or one character where the model takes two. The model takes whole characters. Names made of Basic Multilingual Plane characters, which covers Latin, Cyrillic, Arabic and common CJK, behave the same.
- Index.Initials: the corrected initials take whole characters for the same reason, which is also what the evident intent asks for.
- OcrScanCamera.CompressQuality: the quality is kept in integer hundredths. The source subtracts 0.1 in floating point, which reaches the same qualities up to rounding in the last digits.
- Numbers.StringNumber: exponent notation (`"1e3"`), hexadecimal (`"0x10"`) and `"Infinity"` read as NaN; JavaScript's `Number` reads them as numbers. Sign, digits, a point and a fraction are read, and blank text is 0.
- JsValue.ToNumber: text is read as `Numbers.StringNumber` reads it, so it shares that gap. An array converts through its text, whose numbers are written by `Numbers.NumberText`.
- OcrScanUi.Scaled: a divisor of 0 gives no percentage. This happens only on the single-answer page, for a maximum given as text that reads as 0, such as `"0"`; JavaScript shows `Infinity%` or `NaN%` there.
- Admin.LowerIncludes: a text or category that is not a string is taken as not matching. JavaScript would throw when calling `toLowerCase` on it.
- Admin.Age: a saved time that is a string is taken as NaN. Drafts are always saved with a numeric time.
- Dashboard.TestResult: the percentage is held as text, the `"n%"` form every page saves. A number stored directly is not represented.
- BatchManager.CollectQuestions: the questions are built after the toast loop rather than inside it. When any card is empty, the source also throws the questions away, so the outcome is the same.
- An exception escaping a serverless handler is the single reply `Crashed`; the message of the JavaScript `TypeError` is not modelled.

## Findings

| source | as written | input that shows it | evidently intended | confidence | as-written member | corrected member |
|---|---|---|---|---|---|---|
| index.js:114-117 | `getUserInitials` joins the first characters of the first two space-separated pieces. An empty piece has no first character, so `undefined` enters the text. When both pieces are empty the sum is NaN, whose `toUpperCase` throws | the name `"A  B"` gives `"AUNDEFINED"`; the name `" "` throws | initials from the first two non-empty words (`"AB"`), and `"U"` for a blank name | not executed | `Index.InitialsAsWritten`, `Index.DoubledSpaceShowsUndefined`, `Index.LoneSpaceThrows` | `Index.Initials`, `Index.DoubledSpaceInitials`, `Index.InitialsAgree` |
| ocr-scan.js:117-123 | `submitSingle` passes the picture as `image` and `mimeType`. `OCRAPI.evaluateSingle` (ocr-scan-api.js:16) forwards only `images`, so the request carries no picture and the endpoint answers 400 "No image provided" | any single-answer scan with a picture and a question | pass `images: [{data, mimeType}]` | not executed | `OcrScan.SubmitSingle`, `CrossFile.SingleAsWrittenRefused` | `OcrScan.SubmitSingleCorrected`, `CrossFile.SingleCorrectedAdmitted` |
| ocr-scan.js:264-268 | `submitFullSheet` passes the sheet's picture the same way. `OCRAPI.evaluateFullSheet` (ocr-scan-api.js:60) forwards only `images`, so the endpoint answers 400 | any full-sheet scan with a picture and one question | pass `images: [{data, mimeType}]` | not executed | `OcrScan.SubmitFullSheet`, `CrossFile.FullSheetAsWrittenRefused` | `OcrScan.SubmitFullSheetCorrected`, `CrossFile.FullSheetCorrectedAdmitted` |

=== FILE: admin.dfy ===
/** The question-bank administration page (`admin.js`): spreadsheet import
    and its row validation, the add and edit forms, the question filters,
    the statistics counts, duplication and the form draft. Storage and the
    page itself are left out; what is modelled is the data each step
    computes. */
module Admin {
  import opened Wrappers
  import opened Seqs
  import opened Strings
  import opened Numbers
  import opened JsValue
  import opened Tallies

  const Categories: seq<string> := [
    "Microeconomics", "Macroeconomics", "International Economics", "Development Economics",
    "Public Economics", "Monetary Economics", "Labor Economics", "Environmental Economics",
    "Econometrics", "Economic Theory"]

  // ---------------------------------------------------------------------
  // Spreadsheet import

  /** `'.' + name.split('.').pop().toLowerCase()`. */
  function FileExtension(name: string): string {
    "." + ToLower(LastPiece(name, '.'))
  }

  /** The extension check of `processExcelFile`. */
  predicate AcceptedFile(name: string) {
    FileExtension(name) in [".xlsx", ".xls", ".csv"]
  }

  /** A name is accepted exactly when the text after its last dot is
      `xlsx`, `xls` or `csv` in any letter case. */
  lemma AcceptedByExtension(base: string, ext: string)
    requires '.' !in ext
    ensures AcceptedFile(base + "." + ext) <==> ToLower(ext) in ["xlsx", "xls", "csv"]
  {
    LastPieceAfter(base, ext, '.');
    assert base + "." + ext == base + ['.'] + ext;
    var e := ToLower(ext);
    assert FileExtension(base + "." + ext) == "." + e;
    assert "." + e == ".xlsx" <==> e == "xlsx" by {
      if "." + e == ".xlsx" { assert e == ("." + e)[1..]; }
    }
    assert "." + e == ".xls" <==> e == "xls" by {
      if "." + e == ".xls" { assert e == ("." + e)[1..]; }
    }
    assert "." + e == ".csv" <==> e == "csv" by {
      if "." + e == ".csv" { assert e == ("." + e)[1..]; }
    }
  }

  /** `!v || String(v).trim() === ''`. */
  predicate Blank(v: Val) {
    !Truthy(v) || Trim(ToText(v)) == ""
  }

  /** `String(v || '').trim()`. */
  function TextOf(v: Val): string {
    Trim(ToText(Some(OrTo(v, Str("")))))
  }

  /** `String(row.type || 'text').toLowerCase().trim()`. */
  function RowType(row: Json): string {
    Trim(ToLower(ToText(Some(OrTo(Prop(row, "type"), Str("text"))))))
  }

  /** `VALID_CATEGORIES.includes(v)`: strict equality, no trimming. */
  predicate KnownCategory(v: Val) {
    v.Some? && v.value.Str? && v.value.s in Categories
  }

  /** `parseInt(row.marks)`. */
  function RowMarks(row: Json): Option<int> {
    ParseInt(ToText(Prop(row, "marks")))
  }

  function CommonErrors(row: Json): seq<string> {
    var category := Prop(row, "category");
    (if Blank(Prop(row, "text")) then ["Question text is required"] else [])
    + (if Blank(category) then ["Category is required"]
       else if !KnownCategory(category) then ["Invalid category: \"" + ToText(category) + "\""]
       else [])
  }

  /** `String(v).toUpperCase().trim()` is one of A-D. */
  predicate AnswerLetter(v: Val) {
    Trim(ToUpper(ToText(v))) in ["A", "B", "C", "D"]
  }

  function McqErrors(row: Json): seq<string> {
    (if Blank(Prop(row, "optionA")) then ["Option A is required for MCQ"] else [])
    + (if Blank(Prop(row, "optionB")) then ["Option B is required for MCQ"] else [])
    + (if Blank(Prop(row, "optionC")) then ["Option C is required for MCQ"] else [])
    + (if Blank(Prop(row, "optionD")) then ["Option D is required for MCQ"] else [])
    + (if !Truthy(Prop(row, "correctAnswer")) || !AnswerLetter(Prop(row, "correctAnswer"))
       then ["Correct answer must be A, B, C, or D for MCQ"] else [])
  }

  function TextErrors(row: Json): seq<string> {
    var marks := Prop(row, "marks");
    (if !Truthy(marks) || RowMarks(row).None? then ["Marks must be a number"]
     else if RowMarks(row).value < 1 || RowMarks(row).value > 100 then ["Marks must be between 1-100"]
     else [])
    + (if Blank(Prop(row, "modelAnswer")) then ["Model answer is required for text questions"] else [])
  }

  /** Text without a digit never parses to a number. */
  lemma NoDigitNoInt(s: string)
    requires forall i :: 0 <= i < |s| ==> !IsDecDigit(s[i])
    ensures ParseInt(s).None?
  {
  }

  /** A falsy cell never parses to a positive number. */
  lemma FalsyMarksNotPositive(v: Val)
    requires !Truthy(v)
    ensures ParseInt(ToText(v)).None? || ParseInt(ToText(v)) == Some(0)
  {
    match v
    case None =>
      NoDigitNoInt("undefined");
    case Some(j) =>
      match j
      case Num(n) =>
        assert n == 0.0;
        NumberTextInt(0);
        ParseIntIntToString(0);
      case Str(s) =>
        assert s == "";
        ParseIntBlank(s);
      case Null =>
        NoDigitNoInt("null");
      case Bool(_) =>
        NoDigitNoInt("false");
      case _ =>
  }

  /** A text row has no marks or model-answer error exactly when its marks
      parse to an integer from 1 to 100 and its model answer is not
      blank. */
  lemma TextRowCheck(row: Json)
    ensures TextErrors(row) == [] <==>
      (RowMarks(row).Some? && 1 <= RowMarks(row).value <= 100 && !Blank(Prop(row, "modelAnswer")))
  {
    if !Truthy(Prop(row, "marks")) {
      FalsyMarksNotPositive(Prop(row, "marks"));
    }
  }

  /** An MCQ row has no option or answer error exactly when all four
      options are filled in and the answer reads as A, B, C or D. */
  lemma McqRowCheck(row: Json)
    ensures McqErrors(row) == [] <==>
      (&& !Blank(Prop(row, "optionA")) && !Blank(Prop(row, "optionB"))
       && !Blank(Prop(row, "optionC")) && !Blank(Prop(row, "optionD"))
       && Truthy(Prop(row, "correctAnswer")) && AnswerLetter(Prop(row, "correctAnswer")))
  {
  }

  /** `row.difficulty || 'Medium'`, kept only when it is one of the three
      levels. */
  function Difficulty(row: Json): (d: string)
    ensures d in ["Easy", "Medium", "Hard"]
    ensures forall x :: x in ["Easy", "Medium", "Hard"] && Prop(row, "difficulty") == Some(Str(x)) ==> d == x
  {
    var v := OrTo(Prop(row, "difficulty"), Str("Medium"));
    if v.Str? && v.s in ["Easy", "Medium", "Hard"] then v.s else "Medium"
  }

  /** `row.status || 'active'`, kept only when it is a known status. */
  function Status(row: Json): (s: string)
    ensures s in ["active", "inactive"]
    ensures forall x :: x in ["active", "inactive"] && Prop(row, "status") == Some(Str(x)) ==> s == x
  {
    var v := OrTo(Prop(row, "status"), Str("active"));
    if v.Str? && v.s in ["active", "inactive"] then v.s else "active"
  }

  datatype Details =
    | McqDetails(options: seq<string>, correctAnswer: string)
    | TextDetails(modelAnswer: string)

  /** One validated spreadsheet row. */
  datatype RowResult = RowResult(
    rowNumber: nat,
    qtype: string,
    text: string,
    category: string,
    marks: int,
    difficulty: string,
    status: string,
    isValid: bool,
    errors: seq<string>,
    details: Details)

  /** The record `validateExcelData` builds for the row at `index`. */
  function ValidateRow(row: Json, index: nat): (r: RowResult)
    ensures r.rowNumber == index + 2
    ensures r.isValid <==> r.errors == []
    ensures r.qtype in ["mcq", "text"] && (r.qtype == "mcq" <==> RowType(row) == "mcq")
    ensures r.qtype == "mcq" ==> r.marks == 1 && r.details.McqDetails? && |r.details.options| == 4
    ensures r.qtype == "text" ==> r.details.TextDetails?
    ensures r.errors == CommonErrors(row) + (if r.qtype == "mcq" then McqErrors(row) else TextErrors(row))
  {
    var mcq := RowType(row) == "mcq";
    var errors := CommonErrors(row) + (if mcq then McqErrors(row) else TextErrors(row));
    RowResult(
      index + 2,
      if mcq then "mcq" else "text",
      TextOf(Prop(row, "text")),
      TextOf(Prop(row, "category")),
      if mcq then 1 else (match RowMarks(row) case Some(m) => m case None => 0),
      Difficulty(row),
      Status(row),
      errors == [],
      errors,
      if mcq then
        McqDetails([TextOf(Prop(row, "optionA")), TextOf(Prop(row, "optionB")),
                    TextOf(Prop(row, "optionC")), TextOf(Prop(row, "optionD"))],
                   Trim(ToUpper(ToText(Some(OrTo(Prop(row, "correctAnswer"), Str("")))))))
      else TextDetails(TextOf(Prop(row, "modelAnswer"))))
  }

  /** A text row keeps the parsed mark (0 when it is not a number). */
  lemma TextRowMarks(row: Json, index: nat)
    requires RowType(row) != "mcq"
    ensures RowMarks(row).Some? ==> ValidateRow(row, index).marks == RowMarks(row).value
    ensures RowMarks(row).None? ==> ValidateRow(row, index).marks == 0
  {
  }

  /** `validateExcelData`: one record per row, same order. */
  function ValidateExcelData(rows: seq<Json>): (rs: seq<RowResult>)
    ensures |rs| == |rows|
    ensures forall i :: 0 <= i < |rows| ==> rs[i] == ValidateRow(rows[i], i) && rs[i].rowNumber == i + 2
  {
    seq(|rows|, i requires 0 <= i < |rows| => ValidateRow(rows[i], i))
  }

  /** What `processExcelFile` ends with. */
  datatype Import = Refused(message: string) | Parsed(rows: seq<RowResult>)

  /** `processExcelFile` with the sheet's rows (reading the workbook is
      left out). */
  function ProcessExcelFile(name: string, rows: seq<Json>): (r: Import)
    ensures !AcceptedFile(name) ==> r == Refused("Please upload a valid Excel file (.xlsx, .xls, .csv)")
    ensures AcceptedFile(name) && rows == [] ==> r == Refused("The Excel file is empty")
    ensures AcceptedFile(name) && rows != [] ==> r.Parsed? && |r.rows| == |rows|
  {
    if !AcceptedFile(name) then Refused("Please upload a valid Excel file (.xlsx, .xls, .csv)")
    else if rows == [] then Refused("The Excel file is empty")
    else Parsed(ValidateExcelData(rows))
  }

  /** The split `displayPreview` shows. */
  datatype Preview = Preview(valid: seq<RowResult>, invalidCount: nat, uploadDisabled: bool)

  function DisplayPreview(rows: seq<RowResult>): (p: Preview)
    ensures forall r :: r in p.valid <==> r in rows && r.isValid
    ensures |p.valid| + p.invalidCount == |rows|
    ensures p.uploadDisabled <==> p.valid == []
  {
    var valid := Filter(rows, (r: RowResult) => r.isValid);
    var invalid := Filter(rows, (r: RowResult) => !r.isValid);
    CountIsFilterLength(rows, (r: RowResult) => r.isValid);
    CountIsFilterLength(rows, (r: RowResult) => !r.isValid);
    CountComplement(rows, (r: RowResult) => r.isValid, (r: RowResult) => !r.isValid);
    Preview(valid, |invalid|, |valid| == 0)
  }

  // ---------------------------------------------------------------------
  // Add and edit forms

  /** The values of the question form. */
  datatype Form = Form(
    qtype: string, text: string, category: string, marks: string,
    difficulty: string, status: string,
    optionA: string, optionB: string, optionC: string, optionD: string,
    correctAnswer: string, modelAnswer: string)

  /** `parseInt(marks) || 1`. */
  function FormMarks(f: Form): (m: int)
    ensures m != 0
  {
    match ParseInt(f.marks)
    case Some(p) => if p != 0 then p else 1
    case None => 1
  }

  function OptionsObject(f: Form): Json {
    Obj(map["A" := Str(f.optionA), "B" := Str(f.optionB), "C" := Str(f.optionC), "D" := Str(f.optionD)])
  }

  /** The document `addQuestion` writes (timestamps and author left out):
      an MCQ carries options and answer and is always worth 1 mark, a
      text question carries its model answer. */
  function AddQuestionDoc(f: Form): (d: map<string, Json>)
    ensures "marks" in d && "type" in d && d["type"] == Str(f.qtype)
    ensures f.qtype == "mcq" ==> d["marks"] == Num(1.0) && "modelAnswer" !in d
    ensures f.qtype == "mcq" ==> "options" in d && d["options"] == OptionsObject(f)
    ensures f.qtype == "mcq" ==> "correctAnswer" in d && d["correctAnswer"] == Str(f.correctAnswer)
    ensures f.qtype != "mcq" ==> d["marks"] == Num(FormMarks(f) as real)
    ensures f.qtype != "mcq" ==> "options" !in d && "correctAnswer" !in d
    ensures f.qtype != "mcq" ==> "modelAnswer" in d && d["modelAnswer"] == Str(f.modelAnswer)
  {
    if f.qtype == "mcq" then
      map["type" := Str(f.qtype), "text" := Str(f.text), "category" := Str(f.category),
          "marks" := Num(1.0), "difficulty" := Str(f.difficulty), "status" := Str(f.status),
          "options" := OptionsObject(f), "correctAnswer" := Str(f.correctAnswer)]
    else
      map["type" := Str(f.qtype), "text" := Str(f.text), "category" := Str(f.category),
          "marks" := Num(FormMarks(f) as real), "difficulty" := Str(f.difficulty), "status" := Str(f.status),
          "modelAnswer" := Str(f.modelAnswer)]
  }

  /** The fields `updateQuestion` writes: as for a new question, except
      that switching type clears the other type's fields with `null`. */
  function UpdateQuestionDoc(f: Form): (d: map<string, Json>)
    ensures "marks" in d && "options" in d && "correctAnswer" in d && "modelAnswer" in d
    ensures f.qtype == "mcq" ==> d["marks"] == Num(1.0) && d["modelAnswer"] == Null
    ensures f.qtype == "mcq" ==> d["options"] == OptionsObject(f) && d["correctAnswer"] == Str(f.correctAnswer)
    ensures f.qtype != "mcq" ==> d["options"] == Null && d["correctAnswer"] == Null
    ensures f.qtype != "mcq" ==> d["modelAnswer"] == Str(f.modelAnswer)
    ensures f.qtype != "mcq" ==> d["marks"] == Num(FormMarks(f) as real)
  {
    if f.qtype == "mcq" then
      map["type" := Str(f.qtype), "text" := Str(f.text), "category" := Str(f.category),
          "marks" := Num(1.0), "difficulty" := Str(f.difficulty), "status" := Str(f.status),
          "options" := OptionsObject(f), "correctAnswer" := Str(f.correctAnswer), "modelAnswer" := Null]
    else
      map["type" := Str(f.qtype), "text" := Str(f.text), "category" := Str(f.category),
          "marks" := Num(FormMarks(f) as real), "difficulty" := Str(f.difficulty), "status" := Str(f.status),
          "modelAnswer" := Str(f.modelAnswer), "options" := Null, "correctAnswer" := Null]
  }

  /** Adding and then editing with the same form gives the same values
      for every field a new question has. */
  lemma UpdateAgreesWithAdd(f: Form)
    ensures forall k :: k in AddQuestionDoc(f) ==> k in UpdateQuestionDoc(f) && UpdateQuestionDoc(f)[k] == AddQuestionDoc(f)[k]
  {
  }

  // ---------------------------------------------------------------------
  // Filters

  /** `v?.toLowerCase().includes(term)` for a string field (a field of
      another type is treated as not matching). */
  predicate LowerIncludes(v: Val, term: string) {
    v.Some? && v.value.Str? && Contains(ToLower(v.value.s), term)
  }

  predicate SearchMatch(q: Json, term: string) {
    LowerIncludes(Prop(q, "text"), term) || LowerIncludes(Prop(q, "category"), term)
  }

  /** `filterQuestions`: the search has no empty-term shortcut, so a
      question with neither text nor category is hidden even by an empty
      search. */
  predicate BasicMatch(q: Json, search: string, category: string) {
    SearchMatch(q, ToLower(search)) && (category == "" || Prop(q, "category") == Some(Str(category)))
  }

  function FilterQuestions(qs: seq<Json>, search: string, category: string): (r: seq<Json>)
    ensures forall q :: q in r <==> q in qs && BasicMatch(q, search, category)
  {
    Filter(qs, q => BasicMatch(q, search, category))
  }

  /** The advanced filter form. */
  datatype Filters = Filters(search: string, category: string, status: string, difficulty: string,
                             minMarks: string, maxMarks: string)

  /** `parseInt(raw) || d`. */
  function Bound(raw: string, d: int): int {
    match ParseInt(raw)
    case Some(p) => if p != 0 then p else d
    case None => d
  }

  /** `(q.marks || 0)` as `>=` and `<=` compare it with a number: numeric
      text and one-number arrays convert, NaN fails both tests. */
  function MarksNumber(q: Json): (r: Option<real>)
    ensures !Truthy(Prop(q, "marks")) ==> r == Some(0.0)
    ensures Truthy(Prop(q, "marks")) ==> r == ToNumber(Prop(q, "marks"))
  {
    ToNumber(Some(OrTo(Prop(q, "marks"), Num(0.0))))
  }

  predicate AdvancedMatch(q: Json, f: Filters) {
    var term := ToLower(f.search);
    && (term == "" || SearchMatch(q, term))
    && (f.category == "" || Prop(q, "category") == Some(Str(f.category)))
    && (f.status == "" || OrTo(Prop(q, "status"), Str("active")) == Str(f.status))
    && (f.difficulty == "" || Prop(q, "difficulty") == Some(Str(f.difficulty)))
    && MarksNumber(q).Some?
    && Bound(f.minMarks, 0) as real <= MarksNumber(q).value <= Bound(f.maxMarks, 100) as real
  }

  function ApplyAdvancedFilters(qs: seq<Json>, f: Filters): (r: seq<Json>)
    ensures forall q :: q in r <==> q in qs && AdvancedMatch(q, f)
  {
    Filter(qs, q => AdvancedMatch(q, f))
  }

  /** The advanced filter keeps questions in their order, and with empty
      bounds keeps only marks from 0 to 100; a question without a status
      counts as active. */
  lemma AdvancedFilterFacts(qs: seq<Json>, f: Filters)
    ensures IsSubsequence(ApplyAdvancedFilters(qs, f), qs)
    ensures f.minMarks == "" && f.maxMarks == "" ==>
      forall q :: q in ApplyAdvancedFilters(qs, f) ==> 0.0 <= MarksNumber(q).value <= 100.0
    ensures f.status == "active" ==> forall q :: q in ApplyAdvancedFilters(qs, f) ==>
      (!Truthy(Prop(q, "status")) || Prop(q, "status") == Some(Str("active")))
  {
    FilterIsSubsequence(qs, q => AdvancedMatch(q, f));
    ParseIntBlank("");
  }

  /** A question whose marks are stored as text or as a one-number array
      is filtered by that number, as one whose marks are a number. */
  lemma MarksTextFiltered(q: Json, n: int, f: Filters)
    requires q.Obj? && n != 0
    requires Prop(q, "marks") == Some(Str(IntToString(n))) || Prop(q, "marks") == Some(Arr([Num(n as real)]))
    ensures AdvancedMatch(q, f) == AdvancedMatch(q.(fields := q.fields["marks" := Num(n as real)]), f)
  {
    var q' := q.(fields := q.fields["marks" := Num(n as real)]);
    MarksTextNumber(q, n);
    assert MarksNumber(q') == Some(n as real);
    assert Prop(q', "text") == Prop(q, "text");
    assert Prop(q', "category") == Prop(q, "category");
    assert Prop(q', "status") == Prop(q, "status");
    assert Prop(q', "difficulty") == Prop(q, "difficulty");
  }

  lemma MarksTextNumber(q: Json, n: int)
    requires q.Obj?
    requires Prop(q, "marks") == Some(Str(IntToString(n))) || Prop(q, "marks") == Some(Arr([Num(n as real)]))
    ensures MarksNumber(q) == Some(n as real)
  {
    ToNumberOfText(n);
  }

  // ---------------------------------------------------------------------
  // Statistics

  /** `String(data.category || 'Uncategorized')`, the counter key. */
  function CategoryKey(q: Json): (k: string)
    ensures !Truthy(Prop(q, "category")) ==> k == "Uncategorized"
  {
    ToText(Some(OrTo(Prop(q, "category"), Str("Uncategorized"))))
  }

  function KeyWithDefault(q: Json, field: string, d: string): string {
    ToText(Some(OrTo(Prop(q, field), Str(d))))
  }

  /** The counters of `loadStatistics`. */
  datatype Stats = Stats(total: nat, categories: Tally, difficulties: Tally, statuses: Tally, types: Tally)

  function Statistics(qs: seq<Json>): (s: Stats)
    ensures s.total == |qs|
    ensures Total(s.categories) == |qs| && Total(s.difficulties) == |qs|
    ensures Total(s.statuses) == |qs| && Total(s.types) == |qs|
    ensures forall k :: CountOf(s.categories, k) == Occurrences(seq(|qs|, i requires 0 <= i < |qs| => CategoryKey(qs[i])), k)
  {
    Stats(|qs|,
      TallyOf([], seq(|qs|, i requires 0 <= i < |qs| => CategoryKey(qs[i]))),
      TallyOf([("Easy", 0), ("Medium", 0), ("Hard", 0)],
              seq(|qs|, i requires 0 <= i < |qs| => KeyWithDefault(qs[i], "difficulty", "Medium"))),
      TallyOf([("active", 0), ("inactive", 0)],
              seq(|qs|, i requires 0 <= i < |qs| => KeyWithDefault(qs[i], "status", "active"))),
      TallyOf([("mcq", 0), ("text", 0)],
              seq(|qs|, i requires 0 <= i < |qs| => KeyWithDefault(qs[i], "type", "text"))))
  }

  /** A question with no category is counted under "Uncategorized". */
  lemma UncategorizedCounted(qs: seq<Json>, i: nat)
    requires i < |qs| && !Truthy(Prop(qs[i], "category"))
    ensures CountOf(Statistics(qs).categories, "Uncategorized") >= 1
  {
    var keys := seq(|qs|, j requires 0 <= j < |qs| => CategoryKey(qs[j]));
    OccurrencesPositive(keys, i, "Uncategorized");
  }

  lemma {:induction false} OccurrencesPositive(keys: seq<string>, i: nat, k: string)
    requires i < |keys| && keys[i] == k
    ensures Occurrences(keys, k) >= 1
    decreases i
  {
    if i > 0 {
      OccurrencesPositive(keys[1..], i - 1, k);
    }
  }

  // ---------------------------------------------------------------------
  // Duplication and drafts

  predicate IdIs(q: Json, id: string) {
    Prop(q, "id") == Some(Str(id))
  }

  /** The fields `duplicateQuestion` writes for the first question with
      that id, in order (timestamps and author left out); `None` when no
      question has it. A field the original lacks is written as
      `undefined`. */
  function DuplicateDoc(qs: seq<Json>, id: string): (r: Option<seq<(string, Val)>>)
    ensures r.None? <==> forall j :: 0 <= j < |qs| ==> !IdIs(qs[j], id)
  {
    match FindFirst(qs, q => IdIs(q, id))
    case None => None
    case Some(k) =>
      var q := qs[k];
      Some([("text", Some(Str(ToText(Prop(q, "text")) + " (Copy)"))),
            ("category", Prop(q, "category")),
            ("marks", Prop(q, "marks")),
            ("modelAnswer", Prop(q, "modelAnswer")),
            ("difficulty", Prop(q, "difficulty")),
            ("status", Some(Str("inactive"))),
            ("duplicatedFrom", Some(Str(id)))])
  }

  /** A copy is inactive, points back at the original, carries its text
      with " (Copy)" appended and keeps its category, marks, model answer
      and difficulty. */
  lemma DuplicateIsInactiveCopy(qs: seq<Json>, id: string, k: nat)
    requires k < |qs| && IdIs(qs[k], id) && forall j :: 0 <= j < k ==> !IdIs(qs[j], id)
    ensures var d := DuplicateDoc(qs, id);
      && d.Some? && |d.value| == 7
      && d.value[0] == ("text", Some(Str(ToText(Prop(qs[k], "text")) + " (Copy)")))
      && d.value[1] == ("category", Prop(qs[k], "category"))
      && d.value[2] == ("marks", Prop(qs[k], "marks"))
      && d.value[3] == ("modelAnswer", Prop(qs[k], "modelAnswer"))
      && d.value[4] == ("difficulty", Prop(qs[k], "difficulty"))
      && d.value[5] == ("status", Some(Str("inactive")))
      && d.value[6] == ("duplicatedFrom", Some(Str(id)))
  {
    var r := FindFirst(qs, q => IdIs(q, id));
    assert r.Some?;
    assert r.value == k;
  }

  /** The form fields a draft keeps. */
  datatype DraftFields = DraftFields(questionText: string, category: string, marks: string,
                                     modelAnswer: string, difficulty: string, status: string)

  const DayMs: int := 24 * 60 * 60 * 1000

  /** The draft `saveDraft` stores, with `now` as `Date.now()`. */
  function SaveDraft(f: DraftFields, now: int): Json {
    Obj(map[
      "questionText" := Str(f.questionText), "category" := Str(f.category), "marks" := Str(f.marks),
      "modelAnswer" := Str(f.modelAnswer), "difficulty" := Str(f.difficulty), "status" := Str(f.status),
      "savedAt" := Num(now as real)])
  }

  /** What `loadDraft` does with the stored text. */
  datatype DraftAction =
    | NoDraft
    | Discard
    | Ignore
    | Restore(questionText: Val, category: Val, marks: Val, modelAnswer: Val, difficulty: Json, status: Json)

  /** `Date.now() - data.savedAt` as a number; `None` is NaN, which is
      never greater than the limit (string times are treated as NaN). */
  function Age(data: Json, now: int): Option<real> {
    var t := Prop(data, "savedAt");
    if t.Some? && (t.value.Num? || t.value.Bool? || t.value.Null?) then
      Some(now as real - PrimitiveNumber(t.value))
    else None
  }

  /** `loadDraft`: no stored draft does nothing; text that is not JSON, a
      `null` draft and a draft older than a day are removed; a draft
      without question text is left alone; otherwise the form is
      restored, difficulty and status defaulted. */
  function LoadDraft(stored: Option<string>, now: int, parse: string -> Result<Json>): DraftAction {
    if stored.None? || stored.value == "" then NoDraft
    else
      match parse(stored.value)
      case Err(_) => Discard
      case Ok(data) =>
        if data == Null then Discard
        else if Age(data, now).Some? && Age(data, now).value > DayMs as real then Discard
        else if !Truthy(Prop(data, "questionText")) then Ignore
        else Restore(Prop(data, "questionText"), Prop(data, "category"), Prop(data, "marks"),
                     Prop(data, "modelAnswer"),
                     OrTo(Prop(data, "difficulty"), Str("Medium")),
                     OrTo(Prop(data, "status"), Str("active")))
  }

  /** A draft saved less than a day ago with question text is restored
      field for field (empty difficulty and status falling back to
      Medium and active); one older than a day is discarded. */
  lemma DraftRoundTrip(f: DraftFields, saved: int, now: int, text: string, parse: string -> Result<Json>)
    requires text != "" && parse(text) == Ok(SaveDraft(f, saved))
    ensures now - saved > DayMs ==> LoadDraft(Some(text), now, parse) == Discard
    ensures now - saved <= DayMs && f.questionText != "" ==>
      LoadDraft(Some(text), now, parse) == Restore(
        Some(Str(f.questionText)), Some(Str(f.category)), Some(Str(f.marks)), Some(Str(f.modelAnswer)),
        Str(if f.difficulty == "" then "Medium" else f.difficulty),
        Str(if f.status == "" then "active" else f.status))
    ensures f.questionText == "" && now - saved <= DayMs ==> LoadDraft(Some(text), now, parse) == Ignore
  {
    assert Age(SaveDraft(f, saved), now) == Some(now as real - saved as real);
  }
}

=== FILE: batch_manager.dfy ===
/** The question-batch editor (`batch-manager.js`): the CSV reader, the
    import of spreadsheet rows into question cards, the card numbering,
    the validation and totals of a saved batch and the summary each batch
    card shows. */
module BatchManager {
  import opened Wrappers
  import opened Seqs
  import opened Strings
  import opened Numbers
  import opened JsValue

  // ---------------------------------------------------------------------
  // CSV reading

  /** `v.replace(/^"|"$/g, '')`: one leading and one trailing quote
      removed (a lone quote is removed once). */
  function StripQuotes(v: string): (r: string)
    ensures |r| <= |v|
    ensures (|v| == 0 || (v[0] != '"' && v[|v| - 1] != '"')) ==> r == v
  {
    var a := if |v| > 0 && v[0] == '"' then v[1..] else v;
    if |a| > 0 && a[|a| - 1] == '"' then a[..|a| - 1] else a
  }

  /** Quoting a value and stripping the quotes gives it back, whatever it
      holds. */
  lemma QuotedCell(x: string)
    ensures StripQuotes("\"" + x + "\"") == x
  {
    var v := "\"" + x + "\"";
    assert v[1..] == x + "\"";
    assert (x + "\"")[..|x|] == x;
  }

  /** The lines of the trimmed text. */
  function Lines(text: string): seq<string> {
    Split(Trim(text), '\n')
  }

  /** One header: trimmed, lower-cased, quotes removed. */
  function HeaderName(h: string): (r: string)
    ensures '"' !in r
  {
    RemoveChar(ToLower(Trim(h)), '"')
  }

  function Headers(line: string): (hs: seq<string>)
    ensures |hs| == |Split(line, ',')|
  {
    var parts := Split(line, ',');
    seq(|parts|, i requires 0 <= i < |parts| => HeaderName(parts[i]))
  }

  /** The values of one data line: trimmed, outer quotes removed. */
  function Cells(line: string): (vs: seq<string>)
    ensures |vs| == |Split(line, ',')| && |vs| >= 1
  {
    var parts := Split(line, ',');
    seq(|parts|, i requires 0 <= i < |parts| => StripQuotes(Trim(parts[i])))
  }

  /** `values[idx] || ''`. */
  function CellAt(values: seq<string>, idx: nat): string {
    if idx < |values| then values[idx] else ""
  }

  /** `headers.forEach((h, idx) => row[h] = values[idx] || '')` over the
      first `n` headers: every header is a key, and a repeated header
      holds the value of its last column. */
  function RowFields(headers: seq<string>, values: seq<string>, n: nat): (row: map<string, string>)
    requires n <= |headers|
    ensures forall h :: h in row <==> h in headers[..n]
    ensures forall j :: 0 <= j < n && (forall k :: j < k < n ==> headers[k] != headers[j]) ==>
      headers[j] in row && row[headers[j]] == CellAt(values, j)
    decreases n
  {
    if n == 0 then map[]
    else
      assert headers[..n] == headers[..n - 1] + [headers[n - 1]];
      RowFields(headers, values, n - 1)[headers[n - 1] := CellAt(values, n - 1)]
  }

  /** A data line is kept when its first value is not empty. */
  predicate KeepLine(line: string) {
    Cells(line)[0] != ""
  }

  function DataLines(text: string): seq<string> {
    var lines := Lines(text);
    if |lines| < 2 then [] else lines[1..]
  }

  /** One row object per kept line, keyed by every header. */
  function CsvRows(headers: seq<string>, kept: seq<string>): (rows: seq<map<string, string>>)
    ensures |rows| == |kept|
    ensures forall i, h :: 0 <= i < |rows| ==> (h in rows[i] <==> h in headers)
    ensures forall i :: 0 <= i < |rows| ==> rows[i] == RowFields(headers, Cells(kept[i]), |headers|)
  {
    assert headers[..|headers|] == headers;
    seq(|kept|, i requires 0 <= i < |kept| => RowFields(headers, Cells(kept[i]), |headers|))
  }

  /** `parseCsv`: nothing for fewer than two lines; otherwise one row per
      data line whose first value is not empty, keyed by the cleaned
      headers. */
  function ParseCsv(text: string): (rows: seq<map<string, string>>)
    ensures |Lines(text)| < 2 ==> rows == []
    ensures |rows| == Count(DataLines(text), KeepLine)
    ensures |Lines(text)| >= 2 ==> |rows| <= |Lines(text)| - 1
    ensures |Lines(text)| >= 2 ==> forall i, h :: 0 <= i < |rows| ==>
      (h in rows[i] <==> h in Headers(Lines(text)[0]))
  {
    var lines := Lines(text);
    if |lines| < 2 then []
    else
      CountIsFilterLength(lines[1..], KeepLine);
      CsvRows(Headers(lines[0]), Filter(lines[1..], KeepLine))
  }

  /** With distinct headers, each row maps the header of every column to
      that column's value. */
  lemma ParsedRowColumns(text: string, i: nat, j: nat)
    requires |Lines(text)| >= 2
    requires i < |ParseCsv(text)|
    requires var hs := Headers(Lines(text)[0]); j < |hs| && forall a, b :: 0 <= a < b < |hs| ==> hs[a] != hs[b]
    ensures var hs := Headers(Lines(text)[0]);
      var line := Filter(DataLines(text), KeepLine)[i];
      hs[j] in ParseCsv(text)[i] && ParseCsv(text)[i][hs[j]] == CellAt(Cells(line), j)
  {
    var lines := Lines(text);
    var hs := Headers(lines[0]);
    var kept := Filter(lines[1..], KeepLine);
    CountIsFilterLength(lines[1..], KeepLine);
    assert ParseCsv(text) == CsvRows(hs, kept);
    assert ParseCsv(text)[i] == RowFields(hs, Cells(kept[i]), |hs|);
    assert forall k :: j < k < |hs| ==> hs[k] != hs[j];
  }

  // ---------------------------------------------------------------------
  // Import

  /** A spreadsheet row, column name to cell. A row read from CSV holds
      only text; a row of an Excel sheet holds what `sheet_to_json` gives
      for each cell, numbers and booleans included. */
  type Row = map<string, Json>

  /** `row[key]`: undefined when the row has no such column. */
  function Cell(row: Row, key: string): (v: Val)
    ensures v.Some? <==> key in row
    ensures key in row ==> v.value == row[key]
  {
    if key in row then Some(row[key]) else None
  }

  /** `row.a || row.b || ...`: the first truthy alias, undefined when there
      is none. Every falsy value the source's chain can end in reads the
      same way below (`|| ''` for text; `parseInt` gives `NaN` or 0 for
      marks). */
  function FirstAlias(row: Row, aliases: seq<string>): (r: Val)
    ensures r.Some? <==> exists i :: 0 <= i < |aliases| && Truthy(Cell(row, aliases[i]))
    ensures r.Some? ==> Truthy(r)
    ensures r.Some? ==>
      (exists i :: 0 <= i < |aliases| && Cell(row, aliases[i]) == r
         && forall j :: 0 <= j < i ==> !Truthy(Cell(row, aliases[j])))
    decreases |aliases|
  {
    if |aliases| == 0 then None
    else if Truthy(Cell(row, aliases[0])) then Cell(row, aliases[0])
    else
      var r := FirstAlias(row, aliases[1..]);
      assert r.Some? ==>
        (exists i :: 0 <= i < |aliases| && Cell(row, aliases[i]) == r
           && forall j :: 0 <= j < i ==> !Truthy(Cell(row, aliases[j]))) by {
        if r.Some? {
          var i :| 0 <= i < |aliases[1..]| && Cell(row, aliases[1..][i]) == r
            && forall j :: 0 <= j < i ==> !Truthy(Cell(row, aliases[1..][j]));
          assert forall j :: 0 <= j < i + 1 ==> !Truthy(Cell(row, aliases[j])) by {
            forall j | 0 <= j < i + 1
              ensures !Truthy(Cell(row, aliases[j]))
            {
              if j > 0 {
                assert aliases[j] == aliases[1..][j - 1];
              }
            }
          }
        }
      }
      assert (exists i :: 0 <= i < |aliases| && Truthy(Cell(row, aliases[i])))
        ==> exists i :: 0 <= i < |aliases[1..]| && Truthy(Cell(row, aliases[1..][i])) by {
        if exists i :: 0 <= i < |aliases| && Truthy(Cell(row, aliases[i])) {
          var i :| 0 <= i < |aliases| && Truthy(Cell(row, aliases[i]));
          assert aliases[i] == aliases[1..][i - 1];
        }
      }
      r
  }

  const TextAliases: seq<string> := ["question", "Question", "text", "Text", "question text", "Question Text", "q"]
  const AnswerAliases: seq<string> := ["modelAnswer", "model answer", "Model Answer", "modelanswer", "answer", "Answer"]
  const MarkAliases: seq<string> := ["marks", "Marks", "mark", "Mark", "score", "Score"]

  /** `parseInt(x) || d`. */
  function IntOr(x: string, d: int): (m: int)
    requires d != 0
    ensures m != 0
    ensures ParseInt(x).Some? && ParseInt(x).value != 0 ==> m == ParseInt(x).value
    ensures (ParseInt(x).None? || ParseInt(x) == Some(0)) ==> m == d
  {
    match ParseInt(x)
    case Some(p) => if p != 0 then p else d
    case None => d
  }

  /** A question as imported or saved. */
  datatype Question = Question(text: string, modelAnswer: string, marks: int)

  /** What `importRows` does with one row: skip it, add a question, or
      throw, because `.trim()` is called on a question or answer value
      that is not text. */
  datatype RowRead = Skip | Take(q: Question) | Throw

  function ReadRow(row: Row): (r: RowRead)
    ensures r.Take? ==> r.q.text != "" && r.q.marks != 0
    ensures r.Throw? <==>
      (|| !OrTo(FirstAlias(row, TextAliases), Str("")).Str?
       || (Trim(OrTo(FirstAlias(row, TextAliases), Str("")).s) != ""
           && !OrTo(FirstAlias(row, AnswerAliases), Str("")).Str?))
  {
    var text := OrTo(FirstAlias(row, TextAliases), Str(""));
    if !text.Str? then Throw
    else if Trim(text.s) == "" then Skip
    else
      var answer := OrTo(FirstAlias(row, AnswerAliases), Str(""));
      if !answer.Str? then Throw
      else
        TrimEmptyIffBlank(text.s);
        Take(Question(Trim(text.s), Trim(answer.s), IntOr(ToText(FirstAlias(row, MarkAliases)), 5)))
  }

  predicate Takes(r: RowRead) {
    r.Take?
  }

  /** Each row read on its own, in order. */
  function Reads(rows: seq<Row>): (rs: seq<RowRead>)
    ensures |rs| == |rows| && forall i :: 0 <= i < |rows| ==> rs[i] == ReadRow(rows[i])
  {
    seq(|rows|, i requires 0 <= i < |rows| => ReadRow(rows[i]))
  }

  /** The questions of the rows that import, in order: those reads
      filtered out first, then each one's question. */
  function Taken(rs: seq<RowRead>): (qs: seq<Question>)
    ensures |qs| == Count(rs, Takes) == |Filter(rs, Takes)|
    ensures forall i :: 0 <= i < |qs| ==> Filter(rs, Takes)[i].Take? && qs[i] == Filter(rs, Takes)[i].q
  {
    var kept := Filter(rs, Takes);
    CountIsFilterLength(rs, Takes);
    assert forall i :: 0 <= i < |kept| ==> kept[i].Take? by {
      forall i | 0 <= i < |kept|
        ensures kept[i].Take?
      {
        assert kept[i] in kept;
      }
    }
    seq(|kept|, i requires 0 <= i < |kept| => kept[i].q)
  }

  /** Every question taken has text and a non-zero mark when every row
      that imports does. */
  lemma TakenValid(rs: seq<RowRead>)
    requires forall i :: 0 <= i < |rs| && rs[i].Take? ==> rs[i].q.text != "" && rs[i].q.marks != 0
    ensures forall i :: 0 <= i < |Taken(rs)| ==> Taken(rs)[i].text != "" && Taken(rs)[i].marks != 0
  {
    var kept := Filter(rs, Takes);
    forall i | 0 <= i < |kept|
      ensures kept[i].Take? && kept[i].q.text != "" && kept[i].q.marks != 0
    {
      assert kept[i] in kept;
    }
  }

  /** Taking a read off the front. */
  lemma TakenCons(rs: seq<RowRead>)
    requires |rs| > 0
    ensures rs[0].Take? ==> Taken(rs) == [rs[0].q] + Taken(rs[1..])
    ensures !rs[0].Take? ==> Taken(rs) == Taken(rs[1..])
  {
    if rs[0].Take? {
      assert Filter(rs, Takes) == [rs[0]] + Filter(rs[1..], Takes);
    }
  }

  /** The `forEach` over the rows: the questions added until the end or
      until a row throws, and whether one did. */
  function Run(rs: seq<RowRead>): (r: (seq<Question>, bool))
    decreases |rs|
  {
    if |rs| == 0 then ([], false)
    else
      match rs[0]
      case Throw => ([], true)
      case Skip => Run(rs[1..])
      case Take(q) => var t := Run(rs[1..]); ([q] + t.0, t.1)
  }

  /** A run reports a throw exactly when some row throws. */
  lemma {:induction false} RunThrowsIff(rs: seq<RowRead>)
    ensures Run(rs).1 <==> exists i :: 0 <= i < |rs| && rs[i].Throw?
    decreases |rs|
  {
    if |rs| > 0 {
      var tail := rs[1..];
      RunThrowsIff(tail);
      if exists i :: 0 <= i < |rs| && rs[i].Throw? {
        var i :| 0 <= i < |rs| && rs[i].Throw?;
        if i > 0 {
          assert tail[i - 1].Throw?;
        }
      }
      if exists i :: 0 <= i < |tail| && tail[i].Throw? {
        var i :| 0 <= i < |tail| && tail[i].Throw?;
        assert rs[i + 1].Throw?;
      }
    }
  }

  /** A run that meets no throw adds every row that imports. */
  lemma {:induction false} RunAddsTaken(rs: seq<RowRead>)
    ensures !Run(rs).1 ==> Run(rs).0 == Taken(rs)
    decreases |rs|
  {
    if |rs| > 0 {
      RunAddsTaken(rs[1..]);
      TakenCons(rs);
    }
  }

  /** A run that throws stops at the first row that throws, with the
      questions of the rows before it added. */
  lemma {:induction false} RunStopsAtFirstThrow(rs: seq<RowRead>)
    ensures Run(rs).1 ==>
      (exists k :: 0 <= k < |rs| && rs[k].Throw?
         && (forall j :: 0 <= j < k ==> !rs[j].Throw?) && Run(rs).0 == Taken(rs[..k]))
    decreases |rs|
  {
    if |rs| > 0 {
      var tail := rs[1..];
      if rs[0].Throw? {
        assert Run(rs).0 == Taken(rs[..0]);
      } else if Run(tail).1 {
        RunStopsAtFirstThrow(tail);
        var k :| 0 <= k < |tail| && tail[k].Throw?
          && (forall j :: 0 <= j < k ==> !tail[j].Throw?) && Run(tail).0 == Taken(tail[..k]);
        var front := rs[..k + 1];
        assert front[0] == rs[0] && front[1..] == tail[..k];
        TakenCons(front);
        assert Run(rs).0 == Taken(front);
        assert forall j :: 0 <= j < k + 1 ==> !rs[j].Throw? by {
          forall j | 0 <= j < k + 1
            ensures !rs[j].Throw?
          {
            if j > 0 {
              assert rs[j] == tail[j - 1];
            }
          }
        }
        assert rs[k + 1].Throw?;
      }
    }
  }

  /** The status `importRows` ends with: no rows, no valid rows, how many
      were imported, or the rows added before one threw. */
  datatype Import = NoRows | NoneValid | Imported(questions: seq<Question>) | Failed(added: seq<Question>)

  /** `importRows`: each row is read in order and a row without question
      text skipped. A row that throws stops the import with the rows before
      it already added and the status left as it was; the Excel reader's
      `catch` then reports a failed parse. */
  function ImportRows(rows: seq<Row>): (r: Import)
    ensures rows == [] <==> r == NoRows
    ensures r.Failed? <==> exists i :: 0 <= i < |rows| && Reads(rows)[i].Throw?
    ensures r.Failed? ==>
      (exists k :: 0 <= k < |rows| && Reads(rows)[k].Throw?
         && (forall j :: 0 <= j < k ==> !Reads(rows)[j].Throw?) && r.added == Taken(Reads(rows)[..k]))
    ensures r.Imported? ==> r.questions == Taken(Reads(rows)) && |r.questions| == Count(Reads(rows), Takes) > 0
    ensures r.Imported? ==> forall i :: 0 <= i < |r.questions| ==>
      r.questions[i].text != "" && r.questions[i].marks != 0
    ensures r == NoneValid <==>
      rows != [] && (forall i :: 0 <= i < |rows| ==> !Reads(rows)[i].Throw?) && Count(Reads(rows), Takes) == 0
  {
    if rows == [] then NoRows
    else
      var rs := Reads(rows);
      RunThrowsIff(rs);
      RunAddsTaken(rs);
      RunStopsAtFirstThrow(rs);
      var (added, thrown) := Run(rs);
      assert forall i :: 0 <= i < |rs| && rs[i].Take? ==> rs[i].q.text != "" && rs[i].q.marks != 0;
      TakenValid(rs);
      if thrown then Failed(added)
      else if added == [] then NoneValid
      else Imported(added)
  }

  /** A CSV row as the importer sees it: every cell is text. */
  function CsvCells(row: map<string, string>): (r: Row)
    ensures forall k :: k in r <==> k in row
    ensures forall k :: k in row ==> r[k] == Str(row[k])
  {
    map k | k in row :: Str(row[k])
  }

  /** A row read from CSV never throws, so a CSV import never fails. */
  lemma CsvNeverThrows(rows: seq<map<string, string>>)
    ensures !ImportRows(seq(|rows|, i requires 0 <= i < |rows| => CsvCells(rows[i]))).Failed?
  {
    var cells := seq(|rows|, i requires 0 <= i < |rows| => CsvCells(rows[i]));
    forall i | 0 <= i < |cells|
      ensures !Reads(cells)[i].Throw?
    {
      CsvRowNeverThrows(rows[i]);
    }
  }

  lemma CsvRowNeverThrows(row: map<string, string>)
    ensures !ReadRow(CsvCells(row)).Throw?
  {
    var r := CsvCells(row);
    var text := FirstAlias(r, TextAliases);
    if text.Some? {
      var i :| 0 <= i < |TextAliases| && Cell(r, TextAliases[i]) == text;
    }
    var answer := FirstAlias(r, AnswerAliases);
    if answer.Some? {
      var i :| 0 <= i < |AnswerAliases| && Cell(r, AnswerAliases[i]) == answer;
    }
  }

  /** An Excel cell holding a non-zero number under `question` makes
      `.trim()` throw. */
  lemma NumberQuestionThrows(row: Row)
    requires "question" in row && row["question"].Num? && row["question"].n != 0.0
    ensures ReadRow(row).Throw?
  {
    assert Truthy(Cell(row, TextAliases[0]));
  }

  /** So an Excel sheet whose second row has such a cell keeps the first
      row's question added but ends as a failed import. */
  lemma ThrowKeepsEarlierRows(good: Row, bad: Row)
    requires ReadRow(good).Take? && ReadRow(bad).Throw?
    ensures ImportRows([good, bad]) == Failed([ReadRow(good).q])
  {
    var rows := [good, bad];
    var rs := Reads(rows);
    assert rs == [ReadRow(good), ReadRow(bad)];
    RunTakeThenThrow(ReadRow(good), ReadRow(bad));
    FailedOfRun(rows);
  }

  /** An import whose run throws fails with what the run added. */
  lemma FailedOfRun(rows: seq<Row>)
    requires Run(Reads(rows)).1
    ensures ImportRows(rows) == Failed(Run(Reads(rows)).0)
  {
  }

  lemma RunTakeThenThrow(a: RowRead, b: RowRead)
    requires a.Take? && b.Throw?
    ensures Run([a, b]) == ([a.q], true)
  {
    assert [a, b][1..] == [b];
    assert Run([b]) == ([], true);
    assert [a.q] + [] == [a.q];
  }

  /** A row whose `question` column holds text with something in it, and
      whose answer is not a non-text value, is imported with that text,
      and with its `marks` column when that is a non-zero integer, as text
      or as a number. */
  lemma ImportUsesQuestionColumn(row: Row)
    requires "question" in row && row["question"].Str? && Trim(row["question"].s) != ""
    requires OrTo(FirstAlias(row, AnswerAliases), Str("")).Str?
    ensures ReadRow(row).Take? && ReadRow(row).q.text == Trim(row["question"].s)
    ensures "marks" in row && row["marks"].Str? && ParseInt(row["marks"].s).Some? && ParseInt(row["marks"].s).value != 0 ==>
      ReadRow(row).q.marks == ParseInt(row["marks"].s).value
    ensures "marks" in row && row["marks"].Num? && row["marks"].n == row["marks"].n.Floor as real && row["marks"].n != 0.0 ==>
      ReadRow(row).q.marks == row["marks"].n.Floor
  {
    assert row["question"].s != "";
    assert Truthy(Cell(row, TextAliases[0]));
    if "marks" in row && row["marks"].Str? && ParseInt(row["marks"].s).Some? {
      assert row["marks"].s != "" by {
        ParseIntBlank("");
      }
      assert Truthy(Cell(row, MarkAliases[0]));
    }
    if "marks" in row && row["marks"].Num? && row["marks"].n == row["marks"].n.Floor as real && row["marks"].n != 0.0 {
      var n := row["marks"].n.Floor;
      assert Truthy(Cell(row, MarkAliases[0]));
      NumberTextInt(n);
      ParseIntIntToString(n);
    }
  }

  // ---------------------------------------------------------------------
  // Question cards

  /** One question card of the editor: the counter value it was created
      with, its label and its three inputs. */
  datatype Card = Card(num: nat, caption: string, text: string, modelAnswer: string, marks: string)

  datatype Editor = Editor(counter: nat, cards: seq<Card>)

  function Label(i: nat): string {
    "Q" + NatToString(i + 1)
  }

  /** The labels read Q1, Q2, ... in order. */
  predicate Numbered(e: Editor) {
    forall i :: 0 <= i < |e.cards| ==> e.cards[i].caption == Label(i)
  }

  /** `addQuestionItem(data)`: a new card after the others, labelled one
      past the number of cards, filled from `data` (empty text and answer,
      5 marks by default). */
  function AddQuestionItem(e: Editor, data: Val): (r: Editor)
    ensures r.counter == e.counter + 1
    ensures |r.cards| == |e.cards| + 1 && r.cards[..|e.cards|] == e.cards
    ensures r.cards[|e.cards|].caption == Label(|e.cards|) && r.cards[|e.cards|].num == e.counter + 1
    ensures Numbered(e) ==> Numbered(r)
  {
    var card := Card(e.counter + 1, Label(|e.cards|),
      ToText(Some(OrTo(Chain(data, "text"), Str("")))),
      ToText(Some(OrTo(Chain(data, "modelAnswer"), Str("")))),
      ToText(Some(OrTo(Chain(data, "marks"), Num(5.0)))));
    Editor(e.counter + 1, e.cards + [card])
  }

  /** `removeQuestionItem`: the card goes and the rest are relabelled
      Q1..Qn, whatever their labels were. */
  function RemoveQuestionItem(e: Editor, k: nat): (r: Editor)
    requires k < |e.cards|
    ensures r.counter == e.counter && |r.cards| == |e.cards| - 1
    ensures Numbered(r)
    ensures forall i :: 0 <= i < |r.cards| ==>
      var c := e.cards[if i < k then i else i + 1];
      r.cards[i] == c.(caption := Label(i))
  {
    var rest := e.cards[..k] + e.cards[k + 1..];
    Editor(e.counter, seq(|rest|, i requires 0 <= i < |rest| => rest[i].(caption := Label(i))))
  }

  /** The card an imported question becomes. */
  function QuestionData(q: Question): Val {
    Some(Obj(map["text" := Str(q.text), "modelAnswer" := Str(q.modelAnswer), "marks" := Num(q.marks as real)]))
  }

  /** An imported question fills its card with its text, answer and
      marks. */
  lemma ImportedCard(e: Editor, q: Question)
    requires q.text != "" && q.marks != 0
    ensures var c := AddQuestionItem(e, QuestionData(q)).cards[|e.cards|];
      c.text == q.text && c.marks == NumberText(q.marks as real)
      && (q.modelAnswer != "" ==> c.modelAnswer == q.modelAnswer)
  {
  }

  // ---------------------------------------------------------------------
  // Saving

  /** A question of a saved batch. */
  datatype SavedQuestion = SavedQuestion(text: string, modelAnswer: string, category: string, marks: int)

  /** The batch document (author and timestamps left out). */
  datatype BatchDoc = BatchDoc(name: string, category: string, questions: seq<SavedQuestion>,
                               totalMarks: int, questionCount: nat)

  datatype Save = Refused(messages: seq<string>) | Saved(batch: BatchDoc)

  /** `!text.trim()` (see `Strings.TrimEmptyIffBlank`). */
  predicate BlankCard(c: Card) {
    IsBlank(c.text)
  }

  function SavedOf(c: Card, category: string): SavedQuestion {
    SavedQuestion(Trim(c.text), Trim(c.modelAnswer), category, IntOr(c.marks, 5))
  }

  /** The toasts of the card loop over the first `n` cards: one per empty
      card, numbered from 1. */
  function EmptyMessages(cards: seq<Card>, n: nat): (ms: seq<string>)
    requires n <= |cards|
    ensures ms == [] <==> forall i :: 0 <= i < n ==> !BlankCard(cards[i])
    ensures |ms| <= n
  {
    if n == 0 then []
    else
      EmptyMessages(cards, n - 1) + (if BlankCard(cards[n - 1]) then [EmptyMessage(n)] else [])
  }

  function EmptyMessage(n: nat): string {
    "Question #" + NatToString(n) + " is empty"
  }

  function MarksOf(qs: seq<SavedQuestion>): seq<int> {
    seq(|qs|, i requires 0 <= i < |qs| => qs[i].marks)
  }

  /** The save button: refused for a blank name, an empty category, no
      cards, or any empty question (one toast per empty question);
      otherwise the batch with one question per card, `totalMarks` the sum
      of their marks and `questionCount` their number. */
  method SaveBatch(name: string, category: string, cards: seq<Card>) returns (r: Save)
    ensures Trim(name) == "" ==> r == Refused(["Please enter a batch name"])
    ensures Trim(name) != "" && category == "" ==> r == Refused(["Please select a category"])
    ensures Trim(name) != "" && category != "" && cards == [] ==> r == Refused(["Please add at least one question"])
    ensures Trim(name) != "" && category != "" && cards != [] ==>
      (r.Saved? <==> forall i :: 0 <= i < |cards| ==> !BlankCard(cards[i]))
    ensures Trim(name) != "" && category != "" && cards != [] && r.Refused? ==>
      r.messages == EmptyMessages(cards, |cards|)
    ensures r.Saved? ==> r.batch.name == Trim(name) && r.batch.category == category
    ensures r.Saved? ==> |r.batch.questions| == |cards| == r.batch.questionCount
    ensures r.Saved? ==> forall i :: 0 <= i < |cards| ==> r.batch.questions[i] == SavedOf(cards[i], category)
    ensures r.Saved? ==> r.batch.totalMarks == Sum(MarksOf(r.batch.questions))
  {
    var trimmed := Trim(name);
    if trimmed == "" {
      return Refused(["Please enter a batch name"]);
    }
    if category == "" {
      return Refused(["Please select a category"]);
    }
    if |cards| == 0 {
      return Refused(["Please add at least one question"]);
    }
    var questions, messages := CollectQuestions(category, cards);
    if messages != [] {
      return Refused(messages);
    }
    var total := TotalMarks(questions);
    r := Saved(BatchDoc(trimmed, category, questions, total, |questions|));
  }

  /** The card loop of the save button: a toast for every empty card;
      when there is none, a question for every card. */
  method CollectQuestions(category: string, cards: seq<Card>) returns (questions: seq<SavedQuestion>, messages: seq<string>)
    ensures messages == EmptyMessages(cards, |cards|)
    ensures messages == [] ==> |questions| == |cards|
    ensures messages == [] ==> forall j :: 0 <= j < |cards| ==> questions[j] == SavedOf(cards[j], category)
  {
    messages := [];
    var i := 0;
    while i < |cards|
      invariant 0 <= i <= |cards|
      invariant messages == EmptyMessages(cards, i)
    {
      if BlankCard(cards[i]) {
        messages := messages + [EmptyMessage(i + 1)];
      }
      i := i + 1;
    }
    questions := seq(|cards|, j requires 0 <= j < |cards| => SavedOf(cards[j], category));
  }

  /** `questions.reduce((sum, q) => sum + q.marks, 0)` over integer marks. */
  method TotalMarks(questions: seq<SavedQuestion>) returns (total: int)
    ensures total == Sum(MarksOf(questions))
  {
    total := 0;
    var k := 0;
    while k < |questions|
      invariant 0 <= k <= |questions|
      invariant total + Sum(MarksOf(questions[k..])) == Sum(MarksOf(questions))
    {
      assert MarksOf(questions[k..]) == [questions[k].marks] + MarksOf(questions[k + 1..]);
      total := total + questions[k].marks;
      k := k + 1;
    }
    assert MarksOf(questions[k..]) == [];
  }

  // ---------------------------------------------------------------------
  // Batch cards

  /** What one batch card shows: question count, total marks, up to three
      preview lines and how many more questions there are. */
  datatype CardView = CardView(questionCount: nat, totalMarks: Json, preview: seq<string>, more: Option<nat>)

  function PreviewLine(q: Json, i: nat): string {
    "Q" + NatToString(i + 1) + ". " + EscapeText(Prop(q, "text"))
  }

  function MarkOrZero(q: Json): Json {
    OrTo(Prop(q, "marks"), Num(0.0))
  }

  /** One card of `renderBatches`; `None` when the questions field is
      truthy but not an array, or an entry is `null` (the render throws). */
  function BatchCard(batch: Json): (r: Option<CardView>)
    ensures r.Some? ==> OrTo(Prop(batch, "questions"), Arr([])).Arr?
    ensures r.Some? ==> var n := |OrTo(Prop(batch, "questions"), Arr([])).items|;
      && r.value.questionCount == n
      && |r.value.preview| == (if n < 3 then n else 3)
      && (r.value.more.Some? <==> n > 3)
      && (r.value.more.Some? ==> r.value.more.value == n - 3)
  {
    var qs := OrTo(Prop(batch, "questions"), Arr([]));
    if !qs.Arr? || exists i :: 0 <= i < |qs.items| && qs.items[i] == Null then None
    else
      var items := qs.items;
      var n := |items|;
      var shown := if n < 3 then n else 3;
      Some(CardView(n,
        PlusFold(seq(n, i requires 0 <= i < n => MarkOrZero(items[i]))),
        seq(shown, i requires 0 <= i < shown => PreviewLine(items[i], i)),
        if n > 3 then Some(n - 3) else None))
  }

  /** A batch without questions shows zero of everything; when every
      mark is a number the total is their sum, a missing mark counting
      0. */
  lemma BatchCardTotals(batch: Json)
    requires BatchCard(batch).Some?
    ensures Prop(batch, "questions") == None ==>
      BatchCard(batch).value == CardView(0, Num(0.0), [], None)
    ensures var items := OrTo(Prop(batch, "questions"), Arr([])).items;
      var marks := seq(|items|, i requires 0 <= i < |items| => MarkOrZero(items[i]));
      (forall i :: 0 <= i < |marks| ==> marks[i].Num?) ==>
        BatchCard(batch).value.totalMarks == Num(SumReal(NumValues(marks)))
  {
    var items := OrTo(Prop(batch, "questions"), Arr([])).items;
    var marks := seq(|items|, i requires 0 <= i < |items| => MarkOrZero(items[i]));
    if forall i :: 0 <= i < |marks| ==> marks[i].Num? {
      PlusFoldIsSum(marks);
    }
  }
}

=== FILE: cross_file.dfy ===
/** How the pages' requests meet the two endpoints. Each lemma follows
    one request from the page that builds it, through the handler that
    receives it, back to what the page makes of the reply. The reply
    travels as text; `parse` reads back the JSON the handler sent. */
module CrossFile {
  import opened Wrappers
  import opened JsValue
  import opened Http
  import Evaluate
  import OcrEvaluate
  import GeminiConfig
  import OcrScanApi
  import OcrScan
  import OcrScanCamera
  import Student
  import McqTest
  import Dashboard
  import Numbers

  const MissingFields: string := "Missing required fields"
  const NoImage: string := "No image provided. Send base64 image data."

  // ---------------------------------------------------------------------
  // The text-answer page and /api/evaluate

  /** The answer page sends no maximum mark, and the text endpoint
      requires one: every answer it submits is refused with 400 before the
      service is called, and the page then shows its failure message. */
  lemma StudentSubmissionRefused(student: Student.StudentData, q: Student.Question, answerInput: string,
                                 env: Env, parse: Parser, gateway: FetchResult, reply: Result<Json>, now: nat)
    requires Student.SubmitAnswer(student, q, answerInput).Post?
    ensures var body := Student.SubmitAnswer(student, q, answerInput).body;
      var o := Evaluate.Handle(Request("POST", Some(body)), env, parse, gateway);
      && Evaluate.Refused(o, 400, MissingFields)
      && Student.AfterReply(student, IsOk(400), reply, now) == Student.Failed("Failed to submit answer. Please try again.")
  {
    var body := Student.SubmitAnswer(student, q, answerInput).body;
    Evaluate.MissingFieldsRefused(Request("POST", Some(body)), env, parse, gateway, body);
  }

  /** A well-formed single request from the text client with a truthy
      question, answer and maximum passes the field check: the only
      refusal left is a missing key. */
  lemma GeminiSingleAdmitted(question: Json, modelAnswer: Val, studentAnswer: Json, maxMarks: Json,
                             env: Env, parse: Parser, gateway: FetchResult)
    requires Truthy(Some(question)) && Truthy(Some(studentAnswer)) && Truthy(Some(maxMarks))
    requires "GEMINI_API_KEY" in env && env["GEMINI_API_KEY"] != ""
    ensures var body := GeminiConfig.SingleRequest(Some(question), modelAnswer, Some(studentAnswer), Some(maxMarks));
      Evaluate.Handle(Request("POST", Some(body)), env, parse, gateway).call.Some?
  {
    var body := GeminiConfig.SingleRequest(Some(question), modelAnswer, Some(studentAnswer), Some(maxMarks));
    assert Evaluate.ReadBody(Some(body), parse) == Ok(Some(body));
    assert Truthy(EnvVar(env, "GEMINI_API_KEY"));
  }

  /** The batch request carries no question, answer or maximum, so the
      text endpoint refuses it with 400; reading that refusal, the batch
      client answers every question with a zero score whose feedback
      names the missing fields. */
  lemma BatchAlwaysFallsBack(questions: seq<Json>, answers: map<string, Json>, env: Env, parse: Parser,
                             gateway: FetchResult, statusText: string, text: string)
    requires parse(text) == Ok(ErrorBody(MissingFields))
    requires forall i :: 0 <= i < |questions| ==> questions[i] != Null
    ensures var body := GeminiConfig.BatchRequest(Some(Arr(questions)), answers);
      Evaluate.Refused(Evaluate.Handle(Request("POST", Some(body)), env, parse, gateway), 400, MissingFields)
    ensures var r := GeminiConfig.EvaluateBatchWithGemini(questions, Response(400, text), statusText, parse);
      && r.Ok? && r.value.Arr? && |r.value.items| == |questions|
      && forall i :: 0 <= i < |questions| ==>
           && Prop(r.value.items[i], "questionId") == Prop(questions[i], "id")
           && Prop(r.value.items[i], "score") == Some(Num(0.0))
           && Prop(r.value.items[i], "feedback") == Some(Str("System Error: " + MissingFields))
  {
    var body := GeminiConfig.BatchRequest(Some(Arr(questions)), answers);
    Evaluate.MissingFieldsRefused(Request("POST", Some(body)), env, parse, gateway, body);
    assert Prop(ErrorBody(MissingFields), "details") == None;
    assert GeminiConfig.BatchErrorMessage(400, statusText, text, parse) == MissingFields;
    GeminiConfig.BatchFailureEntries(questions, Response(400, text), statusText, parse);
  }

  // ---------------------------------------------------------------------
  // The scanner page and /api/ocr-evaluate

  /** The request `OCRAPI.evaluateSingle` posts for the scanner's argument
      object: it forwards only `images`, `question`, `modelAnswer` and
      `maxMarks`. */
  function ForwardSingle(args: Json): (body: Json)
    ensures Prop(body, "images") == Prop(args, "images")
  {
    OcrScanApi.SingleRequest(Prop(args, "images"), Prop(args, "question"), Prop(args, "modelAnswer"),
                             Prop(args, "maxMarks"))
  }

  /** As written, the scanner's single-answer picture never reaches the
      endpoint: whenever the page calls the client, the forwarded request
      has neither `images` nor `image`, so a configured endpoint refuses
      it with 400 and does not call the service. */
  lemma SingleAsWrittenRefused(app: OcrScan.App, question: string, modelAnswer: string, maxMarks: string,
                               env: Env, parse: Parser, gateway: FetchResult)
    requires Truthy(OcrEvaluate.ResolveKey(env))
    requires OcrScan.SubmitSingle(app, question, modelAnswer, maxMarks).Call?
    ensures var body := ForwardSingle(OcrScan.SubmitSingle(app, question, modelAnswer, maxMarks).args);
      OcrEvaluate.Handle(Request("POST", Some(body)), env, parse, gateway) == Outcome(Send(400, ErrorBody(NoImage)), None)
  {
    var body := ForwardSingle(OcrScan.SubmitSingle(app, question, modelAnswer, maxMarks).args);
    OcrEvaluate.NoImageRefused(Request("POST", Some(body)), env, parse, gateway, body);
  }

  /** Reading that refusal, the scanner client shows a zero-score result
      whose only hint repeats the endpoint's message. */
  lemma NoImageReplyShown(maxMarks: Val, parse: Parser, text: string)
    requires parse(text) == Ok(ErrorBody(NoImage))
    ensures var r := OcrScanApi.EvaluateSingle(maxMarks, Response(400, text), parse);
      && Prop(r, "score") == Some(Num(0.0))
      && Prop(r, "improvements") == Some(Arr([Str(OcrScanApi.FailurePrefix + NoImage)]))
  {
    assert Prop(ErrorBody(NoImage), "error") == Some(Str(NoImage));
    OcrScanApi.ServerErrorMessage(400, text, parse);
  }

  /** A request whose `images` is a one-picture list, and that is not in
      full-sheet mode, is admitted with that picture. */
  lemma OnePictureAdmitted(body: Json, picture: Json, env: Env, parse: Parser)
    requires body.Obj? && picture != Null
    requires Truthy(OcrEvaluate.ResolveKey(env))
    requires Prop(body, "images") == Some(Arr([picture]))
    requires !OcrEvaluate.FullSheet(Prop(body, "mode"), Prop(body, "questions"))
    ensures OcrEvaluate.Admit(Request("POST", Some(body)), env, parse) == OcrEvaluate.Ready(OcrEvaluate.ResolveKey(env).value.s, body, [picture])
  {
    assert Prop(Arr([picture]), "length") == Some(Num(1.0));
  }

  /** With the picture passed as an `images` list, a configured endpoint
      admits every single-answer call the page makes, with exactly that
      one picture, and calls the service. */
  lemma SingleCorrectedAdmitted(app: OcrScan.App, question: string, modelAnswer: string, maxMarks: string,
                                env: Env, parse: Parser, gateway: FetchResult)
    requires Truthy(OcrEvaluate.ResolveKey(env))
    requires OcrScan.SubmitSingleCorrected(app, question, modelAnswer, maxMarks).Call?
    ensures var body := ForwardSingle(OcrScan.SubmitSingleCorrected(app, question, modelAnswer, maxMarks).args);
      && OcrEvaluate.Admit(Request("POST", Some(body)), env, parse).Ready?
      && OcrEvaluate.Admit(Request("POST", Some(body)), env, parse).imgs == OcrScan.ImagesOf(app.singleImage.value).items
      && OcrEvaluate.Handle(Request("POST", Some(body)), env, parse, gateway).call.Some?
  {
    var body := ForwardSingle(OcrScan.SubmitSingleCorrected(app, question, modelAnswer, maxMarks).args);
    var list := OcrScan.ImagesOf(app.singleImage.value);
    assert list == Arr([list.items[0]]);
    OnePictureAdmitted(body, list.items[0], env, parse);
  }

  /** The full-sheet request `OCRAPI.evaluateFullSheet` posts for the
      scanner's argument object: it forwards only `images` and
      `questions`. */
  function ForwardFullSheet(args: Json): (body: Json)
    ensures Prop(body, "images") == Prop(args, "images")
    ensures Prop(body, "questions") == Prop(args, "questions")
  {
    OcrScanApi.FullSheetRequest(Prop(args, "images"), Prop(args, "questions"))
  }

  /** As written, the full-sheet picture is lost in the same way: whenever
      the page calls the client, the endpoint refuses the request with
      400. */
  lemma FullSheetAsWrittenRefused(app: OcrScan.App, env: Env, parse: Parser, gateway: FetchResult)
    requires Truthy(OcrEvaluate.ResolveKey(env))
    requires OcrScan.SubmitFullSheet(app).Call?
    ensures var body := ForwardFullSheet(OcrScan.SubmitFullSheet(app).args);
      OcrEvaluate.Handle(Request("POST", Some(body)), env, parse, gateway) == Outcome(Send(400, ErrorBody(NoImage)), None)
  {
    var body := ForwardFullSheet(OcrScan.SubmitFullSheet(app).args);
    OcrEvaluate.NoImageRefused(Request("POST", Some(body)), env, parse, gateway, body);
  }

  /** A request whose `images` is a one-picture list and whose questions
      are a list without `null` is admitted with that picture, in either
      mode. */
  lemma OnePictureSheetAdmitted(body: Json, picture: Json, questions: seq<Json>, env: Env, parse: Parser)
    requires body.Obj? && picture != Null && Null !in questions
    requires Truthy(OcrEvaluate.ResolveKey(env))
    requires Prop(body, "images") == Some(Arr([picture]))
    requires Prop(body, "questions") == Some(Arr(questions))
    ensures OcrEvaluate.Admit(Request("POST", Some(body)), env, parse) == OcrEvaluate.Ready(OcrEvaluate.ResolveKey(env).value.s, body, [picture])
  {
    assert Prop(Arr([picture]), "length") == Some(Num(1.0));
  }

  /** With the picture passed as an `images` list, every full-sheet call
      the page makes is admitted with that one picture. */
  lemma FullSheetCorrectedAdmitted(app: OcrScan.App, env: Env, parse: Parser, gateway: FetchResult)
    requires Truthy(OcrEvaluate.ResolveKey(env))
    requires OcrScan.SubmitFullSheetCorrected(app).Call?
    ensures var body := ForwardFullSheet(OcrScan.SubmitFullSheetCorrected(app).args);
      && OcrEvaluate.Admit(Request("POST", Some(body)), env, parse).Ready?
      && OcrEvaluate.Admit(Request("POST", Some(body)), env, parse).imgs == OcrScan.ImagesOf(app.fullSheetImage.value).items
  {
    var body := ForwardFullSheet(OcrScan.SubmitFullSheetCorrected(app).args);
    var questions := OcrScan.QuestionsJson(OcrScan.GetQuestions(app.items));
    var list := OcrScan.ImagesOf(app.fullSheetImage.value);
    assert list == Arr([list.items[0]]);
    assert Null !in questions.items by {
      forall i | 0 <= i < |questions.items|
        ensures questions.items[i].Obj?
      {
      }
    }
    OnePictureSheetAdmitted(body, list.items[0], questions.items, env, parse);
  }

  // ---------------------------------------------------------------------
  // The quiz page and the dashboard

  /** The dashboard's reading of a saved quiz record. */
  function SavedQuiz(id: string, studentId: string, name: string, percentage: int, at: int): Dashboard.TestResult {
    Dashboard.TestResult(id, Some(Str(studentId)), Some(name), Some(Numbers.IntToString(percentage) + "%"),
                         Some("mcq"), at)
  }

  /** The percentage a quiz saves as text (`"<n>%"`) reads back on the
      dashboard as the same number, so the dashboard puts the record in
      the band the quiz page showed: high from 80, low below 50. */
  lemma QuizBandKept(id: string, studentId: string, name: string, percentage: int, at: int)
    ensures Dashboard.Score(SavedQuiz(id, studentId, name, percentage, at)) == percentage as real
    ensures Dashboard.ClassOf(Dashboard.Score(SavedQuiz(id, studentId, name, percentage, at))) == Dashboard.High
        <==> McqTest.ResultClass(percentage) == "high"
    ensures Dashboard.ClassOf(Dashboard.Score(SavedQuiz(id, studentId, name, percentage, at))) == Dashboard.Low
        <==> McqTest.ResultClass(percentage) == "low"
  {
    Numbers.ParseFloatPercent(percentage);
  }
}

=== FILE: dashboard.dfy ===
/** The teacher dashboard (`dashboard.js`) over the stored test results:
    the headline statistics, the score classes and chart buckets, the
    results filter, the sort-order toggle, the per-student grouping, the
    per-type statistics and the CSV exports' quoting and counts. Loading
    from the database, dates and the DOM are outside the model. */
module Dashboard {
  import opened Wrappers
  import opened Seqs
  import opened Strings
  import opened Numbers
  import opened JsValue
  import opened Tallies

  /** A stored test result, with the fields the dashboard reads. */
  datatype TestResult = TestResult(
    id: string,
    studentId: Val,
    studentName: Option<string>,
    percentage: Option<string>,
    testType: Option<string>,
    submittedAt: int)

  /** `parseFloat(r.percentage)`, `None` standing for NaN (a missing
      percentage reads as NaN too). */
  function PercentOf(r: TestResult): (p: Option<real>)
    ensures r.percentage.None? ==> p.None?
  {
    match r.percentage
    case None => None
    case Some(text) => ParseFloat(text)
  }

  /** `parseFloat(r.percentage) || 0`: NaN (and -0) count as 0. */
  function Score(r: TestResult): (s: real)
    ensures PercentOf(r).None? ==> s == 0.0
    ensures PercentOf(r).Some? ==> s == PercentOf(r).value
  {
    match PercentOf(r)
    case None => 0.0
    case Some(p) => p
  }

  // ---------------------------------------------------------------------
  // Headline statistics (`updateStats`)

  /** The distinct student ids, `new Set(results.map(r => r.studentId))`
      (an undefined id is one member too). */
  function StudentIds(rs: seq<TestResult>): (ids: set<Val>)
    ensures forall i :: 0 <= i < |rs| ==> rs[i].studentId in ids
    ensures forall v :: v in ids ==> exists i :: 0 <= i < |rs| && rs[i].studentId == v
  {
    set i | 0 <= i < |rs| :: rs[i].studentId
  }

  /** There are never more students than results, and at least one when
      there is a result. */
  lemma StudentCountBounds(rs: seq<TestResult>)
    ensures |StudentIds(rs)| <= |rs|
    ensures |rs| > 0 ==> |StudentIds(rs)| >= 1
  {
    var ids := seq(|rs|, i requires 0 <= i < |rs| => rs[i].studentId);
    assert StudentIds(rs) == set v | v in ids by {
      forall v | v in StudentIds(rs) ensures v in ids {
        var i :| 0 <= i < |rs| && rs[i].studentId == v;
        assert ids[i] == v;
      }
    }
    DistinctAtMostLength(ids);
    if |rs| > 0 {
      assert rs[0].studentId in StudentIds(rs);
    }
  }

  /** A sequence has at most as many distinct elements as entries. */
  lemma {:induction false} DistinctAtMostLength<T>(s: seq<T>)
    ensures |set x | x in s| <= |s|
    decreases |s|
  {
    if |s| > 0 {
      var init := s[..|s| - 1];
      DistinctAtMostLength(init);
      assert (set x | x in s) == (set x | x in init) + {s[|s| - 1]} by {
        forall x | x in s ensures x in init || x == s[|s| - 1] {
          var i :| 0 <= i < |s| && s[i] == x;
          if i < |s| - 1 {
            assert init[i] == x;
          }
        }
      }
    }
  }

  /** The scores of a list of results, in order. */
  function Scores(rs: seq<TestResult>): (s: seq<real>)
    ensures |s| == |rs| && forall i :: 0 <= i < |rs| ==> s[i] == Score(rs[i])
    decreases |rs|
  {
    if |rs| == 0 then [] else [Score(rs[0])] + Scores(rs[1..])
  }

  /** The mean of a non-empty list of numbers. */
  function Mean(s: seq<real>): (m: real)
    requires |s| > 0
    ensures m * |s| as real == SumReal(s)
  {
    DivideBack(SumReal(s), |s| as real);
    SumReal(s) / |s| as real
  }

  lemma DivideBack(x: real, n: real)
    requires n > 0.0
    ensures x / n * n == x
  {
  }

  /** The mean of numbers within `[lo, hi]` is within `[lo, hi]`. */
  lemma MeanWithin(s: seq<real>, lo: real, hi: real)
    requires |s| > 0
    requires forall i :: 0 <= i < |s| ==> lo <= s[i] <= hi
    ensures lo <= Mean(s) <= hi
  {
    SumRealBounds(s, lo, hi);
    var n := |s| as real;
    var m := Mean(s);
    assert m * n >= lo * n;
    assert m * n <= hi * n;
  }

  /** The average score, `None` when there is no result (shown as "0%"). */
  function Average(rs: seq<TestResult>): (a: Option<real>)
    ensures a.None? <==> |rs| == 0
    ensures a.Some? ==> a.value == Mean(Scores(rs))
  {
    if |rs| == 0 then None else Some(Mean(Scores(rs)))
  }

  /** Scores between 0 and 100 average between 0 and 100. */
  lemma AverageInRange(rs: seq<TestResult>)
    requires |rs| > 0
    requires forall i :: 0 <= i < |rs| ==> 0.0 <= Score(rs[i]) <= 100.0
    ensures 0.0 <= Average(rs).value <= 100.0
  {
    MeanWithin(Scores(rs), 0.0, 100.0);
  }

  /** A sum of `n` values within `[lo, hi]` lies within `[n lo, n hi]`. */
  lemma {:induction false} SumRealBounds(s: seq<real>, lo: real, hi: real)
    requires forall i :: 0 <= i < |s| ==> lo <= s[i] <= hi
    ensures |s| as real * lo <= SumReal(s) <= |s| as real * hi
    decreases |s|
  {
    if |s| > 0 {
      SumRealBounds(s[1..], lo, hi);
    }
  }

  // ---------------------------------------------------------------------
  // Score classes and chart buckets

  datatype ScoreClass = Low | Medium | High

  /** The score badge of the results tables: high from 80, low below 50,
      medium in between. */
  function ClassOf(p: real): (c: ScoreClass)
    ensures c == High <==> p >= 80.0
    ensures c == Low <==> p < 50.0
    ensures c == Medium <==> 50.0 <= p < 80.0
  {
    var c := Medium;
    var c := if p >= 80.0 then High else c;
    if p < 50.0 then Low else c
  }

  predicate InHigh(r: TestResult) {
    PercentOf(r).Some? && PercentOf(r).value >= 80.0
  }

  predicate InMedium(r: TestResult) {
    PercentOf(r).Some? && 50.0 <= PercentOf(r).value < 80.0
  }

  predicate InLow(r: TestResult) {
    PercentOf(r).Some? && PercentOf(r).value < 50.0
  }

  predicate HasNumber(r: TestResult) {
    PercentOf(r).Some?
  }

  /** The doughnut chart's counts `[high, medium, low]` (`updateCharts`):
      a NaN percentage is in no bucket. */
  function ChartBuckets(rs: seq<TestResult>): (b: (nat, nat, nat))
    ensures b.0 + b.1 + b.2 == Count(rs, HasNumber)
  {
    BucketsPartition(rs);
    (Count(rs, InHigh), Count(rs, InMedium), Count(rs, InLow))
  }

  /** Every numeric percentage is in exactly one bucket, the one its
      score class names. */
  lemma BucketMatchesClass(r: TestResult)
    requires HasNumber(r)
    ensures InHigh(r) <==> ClassOf(Score(r)) == High
    ensures InMedium(r) <==> ClassOf(Score(r)) == Medium
    ensures InLow(r) <==> ClassOf(Score(r)) == Low
  {
  }

  lemma {:induction false} BucketsPartition(rs: seq<TestResult>)
    ensures Count(rs, InHigh) + Count(rs, InMedium) + Count(rs, InLow) == Count(rs, HasNumber)
    decreases |rs|
  {
    if |rs| > 0 {
      BucketsPartition(rs[1..]);
    }
  }

  // ---------------------------------------------------------------------
  // Results filter (`applyFilters`, without the date window)

  /** The filter controls: the search text as typed, and the score and
      type selections ("all" when unset). */
  datatype Filters = Filters(search: string, score: string, testType: string)

  /** Whether one result passes the name, type and score filters. */
  predicate Passes(f: Filters, r: TestResult) {
    var term := ToLower(f.search);
    var p := Score(r);
    && (term == "" || (r.studentName.Some? && Contains(ToLower(r.studentName.value), term)))
    && !(f.testType == "mcq" && r.testType != Some("mcq"))
    && !(f.testType == "text" && r.testType == Some("mcq"))
    && !(f.score == "high" && p < 80.0)
    && !(f.score == "medium" && (p < 50.0 || p >= 80.0))
    && !(f.score == "low" && p >= 50.0)
  }

  function Passing(f: Filters): TestResult -> bool {
    (r: TestResult) => Passes(f, r)
  }

  /** `applyFilters`: the results that pass, in their original order. */
  function ApplyFilters(rs: seq<TestResult>, f: Filters): (out: seq<TestResult>)
    ensures |out| <= |rs|
    ensures forall r :: r in out <==> r in rs && Passes(f, r)
    ensures IsSubsequence(out, rs)
  {
    FilterIsSubsequence(rs, Passing(f));
    Filter(rs, Passing(f))
  }

  /** With everything else unset, the "mcq" and "text" type filters split
      the results into complementary parts. */
  lemma TypeFiltersComplementary(rs: seq<TestResult>, score: string)
    requires score != "high" && score != "medium" && score != "low"
    ensures |ApplyFilters(rs, Filters("", score, "mcq"))| + |ApplyFilters(rs, Filters("", score, "text"))| == |rs|
  {
    var fm := Filters("", score, "mcq");
    var ft := Filters("", score, "text");
    CountIsFilterLength(rs, Passing(fm));
    CountIsFilterLength(rs, Passing(ft));
    forall r: TestResult
      ensures Passing(ft)(r) == !Passing(fm)(r)
    {
      assert ToLower("") == "";
    }
    CountComplement(rs, Passing(fm), Passing(ft));
  }

  /** The score filter keeps exactly the results of the matching class
      (a NaN percentage counts as 0, so as low). */
  lemma ScoreFilterMatchesClass(r: TestResult)
    ensures Passes(Filters("", "high", "all"), r) <==> ClassOf(Score(r)) == High
    ensures Passes(Filters("", "medium", "all"), r) <==> ClassOf(Score(r)) == Medium
    ensures Passes(Filters("", "low", "all"), r) <==> ClassOf(Score(r)) == Low
  {
    assert ToLower("") == "";
  }

  // ---------------------------------------------------------------------
  // Sorting (`sortTable`)

  datatype Order = Asc | Desc

  datatype SortState = SortState(field: string, order: Order)

  /** The initial sort: newest first. */
  const InitialSort: SortState := SortState("date", Desc)

  /** Clicking a column header: the same field flips the order, a new
      field sorts ascending. */
  function ToggleSort(s: SortState, field: string): (r: SortState)
    ensures r.field == field
    ensures s.field == field ==> r.order != s.order
    ensures s.field != field ==> r.order == Asc
  {
    if s.field == field then SortState(field, if s.order == Asc then Desc else Asc)
    else SortState(field, Asc)
  }

  /** Clicking the same header twice restores the order. */
  lemma ToggleTwice(s: SortState)
    ensures ToggleSort(ToggleSort(s, s.field), s.field) == s
  {
  }

  // ---------------------------------------------------------------------
  // Students (`renderStudentsPage`; of `exportStudentList` only the
  // per-key tally `TestsPerStudent` is modelled, since its rows write the
  // stored name with no "Anonymous" default)

  /** The grouping key, `studentId || 'unknown'` used as an object key. */
  function StudentKey(r: TestResult): string {
    ToText(Some(OrTo(r.studentId, Str("unknown"))))
  }

  function Keys(rs: seq<TestResult>): (ks: seq<string>)
    ensures |ks| == |rs| && forall i :: 0 <= i < |rs| ==> ks[i] == StudentKey(rs[i])
  {
    seq(|rs|, i requires 0 <= i < |rs| => StudentKey(rs[i]))
  }

  /** How many tests each student key has, counted in result order. */
  function TestsPerStudent(rs: seq<TestResult>): (t: Tally)
    ensures Total(t) == |rs|
    ensures forall k :: CountOf(t, k) == Occurrences(Keys(rs), k)
  {
    TallyOf([], Keys(rs))
  }

  function KeyIs(k: string): TestResult -> bool {
    (r: TestResult) => StudentKey(r) == k
  }

  /** One student's card: the name of their first result (or
      "Anonymous"), their tests, the summed score and the latest date. */
  datatype Student = Student(name: string, id: string, tests: seq<TestResult>, totalScore: real, lastTest: int)

  /** The card of student `k`, built from the results carrying that key. */
  function StudentOf(rs: seq<TestResult>, k: string): (s: Option<Student>)
    ensures s.None? <==> forall i :: 0 <= i < |rs| ==> StudentKey(rs[i]) != k
    ensures s.Some? ==> s.value.tests == Filter(rs, KeyIs(k)) && s.value.id == k
    ensures s.Some? ==> s.value.totalScore == SumReal(Scores(s.value.tests))
    ensures s.Some? ==> forall r :: r in s.value.tests ==> r.submittedAt <= s.value.lastTest
  {
    var tests := Filter(rs, KeyIs(k));
    if |tests| == 0 then
      assert forall i :: 0 <= i < |rs| ==> StudentKey(rs[i]) != k by {
        forall i | 0 <= i < |rs| ensures StudentKey(rs[i]) != k {
          assert rs[i] in rs;
        }
      }
      None
    else
      assert tests[0] in rs;
      Some(Student(GetOr(tests[0].studentName, "Anonymous"), k, tests,
                   SumReal(Scores(tests)), Latest(tests)))
  }

  function GetOr(s: Option<string>, d: string): string {
    match s
    case Some(t) => if t == "" then d else t
    case None => d
  }

  /** The latest submission time of a non-empty list (a later one only
      replaces the current value when strictly later). */
  function Latest(rs: seq<TestResult>): (t: int)
    requires |rs| > 0
    ensures forall r :: r in rs ==> r.submittedAt <= t
    ensures exists i :: 0 <= i < |rs| && rs[i].submittedAt == t
    decreases |rs|
  {
    if |rs| == 1 then rs[0].submittedAt
    else
      var t := Latest(rs[..|rs| - 1]);
      assert forall r :: r in rs ==> r in rs[..|rs| - 1] || r == rs[|rs| - 1];
      if rs[|rs| - 1].submittedAt > t then rs[|rs| - 1].submittedAt else t
  }

  /** A student's card lists as many tests as the tally counts for them,
      so the cards' test counts add up to the number of results. */
  lemma {:induction false} StudentTestsCounted(rs: seq<TestResult>, k: string)
    ensures |Filter(rs, KeyIs(k))| == CountOf(TestsPerStudent(rs), k)
    decreases |rs|
  {
    CountIsFilterLength(rs, KeyIs(k));
    OccurrencesIsCount(rs, k);
  }

  lemma {:induction false} OccurrencesIsCount(rs: seq<TestResult>, k: string)
    ensures Occurrences(Keys(rs), k) == Count(rs, KeyIs(k))
    decreases |rs|
  {
    if |rs| > 0 {
      OccurrencesIsCount(rs[1..], k);
      assert Keys(rs)[1..] == Keys(rs[1..]);
    }
  }

  /** A student's average, as shown on the card. */
  function StudentAverage(s: Student): (a: real)
    requires |s.tests| > 0
    ensures a * |s.tests| as real == s.totalScore
  {
    s.totalScore / |s.tests| as real
  }

  // ---------------------------------------------------------------------
  // Per-type statistics (`renderTypeBreakdown`)

  datatype TypeStats = TypeStats(count: nat, avg: real, high: real, low: real)

  /** `Math.max(...s)`. */
  function MaxOf(s: seq<real>): (m: real)
    requires |s| > 0
    ensures forall i :: 0 <= i < |s| ==> s[i] <= m
    ensures exists i :: 0 <= i < |s| && s[i] == m
    decreases |s|
  {
    if |s| == 1 then s[0]
    else
      var m := MaxOf(s[1..]);
      if s[0] >= m then s[0] else m
  }

  /** `Math.min(...s)`. */
  function MinOf(s: seq<real>): (m: real)
    requires |s| > 0
    ensures forall i :: 0 <= i < |s| ==> m <= s[i]
    ensures exists i :: 0 <= i < |s| && s[i] == m
    decreases |s|
  {
    if |s| == 1 then s[0]
    else
      var m := MinOf(s[1..]);
      if s[0] <= m then s[0] else m
  }

  /** `calcStats`: all zero for no results; otherwise the count, the mean
      score and the highest and lowest score. */
  function CalcStats(rs: seq<TestResult>): (st: TypeStats)
    ensures |rs| == 0 ==> st == TypeStats(0, 0.0, 0.0, 0.0)
    ensures st.count == |rs|
    ensures |rs| > 0 ==> st.low <= st.avg <= st.high
    ensures |rs| > 0 ==> st.avg == Mean(Scores(rs))
  {
    if |rs| == 0 then TypeStats(0, 0.0, 0.0, 0.0)
    else
      var s := Scores(rs);
      var hi := MaxOf(s);
      var lo := MinOf(s);
      MeanWithin(s, lo, hi);
      TypeStats(|rs|, Mean(s), hi, lo)
  }

  predicate IsMcq(r: TestResult) {
    r.testType == Some("mcq")
  }

  predicate IsOcr(r: TestResult) {
    r.testType == Some("ocr")
  }

  predicate IsText(r: TestResult) {
    !IsMcq(r) && !IsOcr(r)
  }

  // ---------------------------------------------------------------------
  // Exports

  /** `"` + text with every `"` doubled + `"`: a CSV field. */
  function Quote(s: string): (q: string)
    ensures |q| >= 2 && q[0] == '"' && q[|q| - 1] == '"'
  {
    "\"" + DoubleQuotes(s) + "\""
  }

  /** `s.replace(/"/g, '""')`. */
  function DoubleQuotes(s: string): (r: string)
    ensures |r| == |s| + CountChar(s, '"')
    decreases |s|
  {
    if |s| == 0 then "" else (if s[0] == '"' then "\"\"" else [s[0]]) + DoubleQuotes(s[1..])
  }

  /** Reading a quoted field's inner text back: `""` is one quote. A lone
      quote, which `DoubleQuotes` never produces, reads as nothing. */
  function UndoubleQuotes(s: string): (r: string)
    decreases |s|
  {
    if |s| == 0 then ""
    else if s[0] == '"' then
      if |s| >= 2 && s[1] == '"' then "\"" + UndoubleQuotes(s[2..]) else UndoubleQuotes(s[1..])
    else [s[0]] + UndoubleQuotes(s[1..])
  }

  /** Reading a CSV field: outer quotes removed and pairs undone. */
  function Unquote(q: string): string {
    if |q| >= 2 && q[0] == '"' && q[|q| - 1] == '"' then UndoubleQuotes(q[1..|q| - 1]) else q
  }

  lemma {:induction false} UndoubleDouble(s: string)
    ensures UndoubleQuotes(DoubleQuotes(s)) == s
    decreases |s|
  {
    if |s| > 0 {
      UndoubleDouble(s[1..]);
      var head := if s[0] == '"' then "\"\"" else [s[0]];
      assert DoubleQuotes(s) == head + DoubleQuotes(s[1..]);
      if s[0] == '"' {
        assert (head + DoubleQuotes(s[1..]))[2..] == DoubleQuotes(s[1..]);
      } else {
        assert (head + DoubleQuotes(s[1..]))[1..] == DoubleQuotes(s[1..]);
      }
      assert s == [s[0]] + s[1..];
    }
  }

  /** Quoting a field and reading it back gives the original text. */
  lemma QuoteRoundTrip(s: string)
    ensures Unquote(Quote(s)) == s
  {
    var q := Quote(s);
    assert q[1..|q| - 1] == DoubleQuotes(s);
    UndoubleDouble(s);
  }

  /** The counts of the analytics report: total, MCQ, text (what is left
      once MCQ and OCR are taken away) and OCR. */
  datatype Report = Report(total: nat, mcq: nat, text: int, ocr: nat)

  function AnalyticsCounts(rs: seq<TestResult>): (rep: Report)
    ensures rep.total == |rs|
    ensures rep.mcq + rep.ocr + rep.text == rep.total
    ensures rep.text == Count(rs, IsText)
  {
    TypePartition(rs);
    var mcq := Count(rs, IsMcq);
    var ocr := Count(rs, IsOcr);
    Report(|rs|, mcq, |rs| - mcq - ocr, ocr)
  }

  /** Each result is MCQ, OCR or text, and only one of them. */
  lemma {:induction false} TypePartition(rs: seq<TestResult>)
    ensures Count(rs, IsMcq) + Count(rs, IsOcr) + Count(rs, IsText) == |rs|
    decreases |rs|
  {
    if |rs| > 0 {
      TypePartition(rs[1..]);
    }
  }

  /** The MCQ and text exports (`exportFilteredResults`) together cover
      every result once. */
  lemma ExportSplitsByType(rs: seq<TestResult>)
    ensures |Filter(rs, (r: TestResult) => IsMcq(r))| + |Filter(rs, (r: TestResult) => !IsMcq(r))| == |rs|
  {
    var p := (r: TestResult) => IsMcq(r);
    var q := (r: TestResult) => !IsMcq(r);
    CountIsFilterLength(rs, p);
    CountIsFilterLength(rs, q);
    CountComplement(rs, p, q);
  }
}

=== FILE: evaluate.dfy ===
/** The text-answer evaluation endpoint (`api/evaluate.js`): validates the
    request, asks the Gemini service for a grade and normalises the answer. */
module Evaluate {
  import opened Wrappers
  import opened Strings
  import opened JsValue
  import opened ModelText
  import opened Http

  const Endpoint: string :=
    "https://generativelanguage.googleapis.com/v1beta/models/gemini-1.5-flash-latest:generateContent"

  const Config: GenerationConfig := GenerationConfig(0.4, Some(32), Some(1.0), Some(512))

  const Safety: seq<(string, string)> := [
    ("HARM_CATEGORY_HARASSMENT", "BLOCK_NONE"),
    ("HARM_CATEGORY_HATE_SPEECH", "BLOCK_NONE"),
    ("HARM_CATEGORY_SEXUALLY_EXPLICIT", "BLOCK_NONE"),
    ("HARM_CATEGORY_DANGEROUS_CONTENT", "BLOCK_NONE")]

  const PromptIntro: string := "\nEvaluate as an economics expert. Strict JSON ONLY.\n\n"
  const ReturnHead: string := "\nReturn JSON:\n{\n  \"score\": <0-"
  const ReturnTail: string := ">,\n  \"improvements\": [\"...\", \"...\"],\n  \"feedback\": \"...\"\n}\n"

  /** The grading prompt; every field is interpolated with `String()`. */
  function Prompt(question: Val, modelAnswer: Val, studentAnswer: Val, maxMarks: Val): string {
    PromptIntro + Line("Question: ", ToText(question)) + Line("Model Answer: ", ToText(modelAnswer))
    + Line("Student Answer: ", ToText(studentAnswer)) + Line("Maximum Marks: ", ToText(maxMarks))
    + (ReturnHead + ToText(maxMarks) + ReturnTail)
  }

  /** The prompt quotes the question, the student's answer and the maximum
      marks, each on its own line. */
  lemma PromptQuotesFields(question: Val, modelAnswer: Val, studentAnswer: Val, maxMarks: Val)
    ensures var p := Prompt(question, modelAnswer, studentAnswer, maxMarks);
      && Contains(p, Line("Question: ", ToText(question)))
      && Contains(p, Line("Student Answer: ", ToText(studentAnswer)))
      && Contains(p, Line("Maximum Marks: ", ToText(maxMarks)))
  {
    var lq, lm, ls, lk := Line("Question: ", ToText(question)), Line("Model Answer: ", ToText(modelAnswer)),
      Line("Student Answer: ", ToText(studentAnswer)), Line("Maximum Marks: ", ToText(maxMarks));
    var tail := ReturnHead + ToText(maxMarks) + ReturnTail;
    PromptShape(lq, lm, ls, lk, tail);
  }

  /** Each labelled line occurs in a prompt assembled from them. */
  lemma PromptShape(lq: string, lm: string, ls: string, lk: string, tail: string)
    ensures var p := PromptIntro + lq + lm + ls + lk + tail;
      Contains(p, lq) && Contains(p, ls) && Contains(p, lk)
  {
    var p := PromptIntro + lq + lm + ls + lk + tail;
    assert p == PromptIntro + lq + (lm + ls + lk + tail);
    ContainsMiddle(PromptIntro, lq, lm + ls + lk + tail);
    assert p == (PromptIntro + lq + lm) + ls + (lk + tail);
    ContainsMiddle(PromptIntro + lq + lm, ls, lk + tail);
    ContainsMiddle(PromptIntro + lq + lm + ls, lk, tail);
  }

  /** `req.body`, parsed with `JSON.parse` when it arrives as text. */
  function ReadBody(body: Val, parse: Parser): (r: Result<Val>)
    ensures !(body.Some? && body.value.Str?) ==> r == Ok(body)
    ensures body.Some? && body.value.Str? && parse(body.value.s).Ok? ==> r == Ok(Some(parse(body.value.s).value))
    ensures body.Some? && body.value.Str? && parse(body.value.s).Err? ==> r == Err(parse(body.value.s).message)
  {
    if body.Some? && body.value.Str? then
      match parse(body.value.s)
      case Ok(j) => Ok(Some(j))
      case Err(m) => Err(m)
    else Ok(body)
  }

  /** The body sent when the cleaned model text is not JSON. */
  function UnparsedBody(cleanText: string): Json {
    Obj(map[
      "score" := Num(0.0),
      "improvements" := Arr([Str("Model returned non-JSON text"), Str(cleanText)]),
      "feedback" := Str("AI evaluation could not be parsed.")])
  }

  /** The body sent for a parsed model answer: each field defaulted with
      `??`. */
  function GradeBody(result: Json): Json {
    Obj(map[
      "score" := CoalesceTo(Prop(result, "score"), Num(0.0)),
      "improvements" := CoalesceTo(Prop(result, "improvements"), Arr([])),
      "feedback" := CoalesceTo(Prop(result, "feedback"), Str("No feedback"))])
  }

  /** Everything after the request has been sent to the service. */
  function AfterCall(gateway: FetchResult, parse: Parser): Reply {
    match gateway
    case NetworkError(m) =>
      Send(500, Obj(map["error" := Str("Network failure contacting Gemini"), "details" := Str(m)]))
    case Response(status, raw) =>
      if !IsOk(status) then
        Send(500, Obj(map[
          "error" := Str("Gemini API returned an error"),
          "status" := Num(status as real),
          "body" := Str(raw)]))
      else
        match parse(raw)
        case Err(_) => Send(500, Obj(map["error" := Str("Gemini returned invalid JSON"), "raw" := Str(raw)]))
        case Ok(g) =>
          var text := CandidateText(g);
          if !Truthy(text) then Send(500, ErrorBody("Empty model response"))
          else if !text.value.Str? then Crashed
          else
            var clean := CleanEvaluateText(text.value.s);
            match parse(clean)
            case Err(_) => Send(200, UnparsedBody(clean))
            case Ok(result) => if result == Null then Crashed else Send(200, GradeBody(result))
  }

  /** The handler. `gateway` is what the one `fetch` to the service yields
      if the handler gets that far. */
  function Handle(req: Request, env: Env, parse: Parser, gateway: FetchResult): Outcome {
    if req.httpMethod == "OPTIONS" then Outcome(Send(200, Obj(map["status" := Str("ok")])), None)
    else if req.httpMethod != "POST" then Outcome(Send(405, ErrorBody("Method not allowed")), None)
    else
      match ReadBody(req.body, parse)
      case Err(_) => Outcome(Send(400, ErrorBody("Invalid JSON body")), None)
      case Ok(body) =>
        if Nullish(body) then Outcome(Crashed, None)
        else
          var question := Prop(body.value, "question");
          var modelAnswer := Prop(body.value, "modelAnswer");
          var studentAnswer := Prop(body.value, "studentAnswer");
          var maxMarks := Prop(body.value, "maxMarks");
          if !Truthy(question) || !Truthy(studentAnswer) || !Truthy(maxMarks) then
            Outcome(Send(400, ErrorBody("Missing required fields")), None)
          else
            var key := EnvVar(env, "GEMINI_API_KEY");
            if !Truthy(key) then Outcome(Send(500, ErrorBody("API key missing")), None)
            else
              var call := GeminiCall(Endpoint, key.value.s,
                [TextPart(Prompt(question, modelAnswer, studentAnswer, maxMarks))], Config, Safety);
              Outcome(AfterCall(gateway, parse), Some(call))
  }

  /** The request is refused with `status` and `{error: message}` and the
      service is not called. */
  predicate Refused(o: Outcome, status: nat, message: string) {
    o.reply == Send(status, ErrorBody(message)) && o.call.None?
  }

  /** A CORS preflight is answered 200 without further processing. */
  lemma PreflightAnswered(req: Request, env: Env, parse: Parser, gateway: FetchResult)
    requires req.httpMethod == "OPTIONS"
    ensures Handle(req, env, parse, gateway) == Outcome(Send(200, Obj(map["status" := Str("ok")])), None)
  {
  }

  /** Any method other than OPTIONS and POST is refused with 405. */
  lemma OtherMethodsRefused(req: Request, env: Env, parse: Parser, gateway: FetchResult)
    requires req.httpMethod != "OPTIONS" && req.httpMethod != "POST"
    ensures Refused(Handle(req, env, parse, gateway), 405, "Method not allowed")
  {
  }

  /** A text body that is not JSON is refused with 400. */
  lemma InvalidJsonRefused(req: Request, env: Env, parse: Parser, gateway: FetchResult)
    requires req.httpMethod == "POST" && req.body.Some? && req.body.value.Str?
    requires parse(req.body.value.s).Err?
    ensures Refused(Handle(req, env, parse, gateway), 400, "Invalid JSON body")
  {
  }

  /** A falsy question, student answer or maximum mark (0 included) is
      refused with 400 before the key is looked at, whatever the
      environment. */
  lemma MissingFieldsRefused(req: Request, env: Env, parse: Parser, gateway: FetchResult, body: Json)
    requires req.httpMethod == "POST" && ReadBody(req.body, parse) == Ok(Some(body)) && body != Null
    requires !Truthy(Prop(body, "question")) || !Truthy(Prop(body, "studentAnswer"))
          || !Truthy(Prop(body, "maxMarks"))
    ensures Refused(Handle(req, env, parse, gateway), 400, "Missing required fields")
  {
  }

  /** Without a non-empty GEMINI_API_KEY the answer is 500 and the service
      is not called; other variable names are not consulted. */
  lemma MissingKeyRefused(req: Request, env: Env, parse: Parser, gateway: FetchResult, body: Json)
    requires req.httpMethod == "POST" && ReadBody(req.body, parse) == Ok(Some(body)) && body != Null
    requires Truthy(Prop(body, "question")) && Truthy(Prop(body, "studentAnswer"))
          && Truthy(Prop(body, "maxMarks"))
    requires "GEMINI_API_KEY" !in env || env["GEMINI_API_KEY"] == ""
    ensures Refused(Handle(req, env, parse, gateway), 500, "API key missing")
  {
  }

  /** When the service is called, it is called once with the single text
      prompt built from the body, the environment key and the fixed
      settings (temperature 0.4, topK 32, topP 1, 512 output tokens). */
  lemma CallShape(req: Request, env: Env, parse: Parser, gateway: FetchResult)
    requires Handle(req, env, parse, gateway).call.Some?
    ensures var c := Handle(req, env, parse, gateway).call.value;
      && req.httpMethod == "POST"
      && "GEMINI_API_KEY" in env && c.key == env["GEMINI_API_KEY"] != ""
      && c.endpoint == Endpoint
      && c.config == GenerationConfig(0.4, Some(32), Some(1.0), Some(512))
      && |c.parts| == 1 && c.parts[0].TextPart?
      && exists body: Json :: ReadBody(req.body, parse) == Ok(Some(body)) && body != Null &&
           c.parts[0].text == Prompt(Prop(body, "question"), Prop(body, "modelAnswer"),
                                     Prop(body, "studentAnswer"), Prop(body, "maxMarks"))
  {
    var body :| ReadBody(req.body, parse) == Ok(Some(body)) && body != Null;
  }

  /** The gateway is only consulted after the call: before that, the
      outcome is the same whatever the service would have said. */
  lemma RefusalIgnoresGateway(req: Request, env: Env, parse: Parser, g1: FetchResult, g2: FetchResult)
    requires Handle(req, env, parse, g1).call.None?
    ensures Handle(req, env, parse, g2) == Handle(req, env, parse, g1)
  {
  }

  /** Every failure on the way to a model text is a 500 carrying an
      `error` message: transport error, non-2xx status, envelope not JSON,
      no candidate text. */
  lemma GatewayFailuresAre500(gateway: FetchResult, parse: Parser)
    requires || gateway.NetworkError?
             || (gateway.Response? && !IsOk(gateway.status))
             || (gateway.Response? && IsOk(gateway.status) && parse(gateway.text).Err?)
             || (gateway.Response? && IsOk(gateway.status) && parse(gateway.text).Ok?
                 && !Truthy(CandidateText(parse(gateway.text).value)))
    ensures var r := AfterCall(gateway, parse);
      r.Send? && r.status == 500 && r.body.Obj? && "error" in r.body.fields
  {
  }

  /** Model text that is not JSON after cleaning gives 200 with score 0 and
      the whole cleaned text (untruncated, newline-free) as the second
      improvement. */
  lemma UnparsedTextEchoed(status: nat, raw: string, parse: Parser, g: Json, text: string)
    requires IsOk(status) && parse(raw) == Ok(g) && CandidateText(g) == Some(Str(text)) && |text| > 0
    requires parse(CleanEvaluateText(text)).Err?
    ensures var r := AfterCall(Response(status, raw), parse);
      && r.Send? && r.status == 200
      && r.body.fields["score"] == Num(0.0)
      && r.body.fields["improvements"].items[1] == Str(CleanEvaluateText(text))
      && '\n' !in r.body.fields["improvements"].items[1].s
  {
  }

  /** A parsed grade is passed on with `??` defaults, the score unclamped:
      whatever number the model gave is the number sent. */
  lemma GradePassedThrough(status: nat, raw: string, parse: Parser, g: Json, text: string, result: Json)
    requires IsOk(status) && parse(raw) == Ok(g) && CandidateText(g) == Some(Str(text)) && |text| > 0
    requires parse(CleanEvaluateText(text)) == Ok(result) && result != Null
    ensures var r := AfterCall(Response(status, raw), parse);
      && r == Send(200, GradeBody(result))
      && (forall x :: Prop(result, "score") == Some(Num(x)) ==> r.body.fields["score"] == Num(x))
      && (Nullish(Prop(result, "score")) ==> r.body.fields["score"] == Num(0.0))
      && (Nullish(Prop(result, "feedback")) ==> r.body.fields["feedback"] == Str("No feedback"))
      && (Nullish(Prop(result, "improvements")) ==> r.body.fields["improvements"] == Arr([]))
  {
  }
}

=== FILE: gemini_config.dfy ===
/** The browser-side dispatchers to the text evaluation endpoint
    (`gemini-config.js`). Each makes one `fetch`; a backend failure never
    rejects the returned promise but resolves to a zero-score fallback. */
module GeminiConfig {
  import opened Wrappers
  import opened Numbers
  import opened JsValue
  import opened Http

  /** The body `evaluateWithGemini` posts. */
  function SingleRequest(question: Val, modelAnswer: Val, studentAnswer: Val, maxMarks: Val): (r: Json)
    ensures r.Obj?
    ensures Prop(r, "question") == question && Prop(r, "modelAnswer") == modelAnswer
    ensures Prop(r, "studentAnswer") == studentAnswer && Prop(r, "maxMarks") == maxMarks
  {
    var entries := [("question", question), ("modelAnswer", modelAnswer),
                    ("studentAnswer", studentAnswer), ("maxMarks", maxMarks)];
    ObjOfProp(entries, 0);
    ObjOfProp(entries, 1);
    ObjOfProp(entries, 2);
    ObjOfProp(entries, 3);
    ObjOf(entries)
  }

  const NoFeedback: string := "No feedback available."

  /** What `evaluateWithClientSide` resolves to, whatever answer it is
      given: the client-side path is disabled. */
  const ClientSideResult: Json := Obj(map[
    "score" := Num(0.0),
    "improvements" := Arr([Str("System error: Evaluation service unavailable.")]),
    "feedback" := Str("Unable to grade this answer at the moment. Please try again later.")])

  /** A backend result with each field defaulted by `??`. */
  function Normalise(result: Json): Json {
    Obj(map[
      "score" := CoalesceTo(Prop(result, "score"), Num(0.0)),
      "improvements" := CoalesceTo(Prop(result, "improvements"), Arr([])),
      "feedback" := CoalesceTo(Prop(result, "feedback"), Str(NoFeedback))])
  }

  /** `evaluateWithGemini`; `fetched` is what its one `fetch` yields. A
      transport error, a non-2xx status, a body that is not JSON and a
      `null` body (whose `.score` throws) all end in the fallback. */
  function EvaluateWithGemini(fetched: FetchResult, parse: Parser): (r: Json)
    ensures r.Obj? && r.fields.Keys == {"score", "improvements", "feedback"}
  {
    match fetched
    case NetworkError(_) => ClientSideResult
    case Response(status, text) =>
      if !IsOk(status) then ClientSideResult
      else
        match parse(text)
        case Err(_) => ClientSideResult
        case Ok(result) => if result == Null then ClientSideResult else Normalise(result)
  }

  /** A 2xx JSON reply is normalised: every field present is passed on,
      the score unclamped, and an absent one gets its default. */
  lemma BackendResultNormalised(status: nat, text: string, parse: Parser, result: Json)
    requires IsOk(status) && parse(text) == Ok(result) && result != Null
    ensures var r := EvaluateWithGemini(Response(status, text), parse);
      && (forall x :: Prop(result, "score") == Some(Num(x)) ==> r.fields["score"] == Num(x))
      && (Nullish(Prop(result, "score")) ==> r.fields["score"] == Num(0.0))
      && (Nullish(Prop(result, "improvements")) ==> r.fields["improvements"] == Arr([]))
      && (Nullish(Prop(result, "feedback")) ==> r.fields["feedback"] == Str(NoFeedback))
      && (!Nullish(Prop(result, "feedback")) ==> Some(r.fields["feedback"]) == Prop(result, "feedback"))
      && (!Nullish(Prop(result, "improvements")) ==> Some(r.fields["improvements"]) == Prop(result, "improvements"))
  {
  }

  /** Every failure resolves, without rethrowing, to score 0 with one
      fixed improvement and fixed feedback. */
  lemma FailuresFallBack(fetched: FetchResult, parse: Parser)
    requires || fetched.NetworkError?
             || (fetched.Response? && !IsOk(fetched.status))
             || (fetched.Response? && parse(fetched.text).Err?)
             || (fetched.Response? && parse(fetched.text) == Ok(Null))
    ensures var r := EvaluateWithGemini(fetched, parse);
      && r == ClientSideResult
      && r.fields["score"] == Num(0.0)
      && |r.fields["improvements"].items| == 1
  {
  }

  /** A result that already carries a score, improvements and feedback
      comes back with exactly those three values. */
  lemma CompleteResultKept(status: nat, text: string, parse: Parser, result: Json)
    requires IsOk(status) && parse(text) == Ok(result) && result.Obj?
    requires forall k :: k in {"score", "improvements", "feedback"} ==>
      k in result.fields && result.fields[k] != Null
    ensures EvaluateWithGemini(Response(status, text), parse)
      == Obj(map k | k in {"score", "improvements", "feedback"} :: result.fields[k])
  {
    var r := EvaluateWithGemini(Response(status, text), parse);
    var m := map k | k in {"score", "improvements", "feedback"} :: result.fields[k];
    assert r.fields.Keys == m.Keys;
  }

  /** `answers.forEach((value, key) => answersObj[key] = value)`: the Map
      of answers (distinct keys) copied into a plain object. */
  method AnswersObject(answers: seq<(string, Json)>) returns (obj: map<string, Json>)
    requires forall a, b :: 0 <= a < b < |answers| ==> answers[a].0 != answers[b].0
    ensures forall i :: 0 <= i < |answers| ==> answers[i].0 in obj && obj[answers[i].0] == answers[i].1
    ensures forall k :: k in obj ==> exists i :: 0 <= i < |answers| && answers[i].0 == k
  {
    obj := map[];
    var n := 0;
    while n < |answers|
      invariant 0 <= n <= |answers|
      invariant forall i :: 0 <= i < n ==> answers[i].0 in obj && obj[answers[i].0] == answers[i].1
      invariant forall k :: k in obj ==> exists i :: 0 <= i < n && answers[i].0 == k
    {
      obj := obj[answers[n].0 := answers[n].1];
      n := n + 1;
    }
  }

  /** The body `evaluateBatchWithGemini` posts: the questions and the
      answers object, and none of the single-answer fields. */
  function BatchRequest(questions: Val, answersObj: map<string, Json>): (r: Json)
    ensures r.Obj?
    ensures Prop(r, "questions") == questions && Prop(r, "answers") == Some(Obj(answersObj))
    ensures Prop(r, "question").None? && Prop(r, "studentAnswer").None? && Prop(r, "maxMarks").None?
  {
    var entries := [("questions", questions), ("answers", Some(Obj(answersObj)))];
    ObjOfProp(entries, 0);
    ObjOfProp(entries, 1);
    ObjOf(entries)
  }

  /** The message thrown for a non-2xx batch reply: the body's `error`,
      followed by `: details` when it has details; the status line when
      the body is not JSON (or is `null`, whose `.error` throws inside
      the same `try`). */
  function BatchErrorMessage(status: nat, statusText: string, text: string, parse: Parser): string {
    match parse(text)
    case Err(_) => StatusLine(status, statusText)
    case Ok(data) =>
      if data == Null then StatusLine(status, statusText)
      else
        var error := Prop(data, "error");
        var details := Prop(data, "details");
        (if Truthy(error) then ToText(error) else "Backend failed")
        + (if Truthy(details) then ": " + ToText(details) else "")
  }

  function StatusLine(status: nat, statusText: string): string {
    "Backend Error " + NatToString(status) + ": " + statusText
  }

  /** The error message cases of a failed batch reply. */
  lemma BatchErrorMessages(status: nat, statusText: string, text: string, parse: Parser)
    ensures parse(text).Err? ==>
      BatchErrorMessage(status, statusText, text, parse) == "Backend Error " + NatToString(status) + ": " + statusText
    ensures forall e, d ::
      (parse(text).Ok? && parse(text).value.Obj?
       && Prop(parse(text).value, "error") == Some(Str(e)) && Prop(parse(text).value, "details") == Some(Str(d))
       && |e| > 0 && |d| > 0) ==>
      BatchErrorMessage(status, statusText, text, parse) == e + ": " + d
    ensures forall e ::
      (parse(text).Ok? && parse(text).value.Obj?
       && Prop(parse(text).value, "error") == Some(Str(e)) && |e| > 0
       && !Truthy(Prop(parse(text).value, "details"))) ==>
      BatchErrorMessage(status, statusText, text, parse) == e
  {
  }

  /** What a batch reply settles to before the fallback: the parsed
      results of a 2xx reply, or the message of the error thrown. */
  function BatchResponse(fetched: FetchResult, statusText: string, parse: Parser): Result<Json> {
    match fetched
    case NetworkError(m) => Err(m)
    case Response(status, text) =>
      if IsOk(status) then parse(text)
      else Err(BatchErrorMessage(status, statusText, text, parse))
  }

  /** One fallback entry: `questionId` is `q.id` (a `null` question makes
      the `map` itself throw, so the promise rejects). */
  function FallbackItem(q: Json, feedback: string, improvements: seq<string>): (r: Json)
    ensures Prop(r, "questionId") == Prop(q, "id")
    ensures Prop(r, "score") == Some(Num(0.0))
    ensures Prop(r, "feedback") == Some(Str(feedback))
  {
    var entries := [("questionId", Prop(q, "id")), ("score", Some(Num(0.0))),
                    ("feedback", Some(Str(feedback))),
                    ("improvements", Some(Arr(seq(|improvements|, i requires 0 <= i < |improvements| => Str(improvements[i])))))];
    ObjOfProp(entries, 0);
    ObjOfProp(entries, 1);
    ObjOfProp(entries, 2);
    ObjOf(entries)
  }

  /** `questions.map(q => ...)` with a fixed feedback text; `Err` is the
      rejected promise when some question is `null`. */
  function FallbackFor(questions: seq<Json>, feedback: string, improvements: seq<string>): (r: Result<Json>)
    ensures r.Ok? <==> forall i :: 0 <= i < |questions| ==> questions[i] != Null
    ensures r.Ok? ==> r.value.Arr? && |r.value.items| == |questions|
    ensures r.Ok? ==> forall i :: 0 <= i < |questions| ==>
      r.value.items[i] == FallbackItem(questions[i], feedback, improvements)
  {
    if exists i :: 0 <= i < |questions| && questions[i] == Null then Err(NullReadMessage("id"))
    else Ok(Arr(seq(|questions|, i requires 0 <= i < |questions| => FallbackItem(questions[i], feedback, improvements))))
  }

  const BatchHints: seq<string> := ["Please check Vercel logs.", "Ensure API Key is set."]

  /** `evaluateBatchWithGemini`: a 2xx JSON reply is returned as is; any
      error becomes one zero-score entry per question, in order, whose
      feedback is `System Error: ` and the message. */
  function EvaluateBatchWithGemini(questions: seq<Json>, fetched: FetchResult, statusText: string,
                                   parse: Parser): (r: Result<Json>)
    ensures BatchResponse(fetched, statusText, parse).Ok? ==> r == BatchResponse(fetched, statusText, parse)
  {
    match BatchResponse(fetched, statusText, parse)
    case Ok(results) => Ok(results)
    case Err(m) => FallbackFor(questions, "System Error: " + m, BatchHints)
  }

  /** A batch failure gives exactly one entry per question, same order,
      carrying that question's id, score 0 and the error message. */
  lemma BatchFailureEntries(questions: seq<Json>, fetched: FetchResult, statusText: string, parse: Parser)
    requires BatchResponse(fetched, statusText, parse).Err?
    requires forall i :: 0 <= i < |questions| ==> questions[i] != Null
    ensures var r := EvaluateBatchWithGemini(questions, fetched, statusText, parse);
      var m := BatchResponse(fetched, statusText, parse).message;
      && r.Ok? && r.value.Arr? && |r.value.items| == |questions|
      && forall i :: 0 <= i < |questions| ==>
           && Prop(r.value.items[i], "questionId") == Prop(questions[i], "id")
           && Prop(r.value.items[i], "score") == Some(Num(0.0))
           && Prop(r.value.items[i], "feedback") == Some(Str("System Error: " + m))
  {
  }

  /** `evaluateBatchClientSide` (no caller in the file): the same entry
      shape with fixed texts. */
  function EvaluateBatchClientSide(questions: seq<Json>): (r: Result<Json>)
    ensures r.Ok? ==> r.value.Arr? && |r.value.items| == |questions|
    ensures r.Ok? ==> forall i :: 0 <= i < |questions| ==>
      Prop(r.value.items[i], "feedback") == Some(Str("System error: Evaluation service unavailable."))
  {
    FallbackFor(questions, "System error: Evaluation service unavailable.",
                ["Please try again later or contact support."])
  }
}

=== FILE: http.dfy ===
/** What the two serverless handlers exchange with the platform and with
    the Gemini generative-language service: requests, replies, the outgoing
    `generateContent` call and the result of `fetch`. */
module Http {
  import opened Wrappers
  import opened Strings
  import opened JsValue
  import opened Numbers

  /** An incoming request; `body` is `req.body`, which the platform may
      hand over as raw text or as an already parsed value. */
  datatype Request = Request(httpMethod: string, body: Val)

  /** What the handler sends: a status with a JSON body, a status with no
      body (`res.status(s).end()`), or nothing because an exception escaped
      the handler (the platform then answers with its own error). */
  datatype Reply =
    | Send(status: nat, body: Json)
    | EmptyReply(status: nat)
    | Crashed

  /** Result of the single `fetch` a handler makes: a transport error with
      its message, or a response with its status and full body text. */
  datatype FetchResult =
    | NetworkError(message: string)
    | Response(status: nat, text: string)

  /** `response.ok`. */
  predicate IsOk(status: nat) {
    200 <= status <= 299
  }

  /** `JSON.parse`: the parsed value, or the message of the `SyntaxError`. */
  type Parser = string -> Result<Json>

  /** The process environment. */
  type Env = map<string, string>

  /** `process.env[name]`. */
  function EnvVar(env: Env, name: string): (v: Val)
    ensures v.Some? <==> name in env
  {
    if name in env then Some(Str(env[name])) else None
  }

  /** One element of `contents[0].parts` in a `generateContent` body. */
  datatype Part =
    | TextPart(text: string)
    | InlinePart(mimeType: Json, data: Val)

  /** `generationConfig`; the optional fields are the ones a handler may
      leave out. */
  datatype GenerationConfig = GenerationConfig(
    temperature: real,
    topK: Option<nat>,
    topP: Option<real>,
    maxOutputTokens: Option<nat>)

  /** One `generateContent` call: endpoint, key (sent as `?key=`), parts,
      generation settings and safety settings as (category, threshold). */
  datatype GeminiCall = GeminiCall(
    endpoint: string,
    key: string,
    parts: seq<Part>,
    config: GenerationConfig,
    safety: seq<(string, string)>)

  /** The handler's reply together with the gateway call it made, if any. */
  datatype Outcome = Outcome(reply: Reply, call: Option<GeminiCall>)

  /** One labelled line of a prompt: caption, value, newline. */
  function Line(caption: string, text: string): (r: string)
    ensures StartsWith(r, caption) && |r| == |caption| + |text| + 1
  {
    caption + text + "\n"
  }

  /** `{ error: message }`. */
  function ErrorBody(message: string): (j: Json)
    ensures j.Obj? && "error" in j.fields && j.fields["error"] == Str(message)
  {
    Obj(map["error" := Str(message)])
  }

  /** `geminiJson?.candidates?.[0]?.content?.parts?.[0]?.text`. */
  function CandidateText(g: Json): (v: Val)
    ensures v.Some? ==> g.Obj? && "candidates" in g.fields
  {
    Chain(Chain(Chain(Chain(Chain(Prop(g, "candidates"), "0"), "content"), "parts"), "0"), "text")
  }

  /** The envelope the service returns for one text reply. */
  function Envelope(text: string): Json {
    Obj(map["candidates" := Arr([Obj(map["content" := Obj(map["parts" := Arr([Obj(map["text" := Str(text)])])])])])])
  }

  /** The reply text is found where the service puts it. */
  lemma CandidateTextEnvelope(text: string)
    ensures CandidateText(Envelope(text)) == Some(Str(text))
  {
    CanonicalIndexNatToString(0);
    assert NatToString(0) == "0";
  }
}

=== FILE: index.dfy ===
/** The landing page (`index.js`), reduced to what it decides: the name
    shown and saved for a signed-in user, the initials drawn in the avatar
    placeholder, the message for a failed login and where each test
    button leads. Firebase sign-in, the user document write and the DOM
    are outside the model; the signed-in user is a parameter. */
module Index {
  import opened Wrappers
  import opened Strings
  import Seqs

  // ---------------------------------------------------------------------
  // Display name

  /** `user.displayName || user.email.split('@')[0]`: the account's display
      name when it is non-empty, otherwise the part of the e-mail address
      before its first `@` (the whole address when it has none). */
  function DisplayName(displayName: Option<string>, email: string): (r: string)
    ensures displayName.Some? && displayName.value != "" ==> r == displayName.value
    ensures (displayName.None? || displayName.value == "") ==> '@' !in r && StartsWith(email, r)
    ensures (displayName.None? || displayName.value == "") && '@' !in email ==> r == email
  {
    if displayName.Some? && displayName.value != "" then displayName.value
    else
      var parts := Split(email, '@');
      assert StartsWith(email, parts[0]) by { FirstPieceIsPrefix(email, '@'); }
      if '@' !in email then
        SplitNoSeparator(email, '@');
        parts[0]
      else parts[0]
  }

  /** The first piece of a split is a prefix of the text. */
  lemma {:induction false} FirstPieceIsPrefix(s: string, sep: char)
    ensures StartsWith(s, Split(s, sep)[0])
    decreases |s|
  {
    if |s| > 0 {
      FirstPieceIsPrefix(s[1..], sep);
      var rest := Split(s[1..], sep);
      if s[0] != sep {
        assert Split(s, sep)[0] == [s[0]] + rest[0];
        assert s[..1 + |rest[0]|] == [s[0]] + s[1..][..|rest[0]|];
      }
    }
  }

  /** Without a display name, the name is the address's local part. */
  lemma LocalPartShown(local: string, domain: string)
    requires '@' !in local
    ensures DisplayName(None, local + "@" + domain) == local
    ensures DisplayName(Some(""), local + "@" + domain) == local
  {
    assert local + "@" + domain == local + ['@'] + domain;
    SplitAt(local, domain, '@');
  }

  /** What `saveUserData` writes for a user (`uid`, `email`, `displayName`;
      the server timestamp is left out). */
  datatype UserDoc = UserDoc(uid: string, email: string, displayName: string)

  /** `saveUserData`. */
  function SavedUser(uid: string, email: string, displayName: Option<string>): (d: UserDoc)
    ensures d.uid == uid && d.email == email
    ensures d.displayName == DisplayName(displayName, email)
  {
    UserDoc(uid, email, DisplayName(displayName, email))
  }

  /** The name saved for a user is the one the navigation bar shows, and
      it is never empty when the address does not start with `@`. */
  lemma SavedNameIsShown(uid: string, email: string, displayName: Option<string>)
    requires |email| > 0 && email[0] != '@'
    ensures SavedUser(uid, email, displayName).displayName == DisplayName(displayName, email)
    ensures DisplayName(displayName, email) != ""
  {
    if !(displayName.Some? && displayName.value != "") {
      var parts := Split(email, '@');
      assert Split(email, '@')[0] == [email[0]] + Split(email[1..], '@')[0];
    }
  }

  // ---------------------------------------------------------------------
  // Initials

  /** `s[0]`: `None` (undefined) for the empty string. */
  function FirstChar(s: string): (c: Option<char>)
    ensures c.Some? <==> |s| > 0
  {
    if |s| > 0 then Some(s[0]) else None
  }

  /** The text of `a + b` for two values that are each a one-character
      string or undefined; `None` when both are undefined, where the sum is
      the number NaN. */
  function ConcatChars(a: Option<char>, b: Option<char>): (r: Option<string>)
    ensures r.None? <==> a.None? && b.None?
    ensures a.Some? && b.Some? ==> r == Some([a.value, b.value])
  {
    match (a, b)
    case (Some(x), Some(y)) => Some([x, y])
    case (Some(x), None) => Some([x] + "undefined")
    case (None, Some(y)) => Some("undefined" + [y])
    case (None, None) => None
  }

  const NotAFunction: string := "(parts[0][0] + parts[1][0]).toUpperCase is not a function"

  /** `getUserInitials` as written: `'U'` for a missing or empty name;
      with a space, the first characters of the first two space-separated
      pieces, uppercased; otherwise the first two characters, uppercased.
      An empty piece (a leading or a doubled space) has no first
      character, so `undefined` joins the text, and when both pieces are
      empty the sum is a number, whose missing `toUpperCase` throws. */
  function InitialsAsWritten(name: Option<string>): (r: Result<string>)
    ensures name.None? || name.value == "" ==> r == Ok("U")
    ensures r.Err? <==> (name.Some? && ' ' in name.value
                         && Split(name.value, ' ')[0] == "" && Split(name.value, ' ')[1] == "")
    ensures name.Some? && name.value != "" && ' ' !in name.value ==> r == Ok(ToUpper(Prefix(name.value, 2)))
  {
    if name.None? || name.value == "" then Ok("U")
    else
      var parts := Split(name.value, ' ');
      if |parts| >= 2 then
        assert ' ' in name.value by { SplitCount(name.value, ' '); CountNonzeroHasChar(name.value, ' '); }
        match ConcatChars(FirstChar(parts[0]), FirstChar(parts[1]))
        case Some(t) => Ok(ToUpper(t))
        case None => Err(NotAFunction)
      else
        assert ' ' !in name.value by { if ' ' in name.value { SplitHasTwoPieces(name.value, ' '); } }
        Ok(ToUpper(Prefix(name.value, 2)))
  }

  /** A character that is counted occurs. */
  lemma {:induction false} CountNonzeroHasChar(s: string, c: char)
    requires CountChar(s, c) > 0
    ensures c in s
    decreases |s|
  {
    if s[0] != c {
      CountNonzeroHasChar(s[1..], c);
    }
  }

  /** Text holding the separator splits into at least two pieces. */
  lemma {:induction false} SplitHasTwoPieces(s: string, sep: char)
    requires sep in s
    ensures |Split(s, sep)| >= 2
    decreases |s|
  {
    if s[0] != sep {
      SplitHasTwoPieces(s[1..], sep);
    }
  }

  /** `"A  B"` splits into `"A"`, `""` and `"B"`. */
  lemma DoubledSpacePieces()
    ensures Split("A  B", ' ') == ["A", "", "B"]
  {
    assert "A  B" == "A" + [' '] + (" B");
    SplitAt("A", " B", ' ');
    assert " B" == "" + [' '] + "B";
    SplitAt("", "B", ' ');
    SplitNoSeparator("B", ' ');
  }

  /** A doubled space after the first name puts `undefined` into the
      initials. */
  lemma DoubledSpaceShowsUndefined()
    ensures InitialsAsWritten(Some("A  B")) == Ok("AUNDEFINED")
  {
    DoubledSpacePieces();
    assert ['A'] + "undefined" == "Aundefined";
    assert ToUpper("Aundefined") == "AUNDEFINED";
  }

  /** The intended initials of the same name are its two first letters. */
  lemma DoubledSpaceInitials()
    ensures Initials(Some("A  B")) == "AB"
  {
    DoubledSpacePieces();
    var parts := Split("A  B", ' ');
    assert parts[1..] == ["", "B"] && parts[2..] == ["B"];
    assert Seqs.Filter(["B"], NonEmpty) == ["B"];
    assert Seqs.Filter(["", "B"], NonEmpty) == ["B"];
    assert Words("A  B") == ["A", "B"];
  }

  /** A name made of one space throws instead of giving initials. */
  lemma LoneSpaceThrows()
    ensures InitialsAsWritten(Some(" ")).Err?
    ensures Initials(Some(" ")) == "U"
  {
    assert " " == "" + [' '] + "";
    SplitAt("", "", ' ');
    assert Split(" ", ' ') == ["", ""];
    assert Seqs.Filter(["", ""], NonEmpty) == [];
    assert Words(" ") == [];
  }

  function NonEmpty(s: string): bool {
    s != ""
  }

  /** The space-separated words of a name, empty pieces dropped. */
  function Words(name: string): (ws: seq<string>)
    ensures forall i :: 0 <= i < |ws| ==> ws[i] != "" && ' ' !in ws[i]
  {
    var ws := Seqs.Filter(Split(name, ' '), NonEmpty);
    assert forall i :: 0 <= i < |ws| ==> ws[i] in ws;
    ws
  }

  /** `getUserInitials` as evidently intended: the first letters of the
      first two words, the first two characters of a lone word, and `'U'`
      when there is no word at all. The initials are always one or two
      characters and never a space. */
  function Initials(name: Option<string>): (r: string)
    ensures 1 <= |r| <= 2
    ensures ' ' !in r
    ensures name.None? || IsBlankSpaces(name.value) ==> r == "U"
  {
    if name.None? then "U"
    else
      var ws := Words(name.value);
      assert IsBlankSpaces(name.value) ==> ws == [] by {
        if IsBlankSpaces(name.value) { SpacesHaveNoWords(name.value); }
      }
      if |ws| >= 2 then ToUpper([ws[0][0], ws[1][0]])
      else if |ws| == 1 then ToUpper(Prefix(ws[0], 2))
      else "U"
  }

  /** Text made of spaces only (including the empty text). */
  predicate IsBlankSpaces(s: string) {
    forall i :: 0 <= i < |s| ==> s[i] == ' '
  }

  /** Every piece of a text made of spaces is empty, so it has no words. */
  lemma {:induction false} SpacesHaveNoWords(s: string)
    requires IsBlankSpaces(s)
    ensures forall i :: 0 <= i < |Split(s, ' ')| ==> Split(s, ' ')[i] == ""
    ensures Words(s) == []
    decreases |s|
  {
    if |s| > 0 {
      SpacesHaveNoWords(s[1..]);
      assert Split(s, ' ') == [""] + Split(s[1..], ' ');
    }
  }

  /** The two definitions agree whenever the written one does not trip
      over an empty piece: on a name without spaces, and on a name whose
      first two pieces are non-empty. */
  lemma {:induction false} InitialsAgree(name: string)
    requires name != ""
    requires |Split(name, ' ')| >= 2 ==> Split(name, ' ')[0] != "" && Split(name, ' ')[1] != ""
    ensures InitialsAsWritten(Some(name)) == Ok(Initials(Some(name)))
  {
    var parts := Split(name, ' ');
    if ' ' in name {
      SplitHasTwoPieces(name, ' ');
      assert parts == [parts[0]] + ([parts[1]] + parts[2..]);
      assert Seqs.Filter(parts, NonEmpty) == [parts[0]] + Seqs.Filter([parts[1]] + parts[2..], NonEmpty);
      assert ([parts[1]] + parts[2..])[1..] == parts[2..];
      assert Seqs.Filter([parts[1]] + parts[2..], NonEmpty) == [parts[1]] + Seqs.Filter(parts[2..], NonEmpty);
    } else {
      SplitNoSeparator(name, ' ');
      assert Seqs.Filter([name], NonEmpty) == [name];
      assert Prefix(name, 2) == Prefix(Words(name)[0], 2);
    }
  }

  // ---------------------------------------------------------------------
  // Login errors

  /** The message shown when e-mail sign-in fails, from the error code. */
  function LoginErrorMessage(code: Option<string>): (msg: string)
    ensures code == Some("auth/user-not-found") <==> msg == "No account found"
    ensures code == Some("auth/wrong-password") <==> msg == "Wrong password"
    ensures code == Some("auth/invalid-credential") <==> msg == "Invalid credentials"
    ensures msg == "Login failed!" <==>
      code !in {Some("auth/user-not-found"), Some("auth/wrong-password"), Some("auth/invalid-credential")}
  {
    if code == Some("auth/invalid-credential") then "Invalid credentials"
    else if code == Some("auth/wrong-password") then "Wrong password"
    else if code == Some("auth/user-not-found") then "No account found"
    else "Login failed!"
  }

  // ---------------------------------------------------------------------
  // Test buttons

  datatype TestKind = Mcq | TextBased | OcrScan

  datatype Click = Navigate(page: string) | LoginPrompt(alert: string)

  /** The page each test button leads to. */
  function PageOf(test: TestKind): (page: string)
    ensures page in {"mcq-test.html", "test.html", "ocr-scan.html"}
  {
    match test
    case Mcq => "mcq-test.html"
    case TextBased => "test.html"
    case OcrScan => "ocr-scan.html"
  }

  /** The alert shown to a visitor who is not signed in. */
  function LoginAlert(test: TestKind): string {
    match test
    case Mcq => "\U{1F510} Please login first to access MCQ Tests!"
    case TextBased => "\U{1F510} Please login first to access Text-Based Tests!"
    case OcrScan => "\U{1F510} Please login first to access OCR Scan & Evaluate!"
  }

  /** A test button's click handler: a signed-in user goes to the test's
      page; anyone else is asked to sign in (and the login modal opens). */
  function ClickTest(signedIn: bool, test: TestKind): (c: Click)
    ensures c.Navigate? <==> signedIn
    ensures c.Navigate? ==> c.page == PageOf(test)
    ensures c.LoginPrompt? ==> c.alert == LoginAlert(test)
  {
    if signedIn then Navigate(PageOf(test)) else LoginPrompt(LoginAlert(test))
  }

  /** Different buttons lead to different pages. */
  lemma PagesDistinct(a: TestKind, b: TestKind)
    requires a != b
    ensures ClickTest(true, a) != ClickTest(true, b)
  {
  }
}

=== FILE: json.dfy ===
/** JavaScript values as they cross the wire between the browser and the
    serverless handlers (JSON data), with the JavaScript operators the code
    applies to them. `undefined` is `None` of a `Val`. */
module JsValue {
  import opened Wrappers
  import opened Strings
  import opened Numbers
  import opened Seqs

  datatype Json =
    | Null
    | Bool(b: bool)
    | Num(n: real)
    | Str(s: string)
    | Arr(items: seq<Json>)
    | Obj(fields: map<string, Json>)

  /** A JavaScript value that may be `undefined`. */
  type Val = Option<Json>

  const Undefined: Val := None

  /** JavaScript truthiness (`NaN` and `-0` are not represented). */
  predicate Truthy(v: Val) {
    match v
    case None => false
    case Some(j) =>
      match j
      case Null => false
      case Bool(b) => b
      case Num(n) => n != 0.0
      case Str(s) => |s| > 0
      case Arr(_) => true
      case Obj(_) => true
  }

  /** `a || b`. */
  function Or(a: Val, b: Val): (r: Val)
    ensures Truthy(r) <==> Truthy(a) || Truthy(b)
    ensures Truthy(a) ==> r == a
    ensures !Truthy(a) ==> r == b
  {
    if Truthy(a) then a else b
  }

  /** `null` or `undefined`. */
  predicate Nullish(v: Val) {
    v.None? || v == Some(Null)
  }

  /** `a ?? b`. */
  function Coalesce(a: Val, b: Val): (r: Val)
    ensures !Nullish(a) ==> r == a
    ensures Nullish(a) ==> r == b
  {
    if Nullish(a) then b else a
  }

  /** `v ?? d` with a defined default. */
  function CoalesceTo(v: Val, d: Json): (r: Json)
    ensures Nullish(v) ==> r == d
    ensures !Nullish(v) ==> v == Some(r)
  {
    if Nullish(v) then d else v.value
  }

  /** `v || d` with a defined default. */
  function OrTo(v: Val, d: Json): (r: Json)
    ensures Truthy(v) ==> v == Some(r)
    ensures !Truthy(v) ==> r == d
  {
    if Truthy(v) then v.value else d
  }

  /** `??` keeps falsy values that `||` would replace: they differ exactly
      on `false`, `0` and `""` (given a right operand that is not the same). */
  lemma CoalesceVersusOr(a: Val, b: Val)
    requires a != b
    ensures Coalesce(a, b) != Or(a, b) <==> !Nullish(a) && !Truthy(a)
  {
  }

  /** The array index a property key denotes: canonical decimal text. */
  function CanonicalIndex(key: string): (r: Option<nat>)
    ensures r.Some? ==> NatToString(r.value) == key
  {
    if |key| > 0 && (forall i :: 0 <= i < |key| ==> IsDecDigit(key[i])) && (|key| == 1 || key[0] != '0')
    then
      var n := DigitsValue(key, 10);
      NatToStringDigitsValue(key);
      Some(n)
    else None
  }

  /** Canonical digit text is the text of its own value. */
  lemma {:induction false} NatToStringDigitsValue(key: string)
    requires |key| > 0 && forall i :: 0 <= i < |key| ==> IsDecDigit(key[i])
    requires |key| == 1 || key[0] != '0'
    ensures NatToString(DigitsValue(key, 10)) == key
    decreases |key|
  {
    if |key| > 1 {
      var init := key[..|key| - 1];
      NatToStringDigitsValue(init);
      var v := DigitsValue(init, 10);
      var d := DigitValue(key[|key| - 1]);
      LeadingDigitPositive(init);
      assert (v * 10 + d) / 10 == v && (v * 10 + d) % 10 == d;
      assert DigitChar(d) == key[|key| - 1];
    } else {
      assert DigitChar(DigitValue(key[0])) == key[0];
    }
  }

  lemma {:induction false} LeadingDigitPositive(key: string)
    requires |key| > 0 && forall i :: 0 <= i < |key| ==> IsDecDigit(key[i])
    requires key[0] != '0'
    ensures DigitsValue(key, 10) > 0
    decreases |key|
  {
    if |key| > 1 {
      LeadingDigitPositive(key[..|key| - 1]);
    }
  }

  /** The text of every natural is a canonical index for it. */
  lemma CanonicalIndexNatToString(i: nat)
    ensures CanonicalIndex(NatToString(i)) == Some(i)
  {
    DigitsValueNatToString(i);
  }

  /** Property read `j[key]` on a value that is not `null`/`undefined`. */
  function Prop(j: Json, key: string): (r: Val)
    ensures j.Obj? ==> (r.Some? <==> key in j.fields)
  {
    match j
    case Obj(m) => if key in m then Some(m[key]) else None
    case Arr(items) =>
      if key == "length" then Some(Num(|items| as real))
      else (match CanonicalIndex(key)
            case Some(i) => if i < |items| then Some(items[i]) else None
            case None => None)
    case Str(s) =>
      if key == "length" then Some(Num(|s| as real))
      else (match CanonicalIndex(key)
            case Some(i) => if i < |s| then Some(Str([s[i]])) else None
            case None => None)
    case _ => None
  }

  /** Optional chaining `v?.[key]`: `undefined` when `v` is nullish. */
  function Chain(v: Val, key: string): (r: Val)
    ensures Nullish(v) ==> r.None?
  {
    if Nullish(v) then None else Prop(v.value, key)
  }

  /** Element access `j[i]`. */
  function At(j: Json, i: nat): Val {
    Prop(j, NatToString(i))
  }

  /** Indexing an array reads the element in range and `undefined` past
      the end. */
  lemma AtArray(items: seq<Json>, i: nat)
    ensures At(Arr(items), i) == if i < |items| then Some(items[i]) else None
  {
    CanonicalIndexNatToString(i);
    assert NatToString(i) != "length" by {
      assert IsDecDigit(NatToString(i)[0]);
    }
  }

  /** `Array.isArray(v)`. */
  predicate IsArray(v: Val) {
    v.Some? && v.value.Arr?
  }

  /** `String(v)` / template-literal interpolation `${v}`. */
  function ToText(v: Val): (s: string)
    ensures v.Some? && v.value.Str? ==> s == v.value.s
    ensures v.None? ==> s == "undefined"
  {
    match v
    case None => "undefined"
    case Some(j) => JsonText(j)
  }

  /** `escapeHTML` as both pages define it: empty for a falsy value,
      otherwise the text with the markup characters escaped. */
  function EscapeText(v: Val): (r: string)
    ensures !Truthy(v) ==> r == ""
    ensures '<' !in r && '>' !in r
    ensures v.Some? && v.value.Str? && (forall i :: 0 <= i < |v.value.s| ==> v.value.s[i] !in "&<>\U{00A0}") ==> r == v.value.s
  {
    if !Truthy(v) then "" else EscapeHtml(ToText(v))
  }

  function JsonText(j: Json): string
    decreases j
  {
    match j
    case Null => "null"
    case Bool(b) => if b then "true" else "false"
    case Num(n) => NumberText(n)
    case Str(s) => s
    case Arr(items) =>
      Join(seq(|items|, i requires 0 <= i < |items| =>
        if items[i] == Null then "" else JsonText(items[i])), ',')
    case Obj(_) => "[object Object]"
  }

  /** An object literal `{k1: v1, ...}` after a JSON round trip: entries
      whose value is `undefined` are dropped, a later key wins. */
  function ObjOf(entries: seq<(string, Val)>): (r: Json)
    ensures r.Obj?
    ensures forall k :: k in r.fields ==> exists i :: 0 <= i < |entries| && entries[i].0 == k
  {
    Obj(Fields(map[], entries))
  }

  function Fields(m: map<string, Json>, entries: seq<(string, Val)>): (r: map<string, Json>)
    ensures forall k :: k in r ==> k in m || exists i :: 0 <= i < |entries| && entries[i].0 == k
    decreases |entries|
  {
    if |entries| == 0 then m
    else
      var (k, v) := entries[0];
      var m' := if v.Some? then m[k := v.value] else m - {k};
      var r := Fields(m', entries[1..]);
      assert forall k2 :: k2 in r ==> k2 in m || exists i :: 0 <= i < |entries| && entries[i].0 == k2 by {
        forall k2 | k2 in r && k2 !in m
          ensures exists i :: 0 <= i < |entries| && entries[i].0 == k2
        {
          if k2 == k {
            assert entries[0].0 == k2;
          } else {
            var i :| 0 <= i < |entries[1..]| && entries[1..][i].0 == k2;
            assert entries[i + 1].0 == k2;
          }
        }
      }
      r
  }

  /** Keys of an object literal, in order. */
  function Keys(entries: seq<(string, Val)>): seq<string> {
    seq(|entries|, i requires 0 <= i < |entries| => entries[i].0)
  }

  /** Reading a property back from a serialised object literal with
      distinct keys gives the value written (`undefined` stays
      `undefined`). */
  lemma {:induction false} FieldsLookup(m: map<string, Json>, entries: seq<(string, Val)>, j: nat)
    requires j < |entries|
    requires forall a, b :: 0 <= a < b < |entries| ==> entries[a].0 != entries[b].0
    ensures var r := Fields(m, entries);
      (entries[j].0 in r <==> entries[j].1.Some?) &&
      (entries[j].1.Some? ==> r[entries[j].0] == entries[j].1.value)
    decreases |entries|
  {
    var (k, v) := entries[0];
    var m' := if v.Some? then m[k := v.value] else m - {k};
    if j == 0 {
      FieldsUntouched(m', entries[1..], k);
    } else {
      FieldsLookup(m', entries[1..], j - 1);
    }
  }

  /** A key no remaining entry mentions keeps its current state. */
  lemma {:induction false} FieldsUntouched(m: map<string, Json>, entries: seq<(string, Val)>, k: string)
    requires forall i :: 0 <= i < |entries| ==> entries[i].0 != k
    ensures var r := Fields(m, entries);
      (k in r <==> k in m) && (k in m ==> r[k] == m[k])
    decreases |entries|
  {
    if |entries| > 0 {
      var (k0, v) := entries[0];
      var m' := if v.Some? then m[k0 := v.value] else m - {k0};
      FieldsUntouched(m', entries[1..], k);
    }
  }

  /** `obj.key` on an object literal built from distinct keys reads the
      value the literal gave it. */
  lemma ObjOfProp(entries: seq<(string, Val)>, j: nat)
    requires j < |entries|
    requires forall a, b :: 0 <= a < b < |entries| ==> entries[a].0 != entries[b].0
    ensures Prop(ObjOf(entries), entries[j].0) == entries[j].1
  {
    FieldsLookup(map[], entries, j);
  }

  /** `ToNumber` of a primitive that is not a string. */
  function PrimitiveNumber(j: Json): real
    requires !j.Str? && !j.Arr? && !j.Obj?
  {
    match j
    case Null => 0.0
    case Bool(b) => if b then 1.0 else 0.0
    case Num(n) => n
  }

  /** `Number(v)`, the conversion `>`, `>=`, `/` and `*` apply: undefined is
      NaN, `null` is 0, booleans are 0 or 1 and a number is itself;
      strings, arrays and objects convert through their text (`String([3])`
      is "3", `String([])` is "", `String({})` is "[object Object]").
      `None` is NaN. */
  function ToNumber(v: Val): (r: Option<real>)
    ensures v.None? ==> r.None?
    ensures v.Some? && v.value.Num? ==> r == Some(v.value.n)
    ensures v == Some(Null) ==> r == Some(0.0)
    ensures v.Some? && v.value.Bool? ==> r == Some(if v.value.b then 1.0 else 0.0)
    ensures v.Some? && v.value.Str? ==> r == StringNumber(v.value.s)
    ensures v.Some? && v.value.Obj? ==> r.None?
  {
    match v
    case None => None
    case Some(j) =>
      if j.Str? || j.Arr? || j.Obj? then
        var t := JsonText(j);
        assert j.Obj? ==> StringNumber(t).None? by {
          if j.Obj? {
            assert t == "[object Object]";
            TrimUnpadded(t);
            assert LeadingRun(t, IsDecDigit) == "";
          }
        }
        StringNumber(t)
      else Some(PrimitiveNumber(j))
  }

  /** A whole number converts back from its text, and from a one-element
      array holding it; an empty array converts to 0. */
  lemma ToNumberOfText(n: int)
    ensures ToNumber(Some(Str(IntToString(n)))) == Some(n as real)
    ensures ToNumber(Some(Arr([Num(n as real)]))) == Some(n as real)
    ensures ToNumber(Some(Arr([]))) == Some(0.0)
  {
    StringNumberIntToString(n);
    SingletonText(Num(n as real));
    NumberTextInt(n);
    assert JsonText(Arr([])) == "";
  }

  /** A one-element array prints as its element. */
  lemma SingletonText(x: Json)
    requires x != Null
    ensures JsonText(Arr([x])) == JsonText(x)
  {
    var items := [x];
    var parts := seq(|items|, i requires 0 <= i < |items| => if items[i] == Null then "" else JsonText(items[i]));
    assert parts == [JsonText(x)];
  }

  /** The binary `+` on two defined values: string concatenation as soon
      as either side is, or converts to, a string; numeric addition
      otherwise. */
  function Plus(a: Json, b: Json): (r: Json)
    ensures a.Num? && b.Num? ==> r == Num(a.n + b.n)
    ensures a.Str? || b.Str? ==> r.Str?
    ensures r.Str? || r.Num?
  {
    if a.Str? || a.Arr? || a.Obj? || b.Str? || b.Arr? || b.Obj? then Str(JsonText(a) + JsonText(b))
    else Num(PrimitiveNumber(a) + PrimitiveNumber(b))
  }

  /** The message of the `TypeError` raised by reading `key` off `null`. */
  function NullReadMessage(key: string): string {
    "Cannot read properties of null (reading '" + key + "')"
  }

  /** `xs.reduce((sum, x) => sum + x, 0)`, folding from the left with
      JavaScript `+`. */
  function PlusFold(xs: seq<Json>): (t: Json)
    ensures t.Num? || t.Str?
    decreases |xs|
  {
    if |xs| == 0 then Num(0.0) else Plus(PlusFold(xs[..|xs| - 1]), xs[|xs| - 1])
  }

  /** The numbers of a sequence of numeric values. */
  function NumValues(xs: seq<Json>): seq<real>
    requires forall i :: 0 <= i < |xs| ==> xs[i].Num?
  {
    seq(|xs|, i requires 0 <= i < |xs| => xs[i].n)
  }

  /** Over numbers only, the fold is their sum (a single string would turn
      it into concatenation). */
  lemma {:induction false} PlusFoldIsSum(xs: seq<Json>)
    requires forall i :: 0 <= i < |xs| ==> xs[i].Num?
    ensures PlusFold(xs) == Num(SumReal(NumValues(xs)))
    decreases |xs|
  {
    if |xs| > 0 {
      var init := xs[..|xs| - 1];
      PlusFoldIsSum(init);
      assert NumValues(xs) == NumValues(init) + [xs[|xs| - 1].n];
      SumRealAppend(NumValues(init), [xs[|xs| - 1].n]);
    }
  }
}

=== FILE: mcq_test.dfy ===
/** The multiple-choice quiz (`mcq-test.js`): the remembered name, starting
    a quiz over a shuffled question pool, answering, moving between
    questions, scoring and the saved result record. The question pool
    comes from the database and the random draws from `Math.random`; both
    are parameters. */
module McqTest {
  import opened Wrappers
  import opened Seqs
  import opened Strings
  import opened Numbers
  import opened JsValue

  // ---------------------------------------------------------------------
  // Remembered name

  /** `localStorage` as a map from key to stored text. */
  type Storage = map<string, string>

  const NameKey: string := "nerdtutors_mcq_name"
  const RememberKey: string := "nerdtutors_mcq_remember"

  /** `loadSavedName`: the stored name, when there is a non-empty one and
      remembering is switched on. */
  function LoadSavedName(storage: Storage): (r: Option<string>)
    ensures r.Some? ==> r.value != "" && NameKey in storage && storage[NameKey] == r.value
    ensures r.Some? <==> (NameKey in storage && storage[NameKey] != ""
                          && RememberKey in storage && storage[RememberKey] == "true")
  {
    if NameKey in storage && storage[NameKey] != "" && RememberKey in storage && storage[RememberKey] == "true"
    then Some(storage[NameKey])
    else None
  }

  /** `saveNameToStorage`. */
  function SaveName(storage: Storage, name: string): Storage {
    storage[NameKey := name][RememberKey := "true"]
  }

  /** `clearSavedName`. */
  function ClearSavedName(storage: Storage): Storage {
    storage - {NameKey, RememberKey}
  }

  /** A saved non-empty name is what the next visit loads; after clearing,
      nothing is loaded. */
  lemma SavedNameRoundTrip(storage: Storage, name: string)
    requires name != ""
    ensures LoadSavedName(SaveName(storage, name)) == Some(name)
    ensures LoadSavedName(ClearSavedName(storage)) == None
  {
  }

  // ---------------------------------------------------------------------
  // Shuffling

  /** `Math.floor(r * (i + 1))` for a draw `0 <= r < 1`: an index from 0
      to `i`. */
  function PickIndex(r: real, i: nat): (j: nat)
    requires 0.0 <= r < 1.0
    ensures j <= i
  {
    var x := r * (i + 1) as real;
    assert (i + 1) as real - x == (1.0 - r) * (i + 1) as real;
    x.Floor
  }

  /** Every draw lies in [0, 1). */
  predicate Draws(randoms: seq<real>) {
    forall k :: 0 <= k < |randoms| ==> 0.0 <= randoms[k] < 1.0
  }

  /** `shuffleArray`: Fisher-Yates over a copy, from the last position
      down to 1, taking the draws in order. The result is a rearrangement
      of the input (which, being a value, is left as it was). */
  method Shuffle<T>(a: seq<T>, randoms: seq<real>) returns (s: seq<T>)
    requires |a| <= |randoms| + 1 && Draws(randoms)
    ensures |s| == |a|
    ensures multiset(s) == multiset(a)
  {
    s := a;
    var i := |a| - 1;
    while i > 0
      invariant -1 <= i < |a|
      invariant |s| == |a|
      invariant multiset(s) == multiset(a)
    {
      var j := PickIndex(randoms[|a| - 1 - i], i);
      s := s[i := s[j]][j := s[i]];
      i := i - 1;
    }
  }

  // ---------------------------------------------------------------------
  // Quiz state

  /** One entry of `appState.answers`. */
  datatype Answer = Answer(questionId: Val, selectedOption: Option<string>, isCorrect: bool)

  datatype Quiz = Quiz(questions: seq<Json>, index: nat, answers: seq<Answer>, studentName: string)

  /** A running quiz: one answer per question, the index on a question,
      and an answer only counted correct when an option was chosen. */
  predicate Running(q: Quiz) {
    && |q.questions| > 0
    && |q.answers| == |q.questions|
    && q.index < |q.questions|
    && forall i :: 0 <= i < |q.answers| ==> q.answers[i].isCorrect ==> q.answers[i].selectedOption.Some?
  }

  /** The blank answers `startQuiz` prepares. */
  function FreshAnswers(questions: seq<Json>): (r: seq<Answer>)
    ensures |r| == |questions|
    ensures forall i :: 0 <= i < |r| ==> r[i].questionId == Prop(questions[i], "id")
    ensures forall i :: 0 <= i < |r| ==> r[i].selectedOption.None? && !r[i].isCorrect
  {
    seq(|questions|, i requires 0 <= i < |questions| => Answer(Prop(questions[i], "id"), None, false))
  }

  datatype Start = NameMissing | NoQuestions(studentName: string) | Started(quiz: Quiz)

  /** `startQuiz`. The name is the remembered one, else the trimmed input
      (which is stored when "remember" is ticked); without a name, or
      without questions, nothing starts. */
  method StartQuiz(savedName: string, input: string, remember: bool, storage: Storage,
                   pool: seq<Json>, randoms: seq<real>) returns (r: Start, stored: Storage)
    requires |pool| <= |randoms| + 1 && Draws(randoms)
    ensures savedName == "" && Trim(input) == "" ==> r == NameMissing && stored == storage
    ensures savedName == "" && Trim(input) != "" && remember ==> stored == SaveName(storage, Trim(input))
    ensures savedName != "" || !remember ==> stored == storage
    ensures r.NoQuestions? <==> (savedName != "" || Trim(input) != "") && pool == []
    ensures r.Started? ==> Running(r.quiz) && r.quiz.index == 0
    ensures r.Started? ==> r.quiz.studentName == (if savedName != "" then savedName else Trim(input))
    ensures r.Started? ==> multiset(r.quiz.questions) == multiset(pool)
    ensures r.Started? ==> r.quiz.answers == FreshAnswers(r.quiz.questions)
    ensures r.NoQuestions? ==> r.studentName == (if savedName != "" then savedName else Trim(input))
  {
    stored := storage;
    var name := savedName;
    if name == "" {
      name := Trim(input);
      if name == "" {
        return NameMissing, stored;
      }
      if remember {
        stored := SaveName(storage, name);
      }
    }
    if |pool| == 0 {
      return NoQuestions(name), stored;
    }
    var questions := Shuffle(pool, randoms);
    r := Started(Quiz(questions, 0, FreshAnswers(questions), name));
  }

  /** `selectOption`: the current answer records the letter, and is
      correct exactly when it equals the question's `correctAnswer`;
      nothing else changes. */
  function SelectOption(q: Quiz, letter: string): (r: Quiz)
    requires Running(q)
    ensures Running(r)
    ensures r.questions == q.questions && r.index == q.index && r.studentName == q.studentName
    ensures |r.answers| == |q.answers|
    ensures forall i :: 0 <= i < |q.answers| && i != q.index ==> r.answers[i] == q.answers[i]
    ensures r.answers[q.index].selectedOption == Some(letter)
    ensures r.answers[q.index].questionId == Prop(q.questions[q.index], "id")
    ensures r.answers[q.index].isCorrect <==> Prop(q.questions[q.index], "correctAnswer") == Some(Str(letter))
  {
    var question := q.questions[q.index];
    q.(answers := q.answers[q.index := Answer(Prop(question, "id"), Some(letter),
                                              Prop(question, "correctAnswer") == Some(Str(letter)))])
  }

  /** `nextQuestion`: one forward unless on the last question. */
  function NextQuestion(q: Quiz): (r: Quiz)
    requires Running(q)
    ensures Running(r) && r.questions == q.questions && r.answers == q.answers
    ensures q.index < |q.questions| - 1 ==> r.index == q.index + 1
    ensures q.index == |q.questions| - 1 ==> r == q
  {
    if q.index < |q.questions| - 1 then q.(index := q.index + 1) else q
  }

  /** `prevQuestion`: one back unless on the first question. */
  function PrevQuestion(q: Quiz): (r: Quiz)
    requires Running(q)
    ensures Running(r) && r.questions == q.questions && r.answers == q.answers
    ensures q.index > 0 ==> r.index == q.index - 1
    ensures q.index == 0 ==> r == q
  {
    if q.index > 0 then q.(index := q.index - 1) else q
  }

  /** Going forward and back (or back and forward) away from the ends
      returns to the same question. */
  lemma NavigationInverse(q: Quiz)
    requires Running(q)
    ensures q.index < |q.questions| - 1 ==> PrevQuestion(NextQuestion(q)) == q
    ensures q.index > 0 ==> NextQuestion(PrevQuestion(q)) == q
  {
  }

  // ---------------------------------------------------------------------
  // Scoring

  predicate Skipped(a: Answer) {
    a.selectedOption.None?
  }

  predicate Right(a: Answer) {
    a.selectedOption.Some? && a.isCorrect
  }

  predicate Wrong(a: Answer) {
    a.selectedOption.Some? && !a.isCorrect
  }

  /** The counting loop of `finishQuiz`: every answer is exactly one of
      skipped, correct or incorrect. */
  method Score(answers: seq<Answer>) returns (correct: nat, incorrect: nat, skipped: nat)
    ensures correct == Count(answers, Right)
    ensures incorrect == Count(answers, Wrong)
    ensures skipped == Count(answers, Skipped)
    ensures correct + incorrect + skipped == |answers|
  {
    correct, incorrect, skipped := 0, 0, 0;
    var i := |answers|;
    while i > 0
      invariant 0 <= i <= |answers|
      invariant correct == Count(answers[i..], Right)
      invariant incorrect == Count(answers[i..], Wrong)
      invariant skipped == Count(answers[i..], Skipped)
      invariant correct + incorrect + skipped == |answers| - i
    {
      i := i - 1;
      assert answers[i..][1..] == answers[i + 1..];
      if answers[i].selectedOption.None? {
        skipped := skipped + 1;
      } else if answers[i].isCorrect {
        correct := correct + 1;
      } else {
        incorrect := incorrect + 1;
      }
    }
    assert answers[0..] == answers;
  }

  /** The class of the score circle. */
  function ResultClass(percentage: int): (c: string)
    ensures c in ["high", "medium", "low"]
    ensures c == "high" <==> percentage >= 80
    ensures c == "low" <==> percentage < 50
  {
    if percentage >= 80 then "high" else if percentage >= 50 then "medium" else "low"
  }

  /** One entry of the saved `results`. */
  datatype ResultItem = ResultItem(questionId: Val, questionText: Val, selectedOption: Option<string>,
                                   correctAnswer: Val, isCorrect: bool, marks: nat, earnedMarks: nat)

  /** The record `saveResults` adds (time stamp left out). */
  datatype Payload = Payload(
    studentId: string, studentName: string, testType: string, totalQuestions: nat,
    totalScore: string, percentage: string, correctAnswers: nat, incorrectAnswers: nat,
    skippedQuestions: nat, timeTaken: int, results: seq<ResultItem>)

  function ResultOf(question: Json, a: Answer): (r: ResultItem)
    ensures r.marks == 1
    ensures r.earnedMarks == 1 <==> a.isCorrect
    ensures r.earnedMarks <= 1
  {
    ResultItem(Prop(question, "id"), Prop(question, "text"), a.selectedOption,
               Prop(question, "correctAnswer"), a.isCorrect, 1, if a.isCorrect then 1 else 0)
  }

  /** The finished quiz as saved. */
  method FinishQuiz(q: Quiz, studentId: string, timeTaken: int) returns (p: Payload, percentage: int)
    requires Running(q)
    ensures 0 <= percentage <= 100
    ensures percentage == Round(p.correctAnswers as real / |q.questions| as real * 100.0)
    ensures p.correctAnswers == |q.questions| ==> percentage == 100
    ensures p.correctAnswers == 0 ==> percentage == 0
    ensures p.correctAnswers + p.incorrectAnswers + p.skippedQuestions == p.totalQuestions == |q.questions|
    ensures p.correctAnswers == Count(q.answers, Right)
    ensures p.totalScore == NatToString(p.correctAnswers) + "/" + NatToString(|q.questions|)
    ensures p.percentage == IntToString(percentage) + "%"
    ensures p.testType == "mcq" && p.studentName == q.studentName
    ensures |p.results| == |q.questions|
    ensures forall i :: 0 <= i < |p.results| ==> p.results[i] == ResultOf(q.questions[i], q.answers[i])
  {
    var correct, incorrect, skipped := Score(q.answers);
    var n := |q.questions|;
    percentage := Percent(correct as real, n as real);
    var results := seq(n, i requires 0 <= i < n => ResultOf(q.questions[i], q.answers[i]));
    p := Payload(studentId, q.studentName, "mcq", n,
                 NatToString(correct) + "/" + NatToString(n), IntToString(percentage) + "%",
                 correct, incorrect, skipped, timeTaken, results);
  }

  function EarnedMarks(results: seq<ResultItem>): seq<int> {
    seq(|results|, i requires 0 <= i < |results| => results[i].earnedMarks as int)
  }

  /** The earned marks of a saved quiz add up to its number of correct
      answers. */
  lemma {:induction false} EarnedMarksCountCorrect(questions: seq<Json>, answers: seq<Answer>)
    requires |questions| == |answers|
    requires forall i :: 0 <= i < |answers| ==> answers[i].isCorrect ==> answers[i].selectedOption.Some?
    ensures var results := seq(|answers|, i requires 0 <= i < |answers| => ResultOf(questions[i], answers[i]));
      Sum(EarnedMarks(results)) == Count(answers, Right)
    decreases |answers|
  {
    var results := seq(|answers|, i requires 0 <= i < |answers| => ResultOf(questions[i], answers[i]));
    if |answers| > 0 {
      EarnedMarksCountCorrect(questions[1..], answers[1..]);
      var rest := seq(|answers| - 1, i requires 0 <= i < |answers| - 1 => ResultOf(questions[1..][i], answers[1..][i]));
      assert EarnedMarks(results)[1..] == EarnedMarks(rest);
    }
  }

  /** `retryQuiz`: an empty quiz at index 0; the name becomes the
      remembered one when there is one and is otherwise kept. */
  function RetryQuiz(q: Quiz, storage: Storage): (r: Quiz)
    ensures r.questions == [] && r.answers == [] && r.index == 0
    ensures LoadSavedName(storage).Some? ==> r.studentName == LoadSavedName(storage).value
    ensures LoadSavedName(storage).None? ==> r.studentName == q.studentName
  {
    Quiz([], 0, [], LoadSavedName(storage).GetOr(q.studentName))
  }
}

=== FILE: model_text.dfy ===
/** Clean-up of the text a language model returns before it is parsed as
    JSON: Markdown code fences removed (`/```json|```/g` replaced by ""),
    runs of newlines folded into one space (`/\n+/g` replaced by " "), and
    the result trimmed. */
module ModelText {
  import opened Strings

  const Fence: string := "```"
  const JsonFence: string := "```json"

  /** The text contains no code fence. */
  predicate FenceFree(s: string) {
    !Contains(s, Fence)
  }

  /** `s.replace(/```json|```/g, "")`: a left-to-right scan that, at each
      position, removes "```json" if it starts there, else "```", else keeps
      the character. */
  function StripFences(s: string): (r: string)
    ensures |r| <= |s|
    decreases |s|
  {
    if |s| == 0 then ""
    else if StartsWith(s, JsonFence) then StripFences(s[7..])
    else if StartsWith(s, Fence) then StripFences(s[3..])
    else [s[0]] + StripFences(s[1..])
  }

  /** A stripped text starting with a backtick comes from a text starting
      with one. */
  lemma {:induction false} StripKeepsLeadingTick(u: string)
    requires StartsWith(StripFences(u), "`")
    ensures StartsWith(u, "`")
  {
    if !StartsWith(u, Fence) {
      assert StripFences(u) == [u[0]] + StripFences(u[1..]);
    }
  }

  /** A stripped text starting with two backticks comes from a text
      starting with two. */
  lemma {:induction false} StripKeepsLeadingTicks(t: string)
    requires StartsWith(StripFences(t), "``")
    ensures StartsWith(t, "``")
  {
    if !StartsWith(t, Fence) {
      var rest := StripFences(t[1..]);
      assert StripFences(t) == [t[0]] + rest;
      assert StripFences(t)[1] == rest[0];
      assert StartsWith(rest, "`");
      StripKeepsLeadingTick(t[1..]);
    }
  }

  /** Stripping leaves no fence behind, whatever the input: the removals
      never join backticks into a new fence. */
  lemma {:induction false} StripFencesFenceFree(s: string)
    ensures FenceFree(StripFences(s))
    decreases |s|
  {
    if |s| == 0 {
    } else if StartsWith(s, JsonFence) {
      StripFencesFenceFree(s[7..]);
    } else if StartsWith(s, Fence) {
      StripFencesFenceFree(s[3..]);
    } else {
      var rest := StripFences(s[1..]);
      StripFencesFenceFree(s[1..]);
      var r := [s[0]] + rest;
      assert r[1..] == rest;
      if StartsWith(r, Fence) {
        assert StartsWith(rest, "``");
        StripKeepsLeadingTicks(s[1..]);
      }
    }
  }

  /** Text with no fence is left unchanged. */
  lemma {:induction false} StripFencesFenceFreeUnchanged(s: string)
    requires FenceFree(s)
    ensures StripFences(s) == s
    decreases |s|
  {
    if |s| > 0 {
      assert !StartsWith(s, Fence);
      assert !StartsWith(s, JsonFence);
      StripFencesFenceFreeUnchanged(s[1..]);
    }
  }

  /** `s` with its leading newlines removed. */
  function DropNewlines(s: string): (r: string)
    ensures |r| <= |s| && r == s[|s| - |r|..]
    ensures |r| > 0 ==> r[0] != '\n'
    decreases |s|
  {
    if |s| > 0 && s[0] == '\n' then DropNewlines(s[1..]) else s
  }

  /** `s.replace(/\n+/g, " ")`: every maximal run of newlines becomes one
      space. */
  function CollapseNewlines(s: string): (r: string)
    ensures '\n' !in r
    ensures |r| <= |s|
    decreases |s|
  {
    if |s| == 0 then ""
    else if s[0] == '\n' then " " + CollapseNewlines(DropNewlines(s[1..]))
    else [s[0]] + CollapseNewlines(s[1..])
  }

  /** Text with no newline is left unchanged. */
  lemma {:induction false} CollapseNewlinesUnchanged(s: string)
    requires '\n' !in s
    ensures CollapseNewlines(s) == s
    decreases |s|
  {
    if |s| > 0 {
      assert '\n' !in s[1..];
      CollapseNewlinesUnchanged(s[1..]);
    }
  }

  /** A suffix of fence-free text is fence-free. */
  lemma {:induction false} FenceFreeSuffix(s: string, k: nat)
    requires k <= |s| && FenceFree(s)
    ensures FenceFree(s[k..])
    decreases k
  {
    if k > 0 {
      assert s[1..][k - 1..] == s[k..];
      FenceFreeSuffix(s[1..], k - 1);
    }
  }

  /** A collapsed text starting with a backtick comes from text starting
      with one. */
  lemma CollapseKeepsLeadingTick(u: string)
    requires StartsWith(CollapseNewlines(u), "`")
    ensures StartsWith(u, "`")
  {
  }

  /** A collapsed text starting with two backticks comes from text
      starting with two. */
  lemma {:induction false} CollapseKeepsLeadingTicks(t: string)
    requires StartsWith(CollapseNewlines(t), "``")
    ensures StartsWith(t, "``")
  {
    assert CollapseNewlines(t)[0] == '`';
    assert t[0] != '\n';
    var rest := CollapseNewlines(t[1..]);
    assert CollapseNewlines(t) == [t[0]] + rest;
    assert CollapseNewlines(t)[1] == rest[0];
    assert StartsWith(rest, "`");
    CollapseKeepsLeadingTick(t[1..]);
  }

  /** Folding newlines into spaces creates no fence. */
  lemma {:induction false} CollapseNewlinesFenceFree(s: string)
    requires FenceFree(s)
    ensures FenceFree(CollapseNewlines(s))
    decreases |s|
  {
    if |s| > 0 {
      FenceFreeSuffix(s, 1);
      if s[0] == '\n' {
        var d := DropNewlines(s[1..]);
        FenceFreeSuffix(s[1..], |s[1..]| - |d|);
        CollapseNewlinesFenceFree(d);
        var r := " " + CollapseNewlines(d);
        assert r[1..] == CollapseNewlines(d);
        assert r[0] == ' ';
      } else {
        CollapseNewlinesFenceFree(s[1..]);
        var rest := CollapseNewlines(s[1..]);
        var r := [s[0]] + rest;
        assert r[1..] == rest;
        if StartsWith(r, Fence) {
          assert StartsWith(rest, "``");
          CollapseKeepsLeadingTicks(s[1..]);
        }
      }
    }
  }

  /** A prefix of fence-free text is fence-free. */
  lemma {:induction false} FenceFreePrefix(s: string, k: nat)
    requires k <= |s| && FenceFree(s)
    ensures FenceFree(s[..k])
    decreases |s|
  {
    if k > 0 {
      FenceFreeSuffix(s, 1);
      FenceFreePrefix(s[1..], k - 1);
      assert s[..k][1..] == s[1..][..k - 1];
    }
  }

  /** Trimming fence-free text leaves it fence-free. */
  lemma TrimFenceFree(s: string)
    requires FenceFree(s)
    ensures FenceFree(Trim(s))
  {
    var a := TrimStart(s);
    FenceFreeSuffix(s, |s| - |a|);
    FenceFreePrefix(a, |TrimEnd(a)|);
  }

  /** The clean-up the text-answer evaluator applies before `JSON.parse`. */
  function CleanEvaluateText(text: string): (r: string)
    ensures '\n' !in r
    ensures FenceFree(r)
  {
    var stripped := StripFences(text);
    StripFencesFenceFree(text);
    var collapsed := CollapseNewlines(stripped);
    CollapseNewlinesFenceFree(stripped);
    TrimFenceFree(collapsed);
    TrimNoNewline(collapsed);
    Trim(collapsed)
  }

  lemma TrimNoNewline(s: string)
    requires '\n' !in s
    ensures '\n' !in Trim(s)
  {
    TrimIsSlice(s);
  }

  /** The clean-up the image evaluator applies before `JSON.parse`
      (newlines kept). */
  function CleanOcrText(text: string): (r: string)
    ensures FenceFree(r)
    ensures |r| > 0 ==> !IsSpace(r[0]) && !IsSpace(r[|r| - 1])
  {
    StripFencesFenceFree(text);
    TrimFenceFree(StripFences(text));
    TrimIsSlice(StripFences(text));
    Trim(StripFences(text))
  }

  /** A reply already in clean form (fence-free, single-line, trimmed)
      passes through the evaluator's clean-up unchanged, so a model that
      answers with bare JSON is parsed exactly as sent. */
  lemma CleanEvaluateTextIdempotent(text: string)
    requires FenceFree(text) && '\n' !in text && Trim(text) == text
    ensures CleanEvaluateText(text) == text
  {
    StripFencesFenceFreeUnchanged(text);
    CollapseNewlinesUnchanged(text);
  }

  /** Cleaning twice is cleaning once. */
  lemma CleanEvaluateTextTwice(text: string)
    ensures CleanEvaluateText(CleanEvaluateText(text)) == CleanEvaluateText(text)
  {
    var c := CleanEvaluateText(text);
    TrimIdempotent(CollapseNewlines(StripFences(text)));
    CleanEvaluateTextIdempotent(c);
  }
}

=== FILE: numbers.dfy ===
/** JavaScript number conversions the application relies on: decimal
    rendering of integers (template literals, `String(n)`), `parseInt`,
    `parseFloat` and `Math.round`. Numbers are exact reals here; IEEE-754
    rounding is not modelled. */
module Numbers {
  import opened Wrappers
  import opened Strings

  predicate IsDecDigit(c: char) {
    '0' <= c <= '9'
  }

  predicate IsHexDigit(c: char) {
    IsDecDigit(c) || 'a' <= c <= 'f' || 'A' <= c <= 'F'
  }

  /** Value of one digit in the given radix (10 or 16). */
  function DigitValue(c: char): (d: nat)
    requires IsHexDigit(c)
    ensures d < 16
    ensures IsDecDigit(c) <==> d < 10
  {
    if IsDecDigit(c) then c as int - '0' as int
    else if 'a' <= c <= 'f' then c as int - 'a' as int + 10
    else c as int - 'A' as int + 10
  }

  /** The character for a decimal digit. */
  function DigitChar(d: nat): (c: char)
    requires d < 10
    ensures IsDecDigit(c) && DigitValue(c) == d
  {
    ('0' as int + d) as char
  }

  /** Decimal text of a natural number, without leading zeros. */
  function NatToString(n: nat): (s: string)
    ensures |s| >= 1
    ensures forall i :: 0 <= i < |s| ==> IsDecDigit(s[i])
    ensures |s| > 1 ==> s[0] != '0'
    decreases n
  {
    if n < 10 then [DigitChar(n)] else NatToString(n / 10) + [DigitChar(n % 10)]
  }

  /** Decimal text of an integer, `-` first when negative. */
  function IntToString(n: int): (s: string)
    ensures |s| >= 1
    ensures n < 0 <==> s[0] == '-'
  {
    if n < 0 then "-" + NatToString(-n) else NatToString(n)
  }

  /** The value of a run of digits in radix 10 or 16. */
  function DigitsValue(ds: string, radix: nat): nat
    requires radix == 10 || radix == 16
    requires forall i :: 0 <= i < |ds| ==> IsHexDigit(ds[i])
    decreases |ds|
  {
    if |ds| == 0 then 0
    else DigitsValue(ds[..|ds| - 1], radix) * radix + DigitValue(ds[|ds| - 1])
  }

  /** Reading back the decimal text of `n` gives `n`. */
  lemma {:induction false} DigitsValueNatToString(n: nat)
    ensures DigitsValue(NatToString(n), 10) == n
    decreases n
  {
    if n >= 10 {
      var s := NatToString(n);
      DigitsValueNatToString(n / 10);
      assert s[..|s| - 1] == NatToString(n / 10);
    }
  }

  /** The longest prefix of `s` whose characters all satisfy `p`. */
  function LeadingRun(s: string, p: char -> bool): (r: string)
    ensures |r| <= |s| && r == s[..|r|]
    ensures forall i :: 0 <= i < |r| ==> p(r[i])
    ensures |r| < |s| ==> !p(s[|r|])
    decreases |s|
  {
    if |s| > 0 && p(s[0]) then [s[0]] + LeadingRun(s[1..], p) else ""
  }

  /** A run consisting entirely of `p` characters is its own leading run. */
  lemma {:induction false} LeadingRunWhole(s: string, p: char -> bool)
    requires forall i :: 0 <= i < |s| ==> p(s[i])
    ensures LeadingRun(s, p) == s
    decreases |s|
  {
    if |s| > 0 {
      LeadingRunWhole(s[1..], p);
    }
  }

  /** The digits part of `parseInt` after the sign: `0x`/`0X` selects
      hexadecimal, then the longest run of digits is read. */
  function ParseUnsigned(u: string): (r: Option<nat>)
    ensures r.Some? ==> |u| > 0 && IsDecDigit(u[0])
  {
    var hex := |u| >= 2 && u[0] == '0' && (u[1] == 'x' || u[1] == 'X');
    var z := if hex then LeadingRun(u[2..], IsHexDigit) else LeadingRun(u, IsDecDigit);
    if |z| == 0 then None
    else Some(DigitsValue(z, if hex then 16 else 10))
  }

  /** `parseInt(s)` with no radix argument: leading white space is skipped,
      one sign is allowed, and the digits are read as `ParseUnsigned` does;
      `None` is `NaN`. A negative zero is `Some(0)`; the two are alike under
      every test the application applies. */
  function ParseInt(s: string): (r: Option<int>)
    ensures r.Some? ==> exists i :: 0 <= i < |s| && IsDecDigit(s[i])
  {
    var t := TrimStart(s);
    if |t| > 0 && (t[0] == '-' || t[0] == '+') then
      match ParseUnsigned(t[1..])
      case None => None
      case Some(v) =>
        assert IsDecDigit(s[|s| - |t| + 1]);
        var w: int := if t[0] == '-' then -(v as int) else v;
        Some(w)
    else
      match ParseUnsigned(t)
      case None => None
      case Some(v) =>
        assert IsDecDigit(s[|s| - |t|]);
        Some(v)
  }

  /** A run of digits followed by text that does not continue it is read as
      that run. */
  lemma {:induction false} LeadingRunConcat(a: string, b: string, p: char -> bool)
    requires forall i :: 0 <= i < |a| ==> p(a[i])
    requires |b| > 0 ==> !p(b[0])
    ensures LeadingRun(a + b, p) == a
    decreases |a|
  {
    if |a| > 0 {
      assert (a + b)[1..] == a[1..] + b;
      LeadingRunConcat(a[1..], b, p);
    } else {
      assert a + b == b;
    }
  }

  /** The unsigned reader reads back the decimal text of a natural. */
  lemma ParseUnsignedNatToString(m: nat)
    ensures ParseUnsigned(NatToString(m)) == Some(m)
  {
    var digits := NatToString(m);
    LeadingRunWhole(digits, IsDecDigit);
    DigitsValueNatToString(m);
  }

  /** `parseInt` reads back the decimal text of any integer. */
  lemma ParseIntIntToString(n: int)
    ensures ParseInt(IntToString(n)) == Some(n)
  {
    var s := IntToString(n);
    assert !IsSpace(s[0]);
    assert TrimStart(s) == s;
    if n < 0 {
      assert s[1..] == NatToString(-n);
      ParseUnsignedNatToString(-n);
    } else {
      ParseUnsignedNatToString(n);
    }
  }

  /** `parseInt` of blank text is `NaN`, so `parseInt(x) || d` falls back to
      `d` for an empty form field. */
  lemma ParseIntBlank(s: string)
    requires IsBlank(s)
    ensures ParseInt(s) == None
  {
    assert TrimStart(s) == "";
  }

  function Pow10(k: nat): (p: nat)
    ensures p >= 1
  {
    if k == 0 then 1 else 10 * Pow10(k - 1)
  }

  /** The value of the digits after a decimal point. */
  function FractionValue(ds: string): (v: real)
    requires forall i :: 0 <= i < |ds| ==> IsDecDigit(ds[i])
    ensures 0.0 <= v <= 1.0
    decreases |ds|
  {
    if |ds| == 0 then 0.0 else (DigitValue(ds[0]) as real + FractionValue(ds[1..])) / 10.0
  }

  /** The unsigned part of `parseFloat`: integer digits and an optional
      fraction, at least one digit in all. */
  function ParseUnsignedReal(u: string): (r: Option<real>)
    ensures r.Some? ==> r.value >= 0.0
    ensures r.Some? ==> exists i :: 0 <= i < |u| && IsDecDigit(u[i])
  {
    var ip := LeadingRun(u, IsDecDigit);
    var rest := u[|ip|..];
    var fp := if |rest| > 0 && rest[0] == '.' then LeadingRun(rest[1..], IsDecDigit) else "";
    if |ip| == 0 && |fp| == 0 then None
    else
      assert if |ip| > 0 then IsDecDigit(u[0]) else IsDecDigit(u[1]);
      Some(DigitsValue(ip, 10) as real + FractionValue(fp))
  }

  /** `parseFloat(s)`: leading white space skipped, optional sign, then the
      unsigned part. Exponents and `Infinity` are not read. */
  function ParseFloat(s: string): (r: Option<real>)
    ensures IsBlank(s) ==> r.None?
  {
    var t := TrimStart(s);
    if |t| > 0 && (t[0] == '-' || t[0] == '+') then
      match ParseUnsignedReal(t[1..])
      case None => None
      case Some(v) =>
        Some(if t[0] == '-' then -v else v)
    else
      match ParseUnsignedReal(t)
      case None => None
      case Some(v) => Some(v)
  }

  /** The unsigned real reader reads back `${m}%`. */
  lemma ParseUnsignedRealPercent(m: nat)
    ensures ParseUnsignedReal(NatToString(m) + "%") == Some(m as real)
  {
    var digits := NatToString(m);
    var u := digits + "%";
    LeadingRunConcat(digits, "%", IsDecDigit);
    DigitsValueNatToString(m);
    assert u[|digits|..] == "%";
    assert DigitsValue("", 10) == 0 && FractionValue("") == 0.0;
  }

  /** `parseFloat` reads back a whole-number percentage written as
      `${n}%`, the form the results pages store. */
  lemma {:induction false} ParseFloatPercent(n: int)
    ensures ParseFloat(IntToString(n) + "%") == Some(n as real)
  {
    if n < 0 {
      ParseFloatNegativePercent(n);
    } else {
      ParseFloatNaturalPercent(n);
    }
  }

  lemma {:induction false} ParseFloatNaturalPercent(n: nat)
    ensures ParseFloat(IntToString(n) + "%") == Some(n as real)
  {
    ParseFloatPercentNatural(n);
  }

  lemma {:induction false} ParseFloatNegativePercent(n: int)
    requires n < 0
    ensures ParseFloat(IntToString(n) + "%") == Some(n as real)
  {
    var m: nat := -n;
    var digits := NatToString(m);
    assert IntToString(n) == "-" + digits;
    assert IntToString(n) + "%" == "-" + digits + "%";
    ParseFloatPercentNegative(m);
  }

  lemma {:induction false} ParseFloatPercentNatural(m: nat)
    ensures ParseFloat(NatToString(m) + "%") == Some(m as real)
  {
    var s := NatToString(m) + "%";
    assert !IsSpace(s[0]) && s[0] != '-' && s[0] != '+';
    assert TrimStart(s) == s;
    ParseUnsignedRealPercent(m);
  }

  lemma {:induction false} ParseFloatPercentNegative(m: nat)
    requires m > 0
    ensures ParseFloat("-" + NatToString(m) + "%") == Some(-(m as int) as real)
  {
    var s := "-" + NatToString(m) + "%";
    assert !IsSpace(s[0]) && s[0] == '-';
    assert TrimStart(s) == s;
    assert s[1..] == NatToString(m) + "%";
    ParseUnsignedRealPercent(m);
  }

  /** The unsigned decimal literal `Number` accepts: integer digits and an
      optional fraction, at least one digit in all, and nothing after. */
  function UnsignedDecimal(u: string): (r: Option<real>)
    ensures r.Some? ==> r == ParseUnsignedReal(u)
  {
    var ip := LeadingRun(u, IsDecDigit);
    var rest := u[|ip|..];
    var dot := |rest| > 0 && rest[0] == '.';
    var fp := if dot then LeadingRun(rest[1..], IsDecDigit) else "";
    if |ip| + (if dot then 1 + |fp| else 0) == |u| then ParseUnsignedReal(u) else None
  }

  /** `Number(s)` for a string: white space trimmed from both ends, blank
      text is 0, otherwise one optional sign and a decimal literal that
      must use up the whole text; `None` is `NaN`. Exponents, `0x`/`0o`/`0b`
      prefixes and `Infinity` are not read (see README). */
  function StringNumber(s: string): (r: Option<real>)
    ensures IsBlank(s) ==> r == Some(0.0)
  {
    var t := Trim(s);
    TrimEmptyIffBlank(s);
    if t == "" then Some(0.0) else SignedDecimal(t)
  }

  /** A decimal literal with one optional sign. */
  function SignedDecimal(t: string): (r: Option<real>)
    requires |t| > 0
    ensures t[0] != '-' && t[0] != '+' ==> r == UnsignedDecimal(t)
    ensures t[0] == '-' && UnsignedDecimal(t[1..]).Some? ==> r == Some(-UnsignedDecimal(t[1..]).value)
  {
    if t[0] == '-' || t[0] == '+' then
      match UnsignedDecimal(t[1..])
      case None => None
      case Some(v) => Some(if t[0] == '-' then -v else v)
    else UnsignedDecimal(t)
  }

  /** The unsigned real reader reads back the decimal text of a natural. */
  lemma ParseUnsignedRealNatToString(m: nat)
    ensures ParseUnsignedReal(NatToString(m)) == Some(m as real)
  {
    var digits := NatToString(m);
    LeadingRunWhole(digits, IsDecDigit);
    DigitsValueNatToString(m);
    assert digits[|digits|..] == "";
    assert FractionValue("") == 0.0;
  }

  /** Text without white space at either end is its own trim. */
  lemma TrimUnpadded(s: string)
    requires |s| > 0 && !IsSpace(s[0]) && !IsSpace(s[|s| - 1])
    ensures Trim(s) == s
  {
    assert TrimStart(s) == s;
  }

  /** `Number` reads back the decimal text of any integer. */
  lemma {:induction false} StringNumberIntToString(n: int)
    ensures StringNumber(IntToString(n)) == Some(n as real)
  {
    if n < 0 {
      StringNumberNegative(n);
    } else {
      StringNumberNatural(n);
    }
  }

  lemma {:induction false} StringNumberNatural(m: nat)
    ensures StringNumber(NatToString(m)) == Some(m as real)
  {
    var digits := NatToString(m);
    TrimUnpadded(digits);
    LeadingRunWhole(digits, IsDecDigit);
    ParseUnsignedRealNatToString(m);
    assert UnsignedDecimal(digits) == Some(m as real);
  }

  lemma {:induction false} StringNumberNegative(n: int)
    requires n < 0
    ensures StringNumber(IntToString(n)) == Some(n as real)
  {
    var m: nat := -n;
    var digits := NatToString(m);
    var s := IntToString(n);
    assert s == "-" + digits && s[1..] == digits;
    assert s[|s| - 1] == digits[|digits| - 1];
    TrimUnpadded(s);
    LeadingRunWhole(digits, IsDecDigit);
    ParseUnsignedRealNatToString(m);
    assert UnsignedDecimal(digits) == Some(m as real);
    assert -(m as real) == n as real;
  }

  /** Unlike `parseFloat`, `Number` reads the stored `"<n>%"` text as NaN:
      the trailing sign is not part of a numeric literal. */
  lemma StringNumberPercentIsNaN(n: int)
    ensures StringNumber(IntToString(n) + "%") == None
    ensures ParseFloat(IntToString(n) + "%") == Some(n as real)
  {
    var s := IntToString(n) + "%";
    var digits := NatToString(if n < 0 then -n else n);
    assert s == (if n < 0 then "-" else "") + digits + "%";
    TrimUnpadded(s);
    LeadingRunConcat(digits, "%", IsDecDigit);
    if n < 0 {
      assert s[1..] == digits + "%";
    }
    ParseFloatPercent(n);
  }

  /** `Math.round`: the nearest integer, halves rounded up. */
  function Round(x: real): (r: int)
    ensures x - 0.5 < r as real <= x + 0.5
  {
    (x + 0.5).Floor
  }

  /** `Math.round` picks a nearest integer: no integer is strictly closer. */
  lemma RoundNearest(x: real, k: int)
    ensures Abs(x - Round(x) as real) <= Abs(x - k as real)
  {
    var r := Round(x);
    assert Abs(x - r as real) <= 0.5;
    if k > r {
      assert k as real >= r as real + 1.0;
    } else if k < r {
      assert k as real <= r as real - 1.0;
    }
  }

  function Abs(x: real): real {
    if x < 0.0 then -x else x
  }

  /** `Math.round(part / whole * 100)`. */
  function Percent(part: real, whole: real): (p: int)
    requires whole > 0.0
    ensures 0.0 <= part <= whole ==> 0 <= p <= 100
    ensures part == whole ==> p == 100
    ensures part == 0.0 ==> p == 0
  {
    var q := part / whole;
    assert q * whole == part;
    assert 0.0 <= part <= whole ==> 0.0 <= q <= 1.0;
    assert part == whole ==> q == 1.0 && Round(q * 100.0) == 100;
    Round(q * 100.0)
  }

  /** `x` is a whole number. */
  predicate IsIntegral(x: real) {
    x.Floor as real == x
  }

  /** `x * 10^k`. */
  function Scale10(x: real, k: nat): (y: real)
    ensures x >= 0.0 ==> y >= 0.0
  {
    if k == 0 then x else 10.0 * Scale10(x, k - 1)
  }

  /** The fewest decimal places, from `k` up to 20, that represent `x`. */
  function DecimalPlaces(x: real, k: nat): (d: nat)
    requires k <= 20
    ensures k <= d <= 20
    decreases 20 - k
  {
    if k == 20 || IsIntegral(Scale10(x, k)) then k else DecimalPlaces(x, k + 1)
  }

  /** `s` left-padded with zeros to `width` characters. */
  function PadZeros(s: string, width: nat): (r: string)
    ensures |r| == if |s| < width then width else |s|
    ensures r[|r| - |s|..] == s
    decreases width - |s|
  {
    if |s| < width then
      var r := PadZeros("0" + s, width);
      assert r[|r| - |s|..] == r[|r| - |s| - 1..][1..];
      assert ("0" + s)[1..] == s;
      r
    else s
  }

  /** `m / 10^k` written with exactly `k` decimals. */
  function FixedText(m: nat, k: nat): string {
    if k == 0 then NatToString(m)
    else
      var t := PadZeros(NatToString(m), k + 1);
      t[..|t| - k] + "." + t[|t| - k..]
  }

  /** `String(x)` for a non-negative number. */
  function NonNegativeText(a: real): (s: string)
    requires a >= 0.0
    ensures |s| >= 1
  {
    var k := DecimalPlaces(a, 0);
    FixedText(Scale10(a, k).Floor, k)
  }

  /** `String(x)` for a number. Whole numbers are written exactly as
      JavaScript writes them; other values in decimal notation with at most
      20 places (JavaScript's shortest-round-trip digits and exponent
      notation are not modelled). */
  function NumberText(x: real): (s: string)
    ensures |s| >= 1
  {
    if x < 0.0 then "-" + NonNegativeText(-x) else NonNegativeText(x)
  }

  lemma NonNegativeTextNat(a: nat)
    ensures NonNegativeText(a as real) == NatToString(a)
  {
    assert IsIntegral(Scale10(a as real, 0));
  }

  /** Whole numbers print as their integer text (`${3}` is "3"). */
  lemma NumberTextInt(n: int)
    ensures NumberText(n as real) == IntToString(n)
  {
    if n < 0 {
      assert -(n as real) == (-n) as real;
      NonNegativeTextNat(-n);
    } else {
      NonNegativeTextNat(n);
    }
  }
}

=== FILE: ocr_evaluate.dfy ===
/** The image evaluation endpoint (`api/ocr-evaluate.js`): resolves the
    key, normalises the image list, builds the single-answer or full-sheet
    prompt and image parts, asks the Gemini service and passes its JSON on. */
module OcrEvaluate {
  import opened Wrappers
  import opened Strings
  import opened Numbers
  import opened JsValue
  import opened ModelText
  import opened Http

  const Endpoint: string :=
    "https://generativelanguage.googleapis.com/v1beta/models/gemini-2.5-flash:generateContent"

  const Config: GenerationConfig := GenerationConfig(0.2, None, None, None)

  const DefaultMime: Json := Str("image/jpeg")

  const FullSheetIntro: string :=
    "You are an expert teacher evaluating a student's handwritten/printed answer sheet.\n\n\U{26A0}\U{FE0F} RELEVANCE ENFORCEMENT (MUST FOLLOW):\nBefore grading EACH answer, verify that the student's answer is about the question asked.\n- If the ENTIRE answer is completely unrelated to the question (different topic, different subject, different chapter entirely), give score = 0. Set isRelevant = false.\n- If multiple images are uploaded and SOME images contain irrelevant content (e.g., one page has the correct answer but another page has an unrelated graph/diagram/text), apply a 50% PENALTY. Grade the relevant content fully, then cut the score in HALF. For example: if the relevant answer deserves 5/5 but one image is irrelevant, give 2.5/5. Always explain the deduction in feedback.\n- If the answer partially addresses the topic but is incomplete or inaccurate, give reduced marks \U{2014} NOT zero.\n- Only give 0 if NOTHING in the answer relates to the question at all.\n\nIMPORTANT INSTRUCTIONS:\n1. First, carefully READ and EXTRACT all the text visible in "
  const FullSheetManyPages: string := "these answer sheet images (the student has uploaded multiple pages)"
  const FullSheetOnePage: string := "this answer sheet image"
  const FullSheetSteps: string :=
    ".\n2. The student may have numbered their answers (Q1, Q2, Ans 1, etc.) \U{2014} identify which answer corresponds to which question.\n3. If an answer for a question is not found in the image, mark it as \"Not attempted\" with score 0.\n4. For each answer, FIRST check relevance of the content, THEN evaluate the relevant parts.\n\nQUESTIONS TO EVALUATE:\n"
  const FullSheetSchema: string :=
    "\n\nReturn STRICT JSON only (no markdown, no code blocks):\n{\n  \"extractedText\": \"The full raw text you extracted from the image(s)\",\n  \"results\": [\n    {\n      \"questionId\": \"ID_FROM_INPUT\",\n      \"questionNumber\": 1,\n      \"extractedAnswer\": \"The specific text you identified as the answer for this question\",\n      \"isRelevant\": true or false,\n      \"score\": <number>,\n      \"maxMarks\": <number>,\n      \"improvements\": [\"suggestion1\", \"suggestion2\"],\n      \"feedback\": \"Detailed feedback \U{2014} if partially irrelevant, note what was irrelevant and grade only the relevant parts\"\n    }\n  ],\n  \"totalScore\": <number>,\n  \"totalMaxMarks\": <number>,\n  \"overallFeedback\": \"General feedback on the entire answer sheet\"\n}"
  const SingleIntro: string :=
    "You are an expert teacher evaluating a student's handwritten/printed answer.\n\n\U{26A0}\U{FE0F} RELEVANCE ENFORCEMENT (MUST FOLLOW):\nBefore grading, verify that the student's answer is about the question asked.\n- If the ENTIRE answer is completely unrelated to the question (different topic, different subject, different chapter entirely), give score = 0. Set isRelevant = false.\n- If multiple images are uploaded and SOME images contain irrelevant content (e.g., one page has the correct answer but another page has an unrelated graph/diagram/text), apply a 50% PENALTY. Grade the relevant content fully, then cut the score in HALF. For example: if the relevant answer deserves 5/5 but one image is irrelevant, give 2.5/5. Always explain the deduction in feedback.\n- If the answer partially addresses the topic but is incomplete or inaccurate, give reduced marks \U{2014} NOT zero.\n- Only give 0 if NOTHING in the answer relates to the question at all.\n\nIMPORTANT INSTRUCTIONS:\n1. First, READ and EXTRACT all the text written in "
  const SingleManyPages: string := "these images (the student uploaded multiple pages for one answer)"
  const SingleOnePage: string := "this image"
  const SingleSteps: string :=
    ".\n2. This is the student's answer to the question below.\n3. FIRST check relevance of the content, THEN evaluate the relevant parts.\n\n"
  const SingleSchema: string :=
    "\n\nReturn STRICT JSON only (no markdown, no code blocks):\n{\n  \"extractedText\": \"The full raw text you extracted from the image(s)\",\n  \"isRelevant\": true or false,\n  \"score\": <number>,\n  \"maxMarks\": "
  const SingleOutro: string :=
    ",\n  \"improvements\": [\"suggestion1\", \"suggestion2\"],\n  \"feedback\": \"Detailed feedback \U{2014} note any irrelevant content but grade the relevant parts fairly\"\n}"

  /** The wording for the uploaded pages: plural exactly when more than one
      image was sent. */
  function Pages(count: int, many: string, one: string): (r: string)
    ensures r == many <==> count > 1 || many == one
  {
    if count > 1 then many else one
  }

  /** The three values a full-sheet question block shows:
      `q.modelAnswer || 'Not provided'` and `q.marks || 5` are defaulted. */
  function QuestionFields(q: Json): (f: (string, string, string))
    ensures !Truthy(Prop(q, "modelAnswer")) ==> f.1 == "Not provided"
    ensures Truthy(Prop(q, "modelAnswer")) ==> f.1 == ToText(Prop(q, "modelAnswer"))
    ensures !Truthy(Prop(q, "marks")) ==> f.2 == "5"
  {
    NumberTextInt(5);
    (ToText(Prop(q, "text")),
     ToText(Some(OrTo(Prop(q, "modelAnswer"), Str("Not provided")))),
     ToText(Some(OrTo(Prop(q, "marks"), Num(5.0)))))
  }

  /** The block describing question `i` (0-based) of a full sheet. */
  function QuestionBlock(i: nat, q: Json): string {
    var (text, modelAnswer, marks) := QuestionFields(q);
    "\n      Q" + NatToString(i + 1) + " (ID: " + ToText(Prop(q, "id")) + "):\n      "
    + Line("Question: ", text) + "      " + Line("Model Answer: ", modelAnswer) + "      "
    + Line("Max Marks: ", marks) + "    "
  }

  /** `questions.map(...).join("\n")`. */
  function QuestionsList(qs: seq<Json>): string {
    Join(seq(|qs|, i requires 0 <= i < |qs| => QuestionBlock(i, qs[i])), '\n')
  }

  function FullSheetPrompt(qs: seq<Json>, imageCount: int): string {
    FullSheetIntro + Pages(imageCount, FullSheetManyPages, FullSheetOnePage) + FullSheetSteps
    + QuestionsList(qs) + FullSheetSchema
  }

  const QuestionPlaceholder: string := "Not specified \U{2014} please evaluate the answer in the image."
  const ModelAnswerPlaceholder: string := "Not provided \U{2014} evaluate based on general knowledge."

  /** The question, model answer and maximum marks a single-answer prompt
      shows, with their defaults. */
  function SingleFields(question: Val, modelAnswer: Val, maxMarks: Val): (f: (string, string, string))
    ensures !Truthy(question) ==> f.0 == QuestionPlaceholder
    ensures Truthy(question) ==> f.0 == ToText(question)
    ensures !Truthy(modelAnswer) ==> f.1 == ModelAnswerPlaceholder
    ensures !Truthy(maxMarks) ==> f.2 == "5"
    ensures Truthy(maxMarks) ==> f.2 == ToText(maxMarks)
  {
    NumberTextInt(5);
    (ToText(Some(OrTo(question, Str(QuestionPlaceholder)))),
     ToText(Some(OrTo(modelAnswer, Str(ModelAnswerPlaceholder)))),
     ToText(Some(OrTo(maxMarks, Num(5.0)))))
  }

  /** The single-answer prompt; the maximum mark appears twice. */
  function SinglePrompt(question: Val, modelAnswer: Val, maxMarks: Val, imageCount: int): string {
    SingleIntro + Pages(imageCount, SingleManyPages, SingleOnePage)
    + SingleRest(SingleFields(question, modelAnswer, maxMarks))
  }

  /** The single-answer prompt after the pages wording. */
  function SingleRest(f: (string, string, string)): string {
    var (q, ma, mm) := f;
    SingleSteps + Line("Question: ", q) + Line("Model Answer: ", ma) + "Max Marks: " + mm
    + SingleSchema + mm + SingleOutro
  }

  /** `images || (image ? [{data: image, mimeType: mimeType || 'image/jpeg'}] : [])`. */
  function ImageList(images: Val, image: Val, mimeType: Val): (r: Json)
    ensures Truthy(images) ==> Some(r) == images
    ensures !Truthy(images) && Truthy(image) ==>
      r == Arr([Obj(map["data" := image.value, "mimeType" := OrTo(mimeType, DefaultMime)])])
    ensures !Truthy(images) && !Truthy(image) ==> r == Arr([])
  {
    if Truthy(images) then images.value
    else if Truthy(image) then Arr([Obj(map["data" := image.value, "mimeType" := OrTo(mimeType, DefaultMime)])])
    else Arr([])
  }

  /** One `inlineData` part per image, in order. */
  function ImageParts(imgs: seq<Json>): (ps: seq<Part>)
    ensures |ps| == |imgs|
    ensures forall i :: 0 <= i < |imgs| ==>
      ps[i] == InlinePart(OrTo(Prop(imgs[i], "mimeType"), DefaultMime), Prop(imgs[i], "data"))
  {
    seq(|imgs|, i requires 0 <= i < |imgs| =>
      InlinePart(OrTo(Prop(imgs[i], "mimeType"), DefaultMime), Prop(imgs[i], "data")))
  }

  /** The 500 body for every failure once the service is involved. */
  function FailureBody(message: string): (b: Json)
    ensures b.Obj? && "score" in b.fields && b.fields["score"] == Num(0.0)
    ensures "extractedText" in b.fields && b.fields["extractedText"] == Str("")
    ensures "details" in b.fields && b.fields["details"].Str? && |b.fields["details"].s| > 0
  {
    Obj(map[
      "error" := Str("OCR evaluation failed"),
      "details" := Str(if message == "" then "Unknown error" else message),
      "extractedText" := Str(""),
      "score" := Num(0.0),
      "feedback" := Str("The system could not process the image. Please try again with a clearer photo.")])
  }

  /** Everything inside the `try` once the request is ready: the call, the
      envelope parse, the text clean-up and the final parse. */
  function AfterCall(gateway: FetchResult, parse: Parser): Reply {
    match gateway
    case NetworkError(m) => Send(500, FailureBody(m))
    case Response(status, raw) =>
      if !IsOk(status) then Send(500, FailureBody(raw))
      else
        match parse(raw)
        case Err(m) => Send(500, FailureBody(m))
        case Ok(g) =>
          var text := OrTo(CandidateText(g), Str(""));
          if !text.Str? then Send(500, FailureBody("text.replace is not a function"))
          else
            match parse(CleanOcrText(text.s))
            case Err(m) => Send(500, FailureBody(m))
            case Ok(result) => Send(200, result)
  }

  const KeyNames: set<string> := {"GEMINI_API_KEY", "GEMINI_API", "GEMINI_KEY"}

  /** `GEMINI_API_KEY || GEMINI_API || GEMINI_KEY`. */
  function ResolveKey(env: Env): (k: Val)
    ensures Truthy(k) <==> exists name :: name in KeyNames && name in env && env[name] != ""
    ensures Truthy(k) ==> k.value.Str? && k.value.s != ""
    ensures "GEMINI_API_KEY" in env && env["GEMINI_API_KEY"] != "" ==> k == Some(Str(env["GEMINI_API_KEY"]))
    ensures ("GEMINI_API_KEY" !in env || env["GEMINI_API_KEY"] == "") && "GEMINI_API" in env && env["GEMINI_API"] != ""
      ==> k == Some(Str(env["GEMINI_API"]))
  {
    Or(Or(EnvVar(env, "GEMINI_API_KEY"), EnvVar(env, "GEMINI_API")), EnvVar(env, "GEMINI_KEY"))
  }

  /** Full-sheet mode: `mode === "full-sheet"` and a non-empty array of
      questions. */
  predicate FullSheet(mode: Val, questions: Val) {
    mode == Some(Str("full-sheet")) && IsArray(questions) && |questions.value.items| > 0
  }

  /** How far the handler gets before calling the service: an early reply,
      or the key, body and image list of a request ready to send. */
  datatype Admission = Early(reply: Reply) | Ready(key: string, body: Json, imgs: seq<Json>)

  /** The checks before the call, in the handler's order: method, body
      parse (uncaught), key, destructuring, image list, and the two `map`s
      that throw on a `null` element or a non-array list. */
  function Admit(req: Request, env: Env, parse: Parser): (a: Admission)
    ensures a.Ready? ==> Truthy(ResolveKey(env)) && Some(Str(a.key)) == ResolveKey(env)
    ensures a.Ready? ==> |a.imgs| > 0 && Null !in a.imgs
    ensures a.Ready? ==>
      (a.body != Null &&
       ImageList(Prop(a.body, "images"), Prop(a.body, "image"), Prop(a.body, "mimeType")) == Arr(a.imgs))
  {
    if req.httpMethod == "OPTIONS" then Early(EmptyReply(200))
    else if req.httpMethod != "POST" then Early(Send(405, ErrorBody("Method not allowed")))
    else
      var read: Result<Val> :=
        if req.body.Some? && req.body.value.Str? then
          (match parse(req.body.value.s) case Ok(j) => Ok(Some(j)) case Err(m) => Err(m))
        else Ok(req.body);
      if read.Err? then Early(Crashed)
      else
        var key := ResolveKey(env);
        if !Truthy(key) then Early(Send(500, ErrorBody("Missing API Key in Environment Variables")))
        else if Nullish(read.value) then Early(Crashed)
        else
          var body := read.value.value;
          var list := ImageList(Prop(body, "images"), Prop(body, "image"), Prop(body, "mimeType"));
          if Prop(list, "length") == Some(Num(0.0)) then
            Early(Send(400, ErrorBody("No image provided. Send base64 image data.")))
          else if !list.Arr? then Early(Crashed)
          else
            var questions := Prop(body, "questions");
            if FullSheet(Prop(body, "mode"), questions) && Null in questions.value.items then Early(Crashed)
            else if Null in list.items then Early(Crashed)
            else Ready(key.value.s, body, list.items)
  }

  /** The text prompt for an admitted request: full-sheet or single. */
  function PromptFor(body: Json, imageCount: nat): string {
    var questions := Prop(body, "questions");
    if FullSheet(Prop(body, "mode"), questions) then FullSheetPrompt(questions.value.items, imageCount)
    else SinglePrompt(Prop(body, "question"), Prop(body, "modelAnswer"), Prop(body, "maxMarks"), imageCount)
  }

  /** The `generateContent` call: image parts in order, then the prompt. */
  function BuildCall(key: string, body: Json, imgs: seq<Json>): (c: GeminiCall)
    ensures |c.parts| == |imgs| + 1 && c.parts[..|imgs|] == ImageParts(imgs)
    ensures c.parts[|imgs|] == TextPart(PromptFor(body, |imgs|))
    ensures forall i :: 0 <= i < |imgs| ==> c.parts[i].InlinePart?
    ensures c.config == GenerationConfig(0.2, None, None, None) && c.key == key
  {
    GeminiCall(Endpoint, key, ImageParts(imgs) + [TextPart(PromptFor(body, |imgs|))], Config, [])
  }

  /** The handler. */
  function Handle(req: Request, env: Env, parse: Parser, gateway: FetchResult): (o: Outcome)
    ensures o.call.Some? <==> Admit(req, env, parse).Ready?
  {
    match Admit(req, env, parse)
    case Early(reply) => Outcome(reply, None)
    case Ready(key, body, imgs) => Outcome(AfterCall(gateway, parse), Some(BuildCall(key, body, imgs)))
  }

  /** A CORS preflight is answered 200 with an empty body. */
  lemma PreflightAnswered(req: Request, env: Env, parse: Parser, gateway: FetchResult)
    requires req.httpMethod == "OPTIONS"
    ensures Handle(req, env, parse, gateway) == Outcome(EmptyReply(200), None)
  {
  }

  /** Any method other than OPTIONS and POST is refused with 405. */
  lemma OtherMethodsRefused(req: Request, env: Env, parse: Parser, gateway: FetchResult)
    requires req.httpMethod != "OPTIONS" && req.httpMethod != "POST"
    ensures Handle(req, env, parse, gateway) == Outcome(Send(405, ErrorBody("Method not allowed")), None)
  {
  }

  /** Without any of the three key variables the answer is 500, before the
      body's content is examined and without calling the service. */
  lemma MissingKeyRefused(req: Request, env: Env, parse: Parser, gateway: FetchResult)
    requires req.httpMethod == "POST"
    requires !(req.body.Some? && req.body.value.Str? && parse(req.body.value.s).Err?)
    requires forall name :: name in KeyNames && name in env ==> env[name] == ""
    ensures Handle(req, env, parse, gateway)
         == Outcome(Send(500, ErrorBody("Missing API Key in Environment Variables")), None)
  {
  }

  /** A body with neither `images` nor `image` is refused with 400 and the
      service is not called. */
  lemma NoImageRefused(req: Request, env: Env, parse: Parser, gateway: FetchResult, body: Json)
    requires req.httpMethod == "POST" && req.body == Some(body) && !body.Str? && body != Null
    requires Truthy(ResolveKey(env))
    requires !Truthy(Prop(body, "images")) && !Truthy(Prop(body, "image"))
    ensures Handle(req, env, parse, gateway)
         == Outcome(Send(400, ErrorBody("No image provided. Send base64 image data.")), None)
  {
  }

  /** A lone `image` is sent as one inline part whose MIME type defaults to
      image/jpeg, followed by the prompt. */
  lemma SingleImageWrapped(body: Json, key: string)
    requires !Truthy(Prop(body, "images")) && Truthy(Prop(body, "image"))
    ensures var imgs := ImageList(Prop(body, "images"), Prop(body, "image"), Prop(body, "mimeType")).items;
      var c := BuildCall(key, body, imgs);
      && |c.parts| == 2
      && c.parts[0] == InlinePart(OrTo(Prop(body, "mimeType"), DefaultMime), Prop(body, "image"))
  {
    var img := Obj(map["data" := Prop(body, "image").value, "mimeType" := OrTo(Prop(body, "mimeType"), DefaultMime)]);
    assert Prop(img, "mimeType") == Some(OrTo(Prop(body, "mimeType"), DefaultMime));
    assert Prop(img, "data") == Prop(body, "image");
  }

  /** The mode rule: the full-sheet prompt exactly when `mode` is
      "full-sheet" and `questions` is a non-empty array. */
  lemma ModeSelection(body: Json, n: nat)
    ensures FullSheet(Prop(body, "mode"), Prop(body, "questions")) ==>
      PromptFor(body, n) == FullSheetPrompt(Prop(body, "questions").value.items, n)
    ensures !FullSheet(Prop(body, "mode"), Prop(body, "questions")) ==>
      PromptFor(body, n) == SinglePrompt(Prop(body, "question"), Prop(body, "modelAnswer"), Prop(body, "maxMarks"), n)
  {
  }

  /** The full-sheet wording depends on the image count only through
      whether there is more than one image. */
  lemma FullSheetPagesWording(qs: seq<Json>, n: int, m: int)
    ensures FullSheetPrompt(qs, n) == FullSheetPrompt(qs, m) <==> (n > 1 <==> m > 1)
  {
    if (n > 1) != (m > 1) {
      assert |FullSheetManyPages| != |FullSheetOnePage|;
      assert |FullSheetPrompt(qs, n)| != |FullSheetPrompt(qs, m)|;
    }
  }

  /** The single-answer wording depends on the image count only through
      whether there is more than one image. */
  lemma SinglePagesWording(question: Val, modelAnswer: Val, maxMarks: Val, n: int, m: int)
    ensures SinglePrompt(question, modelAnswer, maxMarks, n) == SinglePrompt(question, modelAnswer, maxMarks, m)
      <==> (n > 1 <==> m > 1)
  {
    if (n > 1) != (m > 1) {
      assert |SingleManyPages| != |SingleOnePage|;
    }
  }

  /** After the call the reply is either 200 with the parsed model JSON
      unchanged (no score is clamped or rewritten), or 500 with the failure
      body. */
  lemma ReplyIsResultOrFailure(gateway: FetchResult, parse: Parser)
    ensures var r := AfterCall(gateway, parse);
      || (exists text: string, result: Json :: parse(CleanOcrText(text)) == Ok(result) && r == Send(200, result))
      || (exists m :: r == Send(500, FailureBody(m)))
    ensures var r := AfterCall(gateway, parse); r.Send? && r.status == 200 <==>
      && gateway.Response? && IsOk(gateway.status) && parse(gateway.text).Ok?
      && OrTo(CandidateText(parse(gateway.text).value), Str("")).Str?
      && parse(CleanOcrText(OrTo(CandidateText(parse(gateway.text).value), Str("")).s)).Ok?
  {
    var r := AfterCall(gateway, parse);
    match gateway
    case NetworkError(m) =>
    case Response(status, raw) =>
      if IsOk(status) && parse(raw).Ok? {
        var text := OrTo(CandidateText(parse(raw).value), Str(""));
        if text.Str? && parse(CleanOcrText(text.s)).Ok? {
          assert r == Send(200, parse(CleanOcrText(text.s)).value);
        }
      }
  }

  /** A model reply whose text parses after cleaning is sent back as it
      came: 200 with exactly the parsed JSON, no field added or clamped. */
  lemma ResultPassedThrough(status: nat, raw: string, parse: Parser, g: Json, text: string, result: Json)
    requires IsOk(status) && parse(raw) == Ok(g) && CandidateText(g) == Some(Str(text)) && |text| > 0
    requires parse(CleanOcrText(text)) == Ok(result)
    ensures AfterCall(Response(status, raw), parse) == Send(200, result)
  {
    assert Truthy(CandidateText(g));
    assert OrTo(CandidateText(g), Str("")) == Str(text);
  }

  /** Each way the `try` block can throw gives 500 with the failure body
      whose details are that error's message: the transport error, the raw
      text of a non-2xx reply, an envelope that is not JSON, and a candidate
      text that is not a string (`text.replace is not a function`).
      `MissingTextIs500` and `UncleanTextIs500` cover model text that is
      not JSON. */
  lemma FailuresAre500(gateway: FetchResult, parse: Parser)
    ensures gateway.NetworkError? ==>
      AfterCall(gateway, parse) == Send(500, FailureBody(gateway.message))
    ensures gateway.Response? && !IsOk(gateway.status) ==>
      AfterCall(gateway, parse) == Send(500, FailureBody(gateway.text))
    ensures gateway.Response? && IsOk(gateway.status) && parse(gateway.text).Err? ==>
      AfterCall(gateway, parse) == Send(500, FailureBody(parse(gateway.text).message))
    ensures (gateway.Response? && IsOk(gateway.status) && parse(gateway.text).Ok?
             && Truthy(CandidateText(parse(gateway.text).value))
             && !CandidateText(parse(gateway.text).value).value.Str?) ==>
      AfterCall(gateway, parse) == Send(500, FailureBody("text.replace is not a function"))
  {
  }

  /** A reply with no candidate text parses `""`, which JSON rejects: 500
      with the parser's message as the details. */
  lemma MissingTextIs500(status: nat, raw: string, parse: Parser, g: Json)
    requires IsOk(status) && parse(raw) == Ok(g) && !Truthy(CandidateText(g))
    requires parse("").Err?
    ensures AfterCall(Response(status, raw), parse) == Send(500, FailureBody(parse("").message))
  {
    assert OrTo(CandidateText(g), Str("")) == Str("");
    assert CleanOcrText("") == "" by {
      assert StripFences("") == "";
    }
  }

  /** Model text that is still not JSON after cleaning gives 500 with the
      parser's message as the details. */
  lemma UncleanTextIs500(status: nat, raw: string, parse: Parser, g: Json, text: string)
    requires IsOk(status) && parse(raw) == Ok(g) && CandidateText(g) == Some(Str(text))
    requires parse(CleanOcrText(text)).Err?
    ensures AfterCall(Response(status, raw), parse) == Send(500, FailureBody(parse(CleanOcrText(text)).message))
  {
    assert OrTo(CandidateText(g), Str("")) == Str(text);
  }

  /** The service is only consulted once the request passed every check. */
  lemma RefusalIgnoresGateway(req: Request, env: Env, parse: Parser, g1: FetchResult, g2: FetchResult)
    requires Handle(req, env, parse, g1).call.None?
    ensures Handle(req, env, parse, g2) == Handle(req, env, parse, g1)
  {
  }
}

=== FILE: ocr_scan.dfy ===
/** The scanner page's controller (`ocr-scan.js`, the `OCRApp` object):
    the chosen mode, the two image slots, the full-sheet question list
    and its counter, collecting the questions, the guards in front of the
    two submissions and the reset for another scan. */
module OcrScan {
  import opened Wrappers
  import opened Strings
  import opened Numbers
  import opened JsValue
  import opened OcrScanCamera
  import opened Seqs

  /** One full-sheet question card: the counter value it was created with
      and its three inputs. */
  datatype QuestionItem = QuestionItem(num: nat, question: string, modelAnswer: string, marks: string)

  /** The state of `OCRApp`, with the question cards currently listed. */
  datatype App = App(
    mode: Option<string>,
    singleImage: Option<ImageData>,
    fullSheetImage: Option<ImageData>,
    counter: nat,
    items: seq<QuestionItem>)

  /** The state the page starts in. */
  const Initial: App := App(None, None, None, 0, [])

  /** Cards carry distinct numbers, none above the counter. */
  predicate WellNumbered(app: App) {
    && (forall i :: 0 <= i < |app.items| ==> 1 <= app.items[i].num <= app.counter)
    && Increasing(app.items)
  }

  /** `selectMode`. */
  function SelectMode(app: App, mode: string): (r: App)
    ensures r.mode == Some(mode)
    ensures r.(mode := app.mode) == app
  {
    app.(mode := Some(mode))
  }

  /** The "back to modes" buttons. */
  function LeaveFlow(app: App): (r: App)
    ensures r.mode.None? && r.(mode := app.mode) == app
  {
    app.(mode := None)
  }

  /** `onImageReady` of either slot (with `None` from `resetUpload`). */
  function SetSingleImage(app: App, img: Option<ImageData>): (r: App)
    ensures r.singleImage == img && r.(singleImage := app.singleImage) == app
  {
    app.(singleImage := img)
  }

  function SetFullSheetImage(app: App, img: Option<ImageData>): (r: App)
    ensures r.fullSheetImage == img && r.(fullSheetImage := app.fullSheetImage) == app
  {
    app.(fullSheetImage := img)
  }

  /** `addQuestion`: the counter goes up by exactly one and a blank card
      with that number (5 marks) is appended. */
  function AddQuestion(app: App): (r: App)
    ensures r.counter == app.counter + 1
    ensures r.items == app.items + [QuestionItem(app.counter + 1, "", "", "5")]
    ensures r.mode == app.mode && r.singleImage == app.singleImage && r.fullSheetImage == app.fullSheetImage
    ensures WellNumbered(app) ==> WellNumbered(r)
  {
    app.(counter := app.counter + 1, items := app.items + [QuestionItem(app.counter + 1, "", "", "5")])
  }

  /** The full-sheet "next" button: a first card is added when none was
      ever added. */
  function FullSheetNext(app: App): (r: App)
    ensures app.counter == 0 ==> r == AddQuestion(app)
    ensures app.counter != 0 ==> r == app
  {
    if app.counter == 0 then AddQuestion(app) else app
  }

  /** `removeQuestion(num)`: the card with that number goes, the others
      stay in order (the fade-out delay is not modelled). */
  function RemoveQuestion(app: App, num: nat): (r: App)
    ensures r.counter == app.counter
    ensures forall it :: it in r.items <==> it in app.items && it.num != num
    ensures |r.items| <= |app.items|
    ensures WellNumbered(app) ==> WellNumbered(r)
  {
    var r := app.(items := Filter(app.items, Keeps(num)));
    assert WellNumbered(app) ==> WellNumbered(r) by {
      if WellNumbered(app) {
        FilterKeepsIncreasing(app.items, num);
        forall i | 0 <= i < |r.items|
          ensures 1 <= r.items[i].num <= app.counter
        {
          assert r.items[i] in app.items;
        }
      }
    }
    r
  }

  /** The cards other than number `num`. */
  function Keeps(num: nat): QuestionItem -> bool {
    (it: QuestionItem) => it.num != num
  }

  /** Card numbers strictly increase along the list. */
  predicate Increasing(items: seq<QuestionItem>) {
    forall i, j :: 0 <= i < j < |items| ==> items[i].num < items[j].num
  }

  /** Dropping a card keeps the remaining numbers increasing. */
  lemma {:induction false} FilterKeepsIncreasing(items: seq<QuestionItem>, num: nat)
    requires Increasing(items)
    ensures Increasing(Filter(items, Keeps(num)))
    decreases |items|
  {
    if |items| > 0 {
      var tail := items[1..];
      FilterKeepsIncreasing(tail, num);
      var rest := Filter(tail, Keeps(num));
      if Keeps(num)(items[0]) {
        HeadBelowRest(items, rest);
        assert Filter(items, Keeps(num)) == [items[0]] + rest;
      } else {
        assert Filter(items, Keeps(num)) == rest;
      }
    }
  }

  lemma HeadBelowRest(items: seq<QuestionItem>, rest: seq<QuestionItem>)
    requires |items| > 0 && Increasing(items) && Increasing(rest)
    requires forall x :: x in rest ==> x in items[1..]
    ensures Increasing([items[0]] + rest)
  {
    var r := [items[0]] + rest;
    forall i, j | 0 <= i < j < |r|
      ensures r[i].num < r[j].num
    {
      if i == 0 {
        assert r[j] in items[1..];
        var m :| 0 <= m < |items| - 1 && items[1..][m] == r[j];
        assert items[m + 1] == r[j];
      } else {
        assert r[i] == rest[i - 1] && r[j] == rest[j - 1];
      }
    }
  }

  // ---------------------------------------------------------------------
  // Collecting the questions

  /** A question as sent for grading. */
  datatype Question = Question(id: string, text: string, modelAnswer: string, marks: int)

  /** `parseInt(x) || 5`. */
  function MarksOr5(x: string): (m: int)
    ensures m != 0
    ensures ParseInt(x).Some? && ParseInt(x).value != 0 ==> m == ParseInt(x).value
  {
    match ParseInt(x)
    case Some(p) => if p != 0 then p else 5
    case None => 5
  }

  /** `"q" + (position + 1)`. */
  function QuestionId(position: nat): string {
    "q" + NatToString(position + 1)
  }

  function QuestionAt(items: seq<QuestionItem>, p: nat): Question
    requires p < |items|
  {
    Question(QuestionId(p), Trim(items[p].question), Trim(items[p].modelAnswer), MarksOr5(items[p].marks))
  }

  /** The positions, among the first `n` cards, of the cards whose
      question text is not blank: increasing, and exactly those. */
  function Filled(items: seq<QuestionItem>, n: nat): (ps: seq<nat>)
    requires n <= |items|
    ensures forall k :: 0 <= k < |ps| ==> ps[k] < n
    ensures forall a, b :: 0 <= a < b < |ps| ==> ps[a] < ps[b]
    ensures forall p: nat :: p in ps <==> p < n && !IsBlank(items[p].question)
    decreases n
  {
    if n == 0 then []
    else
      var prev := Filled(items, n - 1);
      var r := prev + (if IsBlank(items[n - 1].question) then [] else [n - 1]);
      assert forall p: nat :: p in r <==> p in prev || (p == n - 1 && !IsBlank(items[n - 1].question));
      r
  }

  /** `getQuestions`: one question per card with non-blank text, in card
      order, identified by the card's position among all cards (so ids
      increase but skip blank cards), with `parseInt(marks) || 5` marks and
      the trimmed model answer. */
  function GetQuestions(items: seq<QuestionItem>): (qs: seq<Question>)
    ensures var ps := Filled(items, |items|);
      && |qs| == |ps|
      && forall k :: 0 <= k < |qs| ==> ps[k] < |items| && qs[k] == QuestionAt(items, ps[k])
    ensures forall k :: 0 <= k < |qs| ==> qs[k].marks != 0 && qs[k].text != ""
  {
    var ps := Filled(items, |items|);
    forall k | 0 <= k < |ps|
      ensures Trim(items[ps[k]].question) != ""
    {
      TrimEmptyIffBlank(items[ps[k]].question);
    }
    seq(|ps|, k requires 0 <= k < |ps| => QuestionAt(items, ps[k]))
  }

  /** With no blank card, the ids are q1 .. qn in order. */
  lemma {:induction false} FilledAllWhenNoBlank(items: seq<QuestionItem>, n: nat)
    requires n <= |items|
    requires forall i :: 0 <= i < n ==> !IsBlank(items[i].question)
    ensures |Filled(items, n)| == n
    ensures forall k :: 0 <= k < n ==> Filled(items, n)[k] == k
    decreases n
  {
    if n > 0 {
      FilledAllWhenNoBlank(items, n - 1);
    }
  }

  /** A blank card in front shifts the ids: the first question gets id
      "q2". */
  lemma BlankFirstCardSkipsId(items: seq<QuestionItem>)
    requires |items| >= 2 && IsBlank(items[0].question) && !IsBlank(items[1].question)
    ensures |GetQuestions(items)| >= 1 && GetQuestions(items)[0] == QuestionAt(items, 1)
  {
    var ps := Filled(items, |items|);
    assert 1 in ps;
    var k :| 0 <= k < |ps| && ps[k] == 1;
    assert ps[0] in ps;
    assert ps[0] != 0;
    assert ps[0] <= ps[k];
  }

  /** The JSON object a question is sent as. */
  function QuestionJson(q: Question): Json {
    Obj(map["id" := Str(q.id), "text" := Str(q.text), "modelAnswer" := Str(q.modelAnswer),
            "marks" := Num(q.marks as real)])
  }

  // ---------------------------------------------------------------------
  // Submissions

  /** What a submit button does. */
  datatype Submit =
    | Alert(message: string)
    | Call(args: Json)

  /** The argument object `submitSingle` passes as written: the picture
      travels as `image` and `mimeType`, while the client's
      `evaluateSingle` destructures `images`, so no picture reaches the
      request. */
  function SingleArgsAsWritten(img: ImageData, question: string, modelAnswer: string, maxMarks: int): (args: Json)
    ensures args.Obj?
    ensures Prop(args, "image") == OptionStr(img.base64)
    ensures Prop(args, "mimeType") == Some(Str(img.mimeType))
    ensures Prop(args, "question") == Some(Str(question))
    ensures Prop(args, "modelAnswer") == Some(Str(modelAnswer))
    ensures Prop(args, "maxMarks") == Some(Num(maxMarks as real))
    ensures Prop(args, "images") == None
  {
    var entries := [("image", OptionStr(img.base64)), ("mimeType", Some(Str(img.mimeType))),
                    ("question", Some(Str(question))), ("modelAnswer", Some(Str(modelAnswer))),
                    ("maxMarks", Some(Num(maxMarks as real)))];
    ObjOfProp(entries, 0);
    ObjOfProp(entries, 1);
    ObjOfProp(entries, 2);
    ObjOfProp(entries, 3);
    ObjOfProp(entries, 4);
    ObjOf(entries)
  }

  /** The one-element image list the client expects, `[{data, mimeType}]`. */
  function ImagesOf(img: ImageData): (r: Json)
    ensures r.Arr? && |r.items| == 1 && r.items[0].Obj?
    ensures Prop(r.items[0], "data") == OptionStr(img.base64)
    ensures Prop(r.items[0], "mimeType") == Some(Str(img.mimeType))
  {
    var entries := [("data", OptionStr(img.base64)), ("mimeType", Some(Str(img.mimeType)))];
    ObjOfProp(entries, 0);
    ObjOfProp(entries, 1);
    Arr([ObjOf(entries)])
  }

  /** The argument object `submitSingle` evidently means to pass: the
      picture as an `images` list, the form the client forwards. */
  function SingleArgs(img: ImageData, question: string, modelAnswer: string, maxMarks: int): (args: Json)
    ensures args.Obj?
    ensures Prop(args, "images") == Some(ImagesOf(img))
    ensures Prop(args, "question") == Some(Str(question))
    ensures Prop(args, "modelAnswer") == Some(Str(modelAnswer))
    ensures Prop(args, "maxMarks") == Some(Num(maxMarks as real))
  {
    var entries := [("images", Some(ImagesOf(img))), ("question", Some(Str(question))),
                    ("modelAnswer", Some(Str(modelAnswer))), ("maxMarks", Some(Num(maxMarks as real)))];
    ObjOfProp(entries, 0);
    ObjOfProp(entries, 1);
    ObjOfProp(entries, 2);
    ObjOfProp(entries, 3);
    ObjOf(entries)
  }

  /** A possibly undefined text as a value. */
  function OptionStr(s: Option<string>): (v: Val)
    ensures v.Some? <==> s.Some?
    ensures s.Some? ==> v.value == Str(s.value)
  {
    match s
    case Some(t) => Some(Str(t))
    case None => None
  }

  /** `submitSingle` as written: no call without an image or with a blank
      question; otherwise the trimmed question and answer, `parseInt(max)
      || 5`, and the picture under `image`, so that no `images` entry is
      passed on. */
  function SubmitSingle(app: App, question: string, modelAnswer: string, maxMarks: string): (r: Submit)
    ensures app.singleImage.None? ==> r == Alert("Please upload an image first.")
    ensures app.singleImage.Some? && IsBlank(question) ==> r == Alert("Please enter the question.")
    ensures r.Call? <==> app.singleImage.Some? && !IsBlank(question)
    ensures r.Call? ==> Prop(r.args, "maxMarks") == Some(Num(MarksOr5(maxMarks) as real))
    ensures r.Call? ==> Prop(r.args, "question") == Some(Str(Trim(question)))
    ensures r.Call? ==> Prop(r.args, "modelAnswer") == Some(Str(Trim(modelAnswer)))
    ensures r.Call? ==> Prop(r.args, "image") == OptionStr(app.singleImage.value.base64)
    ensures r.Call? ==> Prop(r.args, "images") == None
  {
    TrimEmptyIffBlank(question);
    if app.singleImage.None? then Alert("Please upload an image first.")
    else if Trim(question) == "" then Alert("Please enter the question.")
    else Call(SingleArgsAsWritten(app.singleImage.value, Trim(question), Trim(modelAnswer), MarksOr5(maxMarks)))
  }

  /** `submitSingle` as evidently intended: the same checks and alerts,
      with the picture passed as an `images` list. */
  function SubmitSingleCorrected(app: App, question: string, modelAnswer: string, maxMarks: string): (r: Submit)
    ensures r.Alert? <==> SubmitSingle(app, question, modelAnswer, maxMarks).Alert?
    ensures r.Alert? ==> r == SubmitSingle(app, question, modelAnswer, maxMarks)
    ensures r.Call? ==> Prop(r.args, "images") == Some(ImagesOf(app.singleImage.value))
    ensures r.Call? ==> var w := SubmitSingle(app, question, modelAnswer, maxMarks).args;
      && Prop(r.args, "question") == Prop(w, "question")
      && Prop(r.args, "modelAnswer") == Prop(w, "modelAnswer")
      && Prop(r.args, "maxMarks") == Prop(w, "maxMarks")
  {
    match SubmitSingle(app, question, modelAnswer, maxMarks)
    case Alert(m) => Alert(m)
    case Call(_) => Call(SingleArgs(app.singleImage.value, Trim(question), Trim(modelAnswer), MarksOr5(maxMarks)))
  }

  /** The questions as the JSON list sent for grading. */
  function QuestionsJson(questions: seq<Question>): (r: Json)
    ensures r.Arr? && |r.items| == |questions|
    ensures forall i :: 0 <= i < |questions| ==> r.items[i] == QuestionJson(questions[i])
  {
    Arr(seq(|questions|, i requires 0 <= i < |questions| => QuestionJson(questions[i])))
  }

  /** The argument object `submitFullSheet` passes as written, with the
      same `image` naming. */
  function FullSheetArgsAsWritten(img: ImageData, questions: seq<Question>): (args: Json)
    ensures args.Obj?
    ensures Prop(args, "image") == OptionStr(img.base64)
    ensures Prop(args, "mimeType") == Some(Str(img.mimeType))
    ensures Prop(args, "questions") == Some(QuestionsJson(questions))
    ensures Prop(args, "images") == None
  {
    var entries := [("image", OptionStr(img.base64)), ("mimeType", Some(Str(img.mimeType))),
                    ("questions", Some(QuestionsJson(questions)))];
    ObjOfProp(entries, 0);
    ObjOfProp(entries, 1);
    ObjOfProp(entries, 2);
    ObjOf(entries)
  }

  /** The argument object `submitFullSheet` evidently means to pass. */
  function FullSheetArgs(img: ImageData, questions: seq<Question>): (args: Json)
    ensures args.Obj?
    ensures Prop(args, "images") == Some(ImagesOf(img))
    ensures Prop(args, "questions") == Some(QuestionsJson(questions))
  {
    var entries := [("images", Some(ImagesOf(img))), ("questions", Some(QuestionsJson(questions)))];
    ObjOfProp(entries, 0);
    ObjOfProp(entries, 1);
    ObjOf(entries)
  }

  /** `submitFullSheet` as written: no call without an image or without a
      question with text; otherwise the collected questions, and the
      picture under `image`, so that no `images` entry is passed on. */
  function SubmitFullSheet(app: App): (r: Submit)
    ensures app.fullSheetImage.None? ==> r == Alert("Please upload an answer sheet image first.")
    ensures app.fullSheetImage.Some? && GetQuestions(app.items) == [] ==> r == Alert("Please add at least one question.")
    ensures r.Call? <==> app.fullSheetImage.Some? && exists i :: 0 <= i < |app.items| && !IsBlank(app.items[i].question)
    ensures r.Call? ==> Prop(r.args, "questions") == Some(QuestionsJson(GetQuestions(app.items)))
    ensures r.Call? ==> Prop(r.args, "image") == OptionStr(app.fullSheetImage.value.base64)
    ensures r.Call? ==> Prop(r.args, "images") == None
  {
    var qs := GetQuestions(app.items);
    var ps := Filled(app.items, |app.items|);
    assert |qs| == 0 <==> forall i :: 0 <= i < |app.items| ==> IsBlank(app.items[i].question) by {
      if |ps| > 0 {
        assert ps[0] in ps;
      }
      if exists i :: 0 <= i < |app.items| && !IsBlank(app.items[i].question) {
        var i :| 0 <= i < |app.items| && !IsBlank(app.items[i].question);
        assert i in ps;
      }
    }
    if app.fullSheetImage.None? then Alert("Please upload an answer sheet image first.")
    else if |qs| == 0 then Alert("Please add at least one question.")
    else Call(FullSheetArgsAsWritten(app.fullSheetImage.value, qs))
  }

  /** `submitFullSheet` as evidently intended: the same checks and alerts,
      with the picture passed as an `images` list. */
  function SubmitFullSheetCorrected(app: App): (r: Submit)
    ensures r.Alert? <==> SubmitFullSheet(app).Alert?
    ensures r.Alert? ==> r == SubmitFullSheet(app)
    ensures r.Call? ==> Prop(r.args, "images") == Some(ImagesOf(app.fullSheetImage.value))
    ensures r.Call? ==> Prop(r.args, "questions") == Prop(SubmitFullSheet(app).args, "questions")
  {
    match SubmitFullSheet(app)
    case Alert(m) => Alert(m)
    case Call(_) => Call(FullSheetArgs(app.fullSheetImage.value, GetQuestions(app.items)))
  }

  /** `scanAnother`: everything back to the initial state. */
  function ScanAnother(app: App): (r: App)
    ensures r.singleImage.None? && r.fullSheetImage.None? && r.mode.None?
    ensures r.counter == 0 && r.items == []
  {
    Initial
  }

  /** After a reset, the first "next" of the full-sheet flow starts the
      list again at Q1. */
  lemma ScanAnotherRestartsNumbering(app: App)
    ensures var r := FullSheetNext(ScanAnother(app));
      r.counter == 1 && r.items == [QuestionItem(1, "", "", "5")] && WellNumbered(r)
  {
  }
}

=== FILE: ocr_scan_api.dfy ===
/** The browser-side client of the image evaluation endpoint
    (`ocr-scan-api.js`): builds the request for either mode, returns a
    successful reply unchanged and turns every failure into a zero-score
    result of the mode's shape. */
module OcrScanApi {
  import opened Wrappers
  import opened Seqs
  import opened Numbers
  import opened JsValue
  import opened Http

  /** The body `evaluateSingle` posts: mode "single" and `maxMarks || 5`. */
  function SingleRequest(images: Val, question: Val, modelAnswer: Val, maxMarks: Val): (r: Json)
    ensures r.Obj?
    ensures Prop(r, "mode") == Some(Str("single"))
    ensures Prop(r, "images") == images
    ensures Prop(r, "question") == question && Prop(r, "modelAnswer") == modelAnswer
    ensures Prop(r, "maxMarks") == Some(OrTo(maxMarks, Num(5.0)))
    ensures !Truthy(maxMarks) ==> Prop(r, "maxMarks") == Some(Num(5.0))
    ensures Prop(r, "image").None? && Prop(r, "questions").None?
  {
    var entries := [("mode", Some(Str("single"))), ("images", images), ("question", question),
                    ("modelAnswer", modelAnswer), ("maxMarks", Some(OrTo(maxMarks, Num(5.0))))];
    ObjOfProp(entries, 0);
    ObjOfProp(entries, 1);
    ObjOfProp(entries, 2);
    ObjOfProp(entries, 3);
    ObjOfProp(entries, 4);
    ObjOf(entries)
  }

  /** The body `evaluateFullSheet` posts. */
  function FullSheetRequest(images: Val, questions: Val): (r: Json)
    ensures r.Obj?
    ensures Prop(r, "mode") == Some(Str("full-sheet"))
    ensures Prop(r, "images") == images && Prop(r, "questions") == questions
    ensures Prop(r, "image").None?
  {
    var entries := [("mode", Some(Str("full-sheet"))), ("images", images), ("questions", questions)];
    ObjOfProp(entries, 0);
    ObjOfProp(entries, 1);
    ObjOfProp(entries, 2);
    ObjOf(entries)
  }

  /** How the reply settles before the fallback: the parsed body of a 2xx
      reply, or the message of the error thrown. For a non-2xx reply the
      body is read with `.catch(() => ({}))`, so a body that is not JSON
      reads as an empty object; a `null` body makes `.error` throw. */
  function Settle(fetched: FetchResult, parse: Parser): (r: Result<Json>)
    ensures fetched.Response? && IsOk(fetched.status) ==> r == parse(fetched.text)
  {
    match fetched
    case NetworkError(m) => Err(m)
    case Response(status, text) =>
      if IsOk(status) then parse(text)
      else
        var data := match parse(text) case Ok(d) => d case Err(_) => Obj(map[]);
        if data == Null then Err(NullReadMessage("error"))
        else Err(ToText(Some(OrTo(Prop(data, "error"), Str("Server error: " + NatToString(status))))))
  }

  /** A non-2xx reply fails with the body's `error` when it has a
      non-empty one, otherwise with `Server error: <status>`. */
  lemma ServerErrorMessage(status: nat, text: string, parse: Parser)
    requires !IsOk(status)
    ensures forall e :: (parse(text).Ok? && parse(text).value.Obj?
      && Prop(parse(text).value, "error") == Some(Str(e)) && |e| > 0) ==>
      Settle(Response(status, text), parse) == Err(e)
    ensures (parse(text).Err? || (parse(text).value.Obj? && !Truthy(Prop(parse(text).value, "error")))) ==>
      Settle(Response(status, text), parse) == Err("Server error: " + NatToString(status))
  {
  }

  const FailurePrefix: string := "Evaluation failed: "

  /** The single-mode fallback for an error with message `message`. */
  function SingleFallback(maxMarks: Val, message: string): (r: Json)
    ensures Prop(r, "score") == Some(Num(0.0)) && Prop(r, "extractedText") == Some(Str(""))
    ensures Prop(r, "maxMarks") == Some(OrTo(maxMarks, Num(5.0)))
    ensures Prop(r, "improvements") == Some(Arr([Str(FailurePrefix + message)]))
  {
    Obj(map[
      "extractedText" := Str(""),
      "score" := Num(0.0),
      "maxMarks" := OrTo(maxMarks, Num(5.0)),
      "improvements" := Arr([Str(FailurePrefix + message)]),
      "feedback" := Str("Could not process the image. Please try again with a clearer photo.")])
  }

  /** `OCRAPI.evaluateSingle`: the reply body on success, the fallback on
      any failure; the promise never rejects. */
  function EvaluateSingle(maxMarks: Val, fetched: FetchResult, parse: Parser): (r: Json)
    ensures Settle(fetched, parse).Ok? ==> r == Settle(fetched, parse).value
    ensures Settle(fetched, parse).Err? ==> r == SingleFallback(maxMarks, Settle(fetched, parse).message)
  {
    match Settle(fetched, parse)
    case Ok(result) => result
    case Err(m) => SingleFallback(maxMarks, m)
  }

  /** `q.marks || 5`. */
  function MarksOf(q: Json): Json {
    OrTo(Prop(q, "marks"), Num(5.0))
  }

  /** One full-sheet fallback entry. */
  function FallbackResult(q: Json, message: string): (r: Json)
    ensures r.Obj? && Prop(r, "questionId") == Prop(q, "id")
    ensures Prop(r, "score") == Some(Num(0.0)) && Prop(r, "maxMarks") == Some(MarksOf(q))
  {
    var entries := [("questionId", Prop(q, "id")), ("questionNumber", Some(Num(0.0))),
                    ("extractedAnswer", Some(Str(""))), ("score", Some(Num(0.0))),
                    ("maxMarks", Some(MarksOf(q))),
                    ("improvements", Some(Arr([Str(FailurePrefix + message)]))),
                    ("feedback", Some(Str("Could not process the image.")))];
    ObjOfProp(entries, 0);
    ObjOfProp(entries, 3);
    ObjOfProp(entries, 4);
    ObjOf(entries)
  }

  /** `questions.reduce((sum, q) => sum + (q.marks || 5), 0)`, folding
      from the left with JavaScript `+`. */
  function TotalMaxMarks(questions: seq<Json>): (t: Json)
    ensures t.Num? || t.Str?
    decreases |questions|
  {
    if |questions| == 0 then Num(0.0)
    else Plus(TotalMaxMarks(questions[..|questions| - 1]), MarksOf(questions[|questions| - 1]))
  }

  /** The per-question maxima as numbers, where they are numbers. */
  function MarkValues(questions: seq<Json>): seq<real>
    requires forall i :: 0 <= i < |questions| ==> MarksOf(questions[i]).Num?
  {
    seq(|questions|, i requires 0 <= i < |questions| => MarksOf(questions[i]).n)
  }

  /** When every `marks || 5` is a number, the reduce is their numeric
      sum (a string mark would turn it into concatenation). */
  lemma {:induction false} TotalMaxMarksIsSum(questions: seq<Json>)
    requires forall i :: 0 <= i < |questions| ==> MarksOf(questions[i]).Num?
    ensures TotalMaxMarks(questions) == Num(SumReal(MarkValues(questions)))
    decreases |questions|
  {
    if |questions| > 0 {
      var init := questions[..|questions| - 1];
      TotalMaxMarksIsSum(init);
      assert MarkValues(questions) == MarkValues(init) + [MarksOf(questions[|questions| - 1]).n];
      SumRealAppend(MarkValues(init), [MarksOf(questions[|questions| - 1]).n]);
    }
  }

  /** The full-sheet fallback; `Err` when a `null` question makes the
      `map` throw inside the `catch`, so the promise rejects. */
  function FullSheetFallback(questions: seq<Json>, message: string): (r: Result<Json>)
    ensures r.Ok? <==> forall i :: 0 <= i < |questions| ==> questions[i] != Null
    ensures r.Ok? ==> r.value.Obj? && "results" in r.value.fields && r.value.fields["results"].Arr?
    ensures r.Ok? ==> |r.value.fields["results"].items| == |questions|
    ensures r.Ok? ==> forall i :: 0 <= i < |questions| ==>
      r.value.fields["results"].items[i] == FallbackResult(questions[i], message)
    ensures r.Ok? ==> Prop(r.value, "totalScore") == Some(Num(0.0))
    ensures r.Ok? ==> Prop(r.value, "totalMaxMarks") == Some(TotalMaxMarks(questions))
  {
    if exists i :: 0 <= i < |questions| && questions[i] == Null then Err(NullReadMessage("id"))
    else
      Ok(Obj(map[
        "extractedText" := Str(""),
        "results" := Arr(seq(|questions|, i requires 0 <= i < |questions| => FallbackResult(questions[i], message))),
        "totalScore" := Num(0.0),
        "totalMaxMarks" := TotalMaxMarks(questions),
        "overallFeedback" := Str("Failed to process the answer sheet. Please try again with a clearer photo.")]))
  }

  /** `OCRAPI.evaluateFullSheet`. */
  function EvaluateFullSheet(questions: seq<Json>, fetched: FetchResult, parse: Parser): (r: Result<Json>)
    ensures Settle(fetched, parse).Ok? ==> r == Settle(fetched, parse)
  {
    match Settle(fetched, parse)
    case Ok(result) => Ok(result)
    case Err(m) => FullSheetFallback(questions, m)
  }

  /** A full-sheet failure gives one result per question, in order, with
      that question's id, score 0 and maximum `marks || 5`; the total score
      is 0 and the total maximum is the sum of the per-result maxima. */
  lemma FullSheetFailureShape(questions: seq<Json>, fetched: FetchResult, parse: Parser)
    requires Settle(fetched, parse).Err?
    requires forall i :: 0 <= i < |questions| ==> questions[i] != Null && MarksOf(questions[i]).Num?
    ensures var r := EvaluateFullSheet(questions, fetched, parse);
      && r.Ok? && r.value.Obj?
      && var results := r.value.fields["results"].items;
      && |results| == |questions|
      && (forall i :: 0 <= i < |questions| ==>
            && Prop(results[i], "questionId") == Prop(questions[i], "id")
            && Prop(results[i], "score") == Some(Num(0.0))
            && Prop(results[i], "maxMarks") == Some(MarksOf(questions[i])))
      && Prop(r.value, "totalScore") == Some(Num(0.0))
      && Prop(r.value, "totalMaxMarks") == Some(Num(SumReal(MarkValues(questions))))
  {
    TotalMaxMarksIsSum(questions);
    var m := Settle(fetched, parse).message;
    assert EvaluateFullSheet(questions, fetched, parse) == FullSheetFallback(questions, m);
  }
}

=== FILE: ocr_scan_batch.dfy ===
/** Question batches on the image evaluation page (`ocr-scan-batch.js`):
    the batch dropdowns, the selection rule and the result record saved
    after an evaluation. Storage calls are left out; what is modelled is
    the record that would be written. */
module OcrScanBatch {
  import opened Wrappers
  import opened Seqs
  import opened Numbers
  import opened JsValue

  // ---------------------------------------------------------------------
  // Dropdowns and selection

  /** `batch.questions?.length || 0`. */
  function QuestionCount(batch: Json): Json {
    OrTo(Chain(Prop(batch, "questions"), "length"), Num(0.0))
  }

  /** `batch.totalMarks || 0`. */
  function BatchMarks(batch: Json): Json {
    OrTo(Prop(batch, "totalMarks"), Num(0.0))
  }

  /** The text of one batch option. */
  function OptionLabel(batch: Json): string {
    ToText(Prop(batch, "name")) + " (" + JsonText(QuestionCount(batch)) + " Q, "
    + JsonText(BatchMarks(batch)) + " marks)"
  }

  /** The options of one batch dropdown as (value, text): a single
      placeholder when there are no batches, otherwise a prompt followed
      by one option per batch in order. */
  function DropdownOptions(batches: seq<Json>): (opts: seq<(string, string)>)
    ensures |batches| == 0 ==> opts == [("", "-- No batches available --")]
    ensures |batches| > 0 ==> |opts| == |batches| + 1 && opts[0] == ("", "-- Select a batch --")
    ensures |batches| > 0 ==> forall i :: 0 <= i < |batches| ==>
      opts[i + 1] == (ToText(Prop(batches[i], "id")), OptionLabel(batches[i]))
  {
    if |batches| == 0 then [("", "-- No batches available --")]
    else
      [("", "-- Select a batch --")]
      + seq(|batches|, i requires 0 <= i < |batches| => (ToText(Prop(batches[i], "id")), OptionLabel(batches[i])))
  }

  /** A loaded batch whose own `id` is a string equal to `id`. */
  predicate HasId(batch: map<string, Json>, id: string) {
    "id" in batch && batch["id"] == Str(id)
  }

  /** `batches.find(b => b.id === id)`, as an index. */
  function FindBatch(batches: seq<map<string, Json>>, id: string): Option<nat> {
    FindFirst(batches, b => HasId(b, id))
  }

  /** The selection state: the selected batch and whether the step's
      Continue button is disabled. */
  datatype Selection = Selection(selected: Option<map<string, Json>>, nextDisabled: bool)

  /** `onBatchSelected` with the dropdown's current value. */
  function OnBatchSelected(s: Selection, value: string, batches: seq<map<string, Json>>): (t: Selection)
    ensures value == "" ==> t == Selection(None, true)
    ensures value != "" && FindBatch(batches, value).None? ==> t == s
    ensures value != "" && FindBatch(batches, value).Some? ==>
      !t.nextDisabled && t.selected.Some? && HasId(t.selected.value, value)
  {
    if value == "" then Selection(None, true)
    else
      match FindBatch(batches, value)
      case None => s
      case Some(k) => Selection(Some(batches[k]), false)
  }

  /** The selected batch is the first loaded batch with that id. */
  lemma SelectionIsFirstMatch(s: Selection, value: string, batches: seq<map<string, Json>>, k: nat)
    requires value != "" && k < |batches| && HasId(batches[k], value)
    requires forall j :: 0 <= j < k ==> !HasId(batches[j], value)
    ensures OnBatchSelected(s, value, batches) == Selection(Some(batches[k]), false)
  {
    var r := FindBatch(batches, value);
    assert r.Some?;
  }

  // ---------------------------------------------------------------------
  // Saved result record

  /** The signed-in user. */
  datatype User = User(uid: string, displayName: Val, email: Val)

  /** One saved item. */
  datatype Item = Item(
    questionText: Val,
    extractedAnswer: Json,
    marks: Val,
    earnedMarks: Json,
    feedback: Json,
    improvements: Json)

  /** The record saved to the results collection (`submittedAt` is the
      server timestamp, left out). `percentage` is the text
      `${percentage}%`, "NaN%" when the percentage is NaN. */
  datatype Payload = Payload(
    studentId: string,
    studentName: Json,
    testType: string,
    batchName: Val,
    batchId: Val,
    totalQuestions: Val,
    totalScore: string,
    percentage: string,
    results: seq<Item>)

  /** `a?.score || a?.earnedMarks || 0`. */
  function Earned(a: Val): Json {
    OrTo(Or(Chain(a, "score"), Chain(a, "earnedMarks")), Num(0.0))
  }

  /** The item saved for question `q` and answer `a`. */
  function ItemFor(questionText: Val, marks: Val, a: Val): Item {
    Item(questionText,
         OrTo(Or(Chain(a, "extractedText"), Chain(a, "studentAnswer")), Str("")),
         marks, Earned(a),
         OrTo(Chain(a, "feedback"), Str("")),
         OrTo(Chain(a, "improvements"), Arr([])))
  }

  /** A number the save can divide by: `totalMaxMarks > 0`. */
  predicate IsPositive(j: Json) {
    ToNumber(Some(j)).Some? && ToNumber(Some(j)).value > 0.0
  }

  /** `totalMaxMarks > 0 ? Math.round((totalEarned / totalMaxMarks) * 100) : 0`,
      both totals converted as `>` and `/` convert them; `None` is NaN, which
      only an earned total that is not a number over a positive maximum
      gives. */
  function PercentageOf(earned: Json, max: Json): (p: Option<int>)
    ensures !IsPositive(max) ==> p == Some(0)
    ensures IsPositive(max) && ToNumber(Some(earned)).Some? ==>
      p == Some(Percent(ToNumber(Some(earned)).value, ToNumber(Some(max)).value))
    ensures p.None? <==> IsPositive(max) && ToNumber(Some(earned)).None?
  {
    var m := ToNumber(Some(max));
    if m.Some? && m.value > 0.0 then
      match ToNumber(Some(earned))
      case Some(e) => Some(Percent(e, m.value))
      case None => None
    else Some(0)
  }

  /** Over numbers, the saved percentage is `100 * earned / max` rounded as
      `Math.round` rounds: the integer in the half-open window around it, so
      halves go up and no integer is closer (`Numbers.RoundNearest`); it is
      within 0..100 when earned is within the maximum, and 100 for full
      marks. */
  lemma PercentageIsRounded(e: real, m: real)
    requires m > 0.0
    ensures PercentageOf(Num(e), Num(m)).Some?
    ensures var p := PercentageOf(Num(e), Num(m)).value; var x := e / m * 100.0;
      && x - 0.5 < p as real <= x + 0.5
      && (0.0 <= e <= m ==> 0 <= p <= 100)
      && (e == m ==> p == 100)
  {
  }

  /** Totals that turned into numeric text are converted back: an earned
      total of `"4"` (or the `"04"` that `0 + "4"` makes) saves the same
      percentage as 4, and so does a maximum written as text
      (`StringNumberIntToString`: every integer's text qualifies). */
  lemma TextTotalsConvert(t: string, x: real, other: Json)
    requires StringNumber(t) == Some(x)
    ensures PercentageOf(Str(t), other) == PercentageOf(Num(x), other)
    ensures PercentageOf(other, Str(t)) == PercentageOf(other, Num(x))
  {
    assert ToNumber(Some(Str(t))) == ToNumber(Some(Num(x)));
  }

  /** The text saved for a percentage, `${percentage}%`. */
  function PercentText(p: Option<int>): (t: string)
    ensures p.None? ==> t == "NaN%"
    ensures p.Some? ==> ParseFloat(t) == Some(p.value as real)
  {
    match p
    case None => "NaN%"
    case Some(n) =>
      ParseFloatPercent(n);
      IntToString(n) + "%"
  }

  /** The answers a full-sheet save reads: the results when they are an
      array, else `results?.answers || results?.results || []`. */
  function AnswerList(results: Val): Json {
    if IsArray(results) then results.value
    else OrTo(Or(Chain(results, "answers"), Chain(results, "results")), Arr([]))
  }

  /** `answers[i] || {}`. */
  function AnswerAt(answers: Json, i: nat): Val {
    Some(OrTo(At(answers, i), Obj(map[])))
  }

  /** The full-sheet items: one per batch question, matched to the answer
      at the same position. `None` when a question is `null` (`q.text`
      throws and nothing is saved). */
  function FullItems(questions: seq<Json>, answers: Json): (r: Option<seq<Item>>)
    ensures r.Some? <==> forall i :: 0 <= i < |questions| ==> questions[i] != Null
    ensures r.Some? ==> |r.value| == |questions|
    ensures r.Some? ==> forall i :: 0 <= i < |questions| ==>
      r.value[i] == ItemFor(Prop(questions[i], "text"), Prop(questions[i], "marks"), AnswerAt(answers, i))
  {
    if exists i :: 0 <= i < |questions| && questions[i] == Null then None
    else Some(seq(|questions|, i requires 0 <= i < |questions| =>
      ItemFor(Prop(questions[i], "text"), Prop(questions[i], "marks"), AnswerAt(answers, i))))
  }

  /** `totalEarned += earned` over the items, from 0, with JavaScript `+`. */
  function TotalEarned(items: seq<Item>): (t: Json)
    ensures t.Num? || t.Str?
    decreases |items|
  {
    if |items| == 0 then Num(0.0)
    else Plus(TotalEarned(items[..|items| - 1]), items[|items| - 1].earnedMarks)
  }

  function EarnedValues(items: seq<Item>): seq<real>
    requires forall i :: 0 <= i < |items| ==> items[i].earnedMarks.Num?
  {
    seq(|items|, i requires 0 <= i < |items| => items[i].earnedMarks.n)
  }

  /** With numeric earned marks the running total is their sum. */
  lemma {:induction false} TotalEarnedIsSum(items: seq<Item>)
    requires forall i :: 0 <= i < |items| ==> items[i].earnedMarks.Num?
    ensures TotalEarned(items) == Num(SumReal(EarnedValues(items)))
    decreases |items|
  {
    if |items| > 0 {
      var init := items[..|items| - 1];
      TotalEarnedIsSum(init);
      assert EarnedValues(items) == EarnedValues(init) + [items[|items| - 1].earnedMarks.n];
      SumRealAppend(EarnedValues(init), [items[|items| - 1].earnedMarks.n]);
    }
  }

  /** The earned total, the maximum and the items of a save, or `None`
      when the computation throws (and the `catch` saves nothing). */
  function Totals(mode: Val, batch: Json, results: Val): (r: Option<(Json, Json, seq<Item>)>)
    ensures r.Some? && mode != Some(Str("single")) ==> r.value.1 == BatchMarks(batch)
  {
    if batch == Null then None
    else if mode == Some(Str("single")) then
      if Nullish(results) || Nullish(Prop(batch, "questions")) then None
      else
        var r := Prop(results.value, "0");
        var firstQ := Prop(Prop(batch, "questions").value, "0");
        var marks := OrTo(Chain(firstQ, "marks"), Num(5.0));
        var item := ItemFor(Some(OrTo(Chain(firstQ, "text"), Str(""))), Some(marks), r);
        Some((item.earnedMarks, marks, [item]))
    else
      var questions := Prop(batch, "questions");
      if !IsArray(questions) then None
      else
        match FullItems(questions.value.items, AnswerList(results))
        case None => None
        case Some(items) => Some((TotalEarned(items), BatchMarks(batch), items))
  }

  /** `window.OCRBatchSave`: the record written, or `None` when nothing is
      saved (no signed-in user, or an exception inside the `try`). */
  function BatchSave(user: Option<User>, mode: Val, batch: Val, results: Val): (r: Option<Payload>)
    ensures user.None? ==> r.None?
    ensures r.Some? ==> r.value.testType == "ocr" && r.value.studentId == user.value.uid
  {
    if user.None? || batch.None? then None
    else
      match Totals(mode, batch.value, results)
      case None => None
      case Some((earned, max, items)) =>
        var b := batch.value;
        Some(Payload(
          user.value.uid,
          OrTo(Or(user.value.displayName, user.value.email), Str("Anonymous")),
          "ocr",
          Prop(b, "name"),
          Prop(b, "id"),
          Chain(Prop(b, "questions"), "length"),
          JsonText(earned) + "/" + JsonText(max),
          PercentText(PercentageOf(earned, max)),
          items))
  }

  /** Single mode saves one item for the first question and the first
      result: its maximum is `marks || 5`, its earned mark
      `score || earnedMarks || 0`, and the totals are those two. */
  lemma SingleModeUsesFirst(user: User, batch: Json, results: Json, questions: seq<Json>)
    requires batch.Obj? && "questions" in batch.fields && batch.fields["questions"] == Arr(questions)
    requires |questions| > 0 && results.Arr? && |results.items| > 0
    ensures var r := BatchSave(Some(user), Some(Str("single")), Some(batch), Some(results));
      var first := Some(results.items[0]);
      var max := OrTo(Chain(Some(questions[0]), "marks"), Num(5.0));
      && r.Some? && |r.value.results| == 1
      && r.value.results[0].earnedMarks == Earned(first)
      && r.value.results[0].marks == Some(max)
      && r.value.totalScore == JsonText(Earned(first)) + "/" + JsonText(max)
      && r.value.totalQuestions == Some(Num(|questions| as real))
  {
    AtArray(results.items, 0);
    AtArray(questions, 0);
    assert NatToString(0) == "0";
  }

  /** Full mode saves one item per batch question, the answer matched by
      position; a question with no answer earns 0. The maximum is the
      batch's `totalMarks || 0`, not recomputed from the items. */
  lemma FullModeOneItemPerQuestion(user: User, mode: Val, batch: Json, results: Val, questions: seq<Json>)
    requires mode != Some(Str("single"))
    requires batch.Obj? && "questions" in batch.fields && batch.fields["questions"] == Arr(questions)
    requires forall i :: 0 <= i < |questions| ==> questions[i] != Null
    ensures var r := BatchSave(Some(user), mode, Some(batch), results);
      && r.Some? && |r.value.results| == |questions|
      && r.value.totalQuestions == Some(Num(|questions| as real))
      && (forall i :: 0 <= i < |questions| && !Truthy(At(AnswerList(results), i)) ==>
            r.value.results[i].earnedMarks == Num(0.0))
      && r.value.totalScore == JsonText(TotalEarned(r.value.results)) + "/" + JsonText(BatchMarks(batch))
  {
    FullModeTotals(mode, batch, results, questions);
    var items := FullItems(questions, AnswerList(results)).value;
    SavedFromTotals(user, mode, batch, results);
    var r := BatchSave(Some(user), mode, Some(batch), results);
    assert r.value.results == items;
    UnansweredEarnZero(questions, AnswerList(results));
    assert Prop(batch, "questions") == Some(Arr(questions));
    assert r.value.totalQuestions == Some(Num(|questions| as real));
  }

  /** A question with no answer earns 0. */
  lemma UnansweredEarnZero(questions: seq<Json>, answers: Json)
    requires forall i :: 0 <= i < |questions| ==> questions[i] != Null
    requires FullItems(questions, answers).Some?
    ensures var items := FullItems(questions, answers).value;
      forall i :: 0 <= i < |questions| && !Truthy(At(answers, i)) ==> items[i].earnedMarks == Num(0.0)
  {
    var items := FullItems(questions, answers).value;
    forall i | 0 <= i < |questions| && !Truthy(At(answers, i))
      ensures items[i].earnedMarks == Num(0.0)
    {
      assert AnswerAt(answers, i) == Some(Obj(map[]));
    }
  }

  /** A saved record carries the totals' items and score, and the batch's
      question count. */
  lemma SavedFromTotals(user: User, mode: Val, batch: Json, results: Val)
    requires Totals(mode, batch, results).Some?
    ensures var t := Totals(mode, batch, results).value;
      var r := BatchSave(Some(user), mode, Some(batch), results);
      && r.Some? && r.value.results == t.2
      && r.value.totalScore == JsonText(t.0) + "/" + JsonText(t.1)
      && r.value.totalQuestions == Chain(Prop(batch, "questions"), "length")
  {
  }

  /** In full mode with no `null` question the totals are computed from
      one item per question. */
  lemma FullModeTotals(mode: Val, batch: Json, results: Val, questions: seq<Json>)
    requires mode != Some(Str("single"))
    requires batch.Obj? && "questions" in batch.fields && batch.fields["questions"] == Arr(questions)
    requires forall i :: 0 <= i < |questions| ==> questions[i] != Null
    ensures FullItems(questions, AnswerList(results)).Some?
    ensures var items := FullItems(questions, AnswerList(results)).value;
      Totals(mode, batch, results) == Some((TotalEarned(items), BatchMarks(batch), items))
  {
    assert Prop(batch, "questions") == Some(Arr(questions));
  }

  /** In full mode with numeric earned marks, the saved score is the sum
      of the items' earned marks over the batch's stated total. */
  lemma FullModeTotalIsSum(user: User, mode: Val, batch: Json, results: Val)
    requires BatchSave(Some(user), mode, Some(batch), results).Some?
    requires mode != Some(Str("single"))
    requires var items := BatchSave(Some(user), mode, Some(batch), results).value.results;
      forall i :: 0 <= i < |items| ==> items[i].earnedMarks.Num?
    ensures var p := BatchSave(Some(user), mode, Some(batch), results).value;
      p.totalScore == JsonText(Num(SumReal(EarnedValues(p.results)))) + "/" + JsonText(BatchMarks(batch))
  {
    var t := Totals(mode, batch, results).value;
    TotalEarnedIsSum(t.2);
  }
}

=== FILE: ocr_scan_camera.dfy ===
/** The image intake of the scanner (`ocr-scan-camera.js`): capping the
    picture's dimensions, the JPEG quality loop that keeps the data URL
    under the size budget, extracting the base64 payload, and the upload
    slot's state. Decoding and encoding the picture are outside the
    model: the encoder is a parameter from a quality (in hundredths) to
    the data URL it produces. */
module OcrScanCamera {
  import opened Wrappers
  import opened Strings
  import opened Numbers

  const MaxDimension: nat := 2048
  const MaxImageSize: nat := 3 * 1024 * 1024

  /** `MAX_IMAGE_SIZE * 1.37`, the data-URL length budget. */
  const Budget: real := MaxImageSize as real * 1.37

  // ---------------------------------------------------------------------
  // Dimensions

  /** `Math.min(MAX / width, MAX / height)`, where a zero side divides to
      Infinity and so never wins. */
  function Ratio(width: nat, height: nat): (r: real)
    requires width > MaxDimension || height > MaxDimension
    ensures r > 0.0
    ensures width > 0 ==> width as real * r <= MaxDimension as real
    ensures height > 0 ==> height as real * r <= MaxDimension as real
    ensures width as real * r == MaxDimension as real || height as real * r == MaxDimension as real
  {
    var m := MaxDimension as real;
    if width == 0 then m / height as real
    else if height == 0 then m / width as real
    else if m / width as real <= m / height as real then
      assert width >= height by { ScaleOrder(width, height); }
      assert height as real * (m / width as real) <= m by { BoundByRatio(height, width); }
      m / width as real
    else
      assert height >= width by { ScaleOrder(height, width); }
      assert width as real * (m / height as real) <= m by { BoundByRatio(width, height); }
      m / height as real
  }

  lemma ScaleOrder(a: nat, b: nat)
    requires a > 0 && b > 0 && 2048.0 / a as real <= 2048.0 / b as real
    ensures a >= b
  {
    var x := 2048.0 / a as real;
    var y := 2048.0 / b as real;
    var ab := a as real * b as real;
    assert ab > 0.0;
    assert x * ab <= y * ab;
    assert x * ab == 2048.0 * b as real;
    assert y * ab == 2048.0 * a as real;
  }

  lemma BoundByRatio(small: nat, big: nat)
    requires 0 < small <= big
    ensures small as real * (2048.0 / big as real) <= 2048.0
  {
    var r := 2048.0 / big as real;
    assert big as real * r == 2048.0;
    assert small as real * r <= big as real * r;
  }

  /** The canvas size `compressImage` draws at: unchanged when both sides
      are within 2048, otherwise scaled by the ratio and rounded, which
      brings both sides within 2048 and the limiting side to exactly
      2048. */
  function ScaledSize(width: nat, height: nat): (size: (int, int))
    ensures width <= MaxDimension && height <= MaxDimension ==> size == (width, height)
    ensures 0 <= size.0 <= MaxDimension || (width <= MaxDimension && height <= MaxDimension)
    ensures 0 <= size.1 <= MaxDimension || (width <= MaxDimension && height <= MaxDimension)
    ensures width > MaxDimension || height > MaxDimension ==>
      size.0 <= MaxDimension && size.1 <= MaxDimension && (size.0 == MaxDimension || size.1 == MaxDimension)
  {
    if width > MaxDimension || height > MaxDimension then
      var r := Ratio(width, height);
      (Round(width as real * r), Round(height as real * r))
    else (width, height)
  }

  // ---------------------------------------------------------------------
  // Quality loop

  /** Whether a data URL is over the budget. */
  predicate TooLarge(dataUrl: string) {
    |dataUrl| as real > Budget
  }

  /** The quality after `k` reductions, in hundredths. */
  function QualityAfter(k: nat): int {
    85 - 10 * k
  }

  /** The quality loop of `compressImage`: start at 0.85 and go down by
      0.1 while the data URL is too large and the quality is above 0.3.
      On exit the data URL fits or the quality is at most 0.3; every
      quality tried before the final one was too large; there are at most
      six reductions, so the quality never drops below 0.25. */
  method CompressQuality(encode: int -> string) returns (quality: int, dataUrl: string, steps: nat)
    ensures quality == QualityAfter(steps) && dataUrl == encode(quality)
    ensures steps <= 6 && quality >= 25
    ensures !TooLarge(dataUrl) || quality <= 30
    ensures forall k :: 0 <= k < steps ==> TooLarge(encode(QualityAfter(k))) && QualityAfter(k) > 30
  {
    quality := 85;
    dataUrl := encode(quality);
    steps := 0;
    while TooLarge(dataUrl) && quality > 30
      invariant quality == QualityAfter(steps) && dataUrl == encode(quality)
      invariant steps <= 6
      invariant forall k :: 0 <= k < steps ==> TooLarge(encode(QualityAfter(k))) && QualityAfter(k) > 30
      decreases quality
    {
      quality := quality - 10;
      dataUrl := encode(quality);
      steps := steps + 1;
    }
  }

  // ---------------------------------------------------------------------
  // Result

  /** `dataUrl.split(',')[1]`: `None` (undefined) when there is no comma. */
  function Base64Of(dataUrl: string): (r: Option<string>)
    ensures ',' !in dataUrl ==> r.None?
    ensures r.Some? ==> ',' !in r.value
  {
    var parts := Split(dataUrl, ',');
    if ',' !in dataUrl then
      SplitNoSeparator(dataUrl, ',');
      None
    else if |parts| >= 2 then Some(parts[1])
    else None
  }

  /** A data URL with a comma-free header yields the text between the
      first and the second comma. */
  lemma Base64OfDataUrl(header: string, payload: string)
    requires ',' !in header && ',' !in payload
    ensures Base64Of(header + "," + payload) == Some(payload)
  {
    assert header + "," + payload == header + [','] + payload;
    SplitAt(header, payload, ',');
    SplitNoSeparator(payload, ',');
    assert Split(header + "," + payload, ',') == [header, payload];
  }

  /** The image data handed to the page. */
  datatype ImageData = ImageData(base64: Option<string>, mimeType: string, dataUrl: string)

  /** What `compressImage` resolves with, once the encoder's output is
      known: always JPEG. */
  method CompressImage(width: nat, height: nat, encode: int -> string) returns (img: ImageData, size: (int, int), quality: int)
    ensures img.mimeType == "image/jpeg"
    ensures size == ScaledSize(width, height)
    ensures img.dataUrl == encode(quality) && img.base64 == Base64Of(img.dataUrl)
    ensures 25 <= quality <= 85
  {
    size := ScaledSize(width, height);
    var dataUrl, steps;
    quality, dataUrl, steps := CompressQuality(encode);
    img := ImageData(Base64Of(dataUrl), "image/jpeg", dataUrl);
  }

  // ---------------------------------------------------------------------
  // Upload slot

  /** What an upload slot shows and holds. */
  datatype Upload = Upload(previewShown: bool, nextDisabled: bool, image: Option<ImageData>)

  /** `processFile` after a successful compression. */
  function ImageReady(u: Upload, img: ImageData): (r: Upload)
    ensures r.previewShown && !r.nextDisabled && r.image == Some(img)
  {
    Upload(true, false, Some(img))
  }

  /** `resetUpload`. */
  function ResetUpload(u: Upload): (r: Upload)
    ensures !r.previewShown && r.nextDisabled && r.image.None?
  {
    Upload(false, true, None)
  }

  /** What happens to a slot: a picture is ready, or the user changes it. */
  datatype SlotEvent = Picked(img: ImageData) | Cleared

  function Apply(u: Upload, e: SlotEvent): Upload {
    match e
    case Picked(img) => ImageReady(u, img)
    case Cleared => ResetUpload(u)
  }

  /** The slot after a run of events, oldest first. */
  function Replay(u: Upload, es: seq<SlotEvent>): Upload
    decreases |es|
  {
    if |es| == 0 then u else Replay(Apply(u, es[0]), es[1..])
  }

  /** The preview and the next button agree with the picture held. */
  predicate Consistent(u: Upload) {
    u.previewShown == u.image.Some? && u.nextDisabled == u.image.None?
  }

  /** After any run of events the slot stays consistent, and it holds the
      picture of the last event when that was a pick, and none when the
      last event cleared it: the next step is unlocked exactly while a
      picture is held. */
  lemma {:induction false} ReplayKeepsLastPick(u: Upload, es: seq<SlotEvent>)
    requires Consistent(u)
    ensures Consistent(Replay(u, es))
    ensures |es| == 0 ==> Replay(u, es) == u
    ensures |es| > 0 && es[|es| - 1].Picked? ==> Replay(u, es).image == Some(es[|es| - 1].img)
    ensures |es| > 0 && es[|es| - 1].Cleared? ==> Replay(u, es).image.None?
    decreases |es|
  {
    if |es| > 0 {
      ReplayKeepsLastPick(Apply(u, es[0]), es[1..]);
      if |es| > 1 {
        assert es[1..][|es[1..]| - 1] == es[|es| - 1];
      }
    }
  }
}

=== FILE: ocr_scan_ui.dfy ===
/** The scanner's result rendering (`ocr-scan-ui.js`, the `OCRUI` object),
    reduced to what it computes: the percentages shown for a single
    answer, a full sheet and each of its questions, the score class and
    emoji for a percentage, the step indicator and the escaping of
    model-provided text. The HTML layout is not modelled. */
module OcrScanUi {
  import opened Wrappers
  import opened Strings
  import opened Numbers
  import opened JsValue

  // ---------------------------------------------------------------------
  // Percentages

  /** A number the page can use: not NaN, and positive when `positive`. */
  predicate IsNumber(v: Val) {
    ToNumber(v).Some?
  }

  predicate IsPositive(v: Val) {
    ToNumber(v).Some? && ToNumber(v).value > 0.0
  }

  /** `Math.round(x / d * 100)` as a finite value: `None` when either
      operand is NaN, and also when `d` is 0 (JavaScript's NaN or
      infinite quotient, see README). */
  function Scaled(x: Option<real>, d: Option<real>): (p: Option<int>)
    ensures p.Some? <==> x.Some? && d.Some? && d.value != 0.0
    ensures p.Some? && d.value > 0.0 ==> p.value == Percent(x.value, d.value)
  {
    if x.Some? && d.Some? && d.value != 0.0 then Some(Round(x.value / d.value * 100.0)) else None
  }

  /** The single-answer percentage, `Math.round(score / (maxMarks || 5) * 100)`:
      a falsy `maxMarks` divides by 5, a positive one gives the rounded
      share, a score within the marks gives 0..100 and full marks 100; a
      score that is not a number gives NaN. */
  function SinglePercentage(score: Val, maxMarks: Val): (p: Option<int>)
    ensures !Truthy(maxMarks) && IsNumber(score) ==>
      p == Some(Percent(ToNumber(score).value, 5.0))
    ensures Truthy(maxMarks) && IsPositive(maxMarks) && IsNumber(score) ==>
      p == Some(Percent(ToNumber(score).value, ToNumber(maxMarks).value))
    ensures (IsPositive(maxMarks) && IsNumber(score)
             && 0.0 <= ToNumber(score).value <= ToNumber(maxMarks).value) ==> p.Some? && 0 <= p.value <= 100
    ensures !IsNumber(score) ==> p.None?
  {
    var d := ToNumber(Some(OrTo(maxMarks, Num(5.0))));
    PositiveIsTruthy(maxMarks);
    assert Truthy(maxMarks) ==> d == ToNumber(maxMarks);
    assert !Truthy(maxMarks) ==> d == Some(5.0);
    Scaled(ToNumber(score), d)
  }

  /** A value that converts to a positive number is truthy. */
  lemma PositiveIsTruthy(v: Val)
    ensures IsPositive(v) ==> Truthy(v)
  {
    if v.Some? && v.value.Str? && v.value.s == "" {
      assert IsBlank(v.value.s);
    }
  }

  /** The full-sheet percentage: `totalScore || 0` over `totalMaxMarks || 0`,
      or 0 unless the total is positive. With a positive total, a truthy
      score that is not a number shows as NaN. */
  function SheetPercentage(totalScore: Val, totalMax: Val): (p: Option<int>)
    ensures !IsPositive(totalMax) ==> p == Some(0)
    ensures IsPositive(totalMax) && !Truthy(totalScore) ==> p == Some(0)
    ensures IsPositive(totalMax) && Truthy(totalScore) && IsNumber(totalScore) ==>
      p == Some(Percent(ToNumber(totalScore).value, ToNumber(totalMax).value))
    ensures p.None? <==> IsPositive(totalMax) && Truthy(totalScore) && !IsNumber(totalScore)
    ensures (IsPositive(totalMax) && IsNumber(totalScore)
             && 0.0 <= ToNumber(totalScore).value <= ToNumber(totalMax).value) ==> p.Some? && 0 <= p.value <= 100
  {
    var score := ToNumber(Some(OrTo(totalScore, Num(0.0))));
    var whole := ToNumber(Some(OrTo(totalMax, Num(0.0))));
    assert !Truthy(totalScore) ==> score == Some(0.0) by {
      if !Truthy(totalScore) && totalScore.Some? && totalScore.value.Num? {
        assert totalScore.value.n == 0.0;
      }
    }
    if whole.Some? && whole.value > 0.0 then Scaled(score, whole) else Some(0)
  }

  /** A question's percentage: `maxMarks > 0 ? Math.round(score / maxMarks * 100) : 0`,
      so 0 whenever the marks are not positive. */
  function QuestionPercentage(score: Val, maxMarks: Val): (p: Option<int>)
    ensures !IsPositive(maxMarks) ==> p == Some(0)
    ensures IsPositive(maxMarks) && IsNumber(score) ==>
      p == Some(Percent(ToNumber(score).value, ToNumber(maxMarks).value))
    ensures IsPositive(maxMarks) && !IsNumber(score) ==> p.None?
  {
    var whole := ToNumber(maxMarks);
    if whole.Some? && whole.value > 0.0 then Scaled(ToNumber(score), whole) else Some(0)
  }

  /** A score given as text that reads as a number is shown as that number
      would be, on either results page (`StringNumberIntToString`: every
      integer's text qualifies). */
  lemma TextScoresConvert(t: string, n: real, m: real)
    requires m > 0.0 && StringNumber(t) == Some(n)
    ensures SinglePercentage(Some(Str(t)), Some(Num(m))) == SinglePercentage(Some(Num(n)), Some(Num(m)))
    ensures SheetPercentage(Some(Str(t)), Some(Num(m))) == SheetPercentage(Some(Num(n)), Some(Num(m)))
  {
    SingleTextScore(t, n, m);
    SheetTextScore(t, n, m);
  }

  lemma SingleTextScore(t: string, n: real, m: real)
    requires m > 0.0 && StringNumber(t) == Some(n)
    ensures SinglePercentage(Some(Str(t)), Some(Num(m))) == Some(Percent(n, m))
    ensures SinglePercentage(Some(Num(n)), Some(Num(m))) == Some(Percent(n, m))
  {
  }

  lemma SheetTextScore(t: string, n: real, m: real)
    requires m > 0.0 && StringNumber(t) == Some(n)
    ensures SheetPercentage(Some(Str(t)), Some(Num(m))) == Some(Percent(n, m))
    ensures SheetPercentage(Some(Num(n)), Some(Num(m))) == Some(Percent(n, m))
  {
    if n != 0.0 {
      assert |t| > 0;
    }
    SheetShows(Some(Str(t)), Some(Num(m)), Some(Percent(n, m)));
    SheetNumber(n, m);
  }

  lemma SheetNumber(n: real, m: real)
    requires m > 0.0
    ensures SheetPercentage(Some(Num(n)), Some(Num(m))) == Some(Percent(n, m))
  {
    SheetShows(Some(Num(n)), Some(Num(m)), Some(Percent(n, m)));
  }

  /** The sheet percentage of a numeric score over a positive total. */
  lemma SheetShows(score: Val, total: Val, p: Option<int>)
    requires IsPositive(total) && IsNumber(score)
    requires p == Some(Percent(ToNumber(score).value, ToNumber(total).value))
    requires ToNumber(score).value == 0.0 || Truthy(score)
    ensures SheetPercentage(score, total) == p
  {
    if !Truthy(score) {
      assert Percent(0.0, ToNumber(total).value) == 0;
    }
  }

  // ---------------------------------------------------------------------
  // Score class and emoji

  datatype ScoreClass = Poor | Average | Good | Excellent {
    /** The class's position from worst to best. */
    function Rank(): (n: nat)
      ensures n <= 3
    {
      match this
      case Poor => 0
      case Average => 1
      case Good => 2
      case Excellent => 3
    }
  }

  /** `getScoreClass`: excellent from 80, good from 60, average from 40,
      poor below that and for NaN. */
  function ClassOf(p: Option<int>): (c: ScoreClass)
    ensures c == Excellent <==> p.Some? && p.value >= 80
    ensures c == Good <==> p.Some? && 60 <= p.value < 80
    ensures c == Average <==> p.Some? && 40 <= p.value < 60
    ensures c == Poor <==> p.None? || p.value < 40
  {
    match p
    case None => Poor
    case Some(x) =>
      if x >= 80 then Excellent else if x >= 60 then Good else if x >= 40 then Average else Poor
  }

  /** A higher percentage never gets a worse class. */
  lemma ClassMonotone(p: int, q: int)
    requires p <= q
    ensures ClassOf(Some(p)).Rank() <= ClassOf(Some(q)).Rank()
  {
  }

  datatype Emoji = Muscle | Memo | ThumbsUp | Star | Trophy

  /** `getScoreEmoji`: thresholds 90, 80, 60 and 40. */
  function EmojiOf(p: Option<int>): (e: Emoji)
    ensures e == Trophy <==> p.Some? && p.value >= 90
    ensures e == Star <==> p.Some? && 80 <= p.value < 90
    ensures e == ThumbsUp <==> p.Some? && 60 <= p.value < 80
    ensures e == Memo <==> p.Some? && 40 <= p.value < 60
    ensures e == Muscle <==> p.None? || p.value < 40
  {
    match p
    case None => Muscle
    case Some(x) =>
      if x >= 90 then Trophy else if x >= 80 then Star else if x >= 60 then ThumbsUp
      else if x >= 40 then Memo else Muscle
  }

  /** The emoji agrees with the class: the two top emojis are the
      excellent class, and each lower band matches one class. */
  lemma EmojiAgreesWithClass(p: Option<int>)
    ensures EmojiOf(p) in {Trophy, Star} <==> ClassOf(p) == Excellent
    ensures EmojiOf(p) == ThumbsUp <==> ClassOf(p) == Good
    ensures EmojiOf(p) == Memo <==> ClassOf(p) == Average
    ensures EmojiOf(p) == Muscle <==> ClassOf(p) == Poor
  {
  }

  // ---------------------------------------------------------------------
  // Steps

  /** The classes a step indicator carries after `updateSteps`. */
  datatype StepMark = StepMark(active: bool, completed: bool)

  /** `updateSteps`: each indicator's `parseInt(data-step)` (`None` for
      NaN) is compared with the active step; a NaN step is neither. */
  function UpdateSteps(steps: seq<Option<int>>, activeStep: int): (marks: seq<StepMark>)
    ensures |marks| == |steps|
    ensures forall i :: 0 <= i < |steps| ==>
      (marks[i].active <==> steps[i] == Some(activeStep))
    ensures forall i :: 0 <= i < |steps| ==>
      (marks[i].completed <==> steps[i].Some? && steps[i].value < activeStep)
    ensures forall i :: 0 <= i < |steps| ==> !(marks[i].active && marks[i].completed)
  {
    seq(|steps|, i requires 0 <= i < |steps| =>
      StepMark(steps[i] == Some(activeStep), steps[i].Some? && steps[i].value < activeStep))
  }

  /** Moving on to a later step keeps every completed step completed and
      completes the one that was active. */
  lemma StepsProgress(steps: seq<Option<int>>, a: int, b: int)
    requires a < b
    ensures forall i :: 0 <= i < |steps| && UpdateSteps(steps, a)[i].completed ==> UpdateSteps(steps, b)[i].completed
    ensures forall i :: 0 <= i < |steps| && UpdateSteps(steps, a)[i].active ==> UpdateSteps(steps, b)[i].completed
  {
  }
}

=== FILE: seqs.dfy ===
/** Sequence helpers: filtering, counting and summing, with the facts the
    rest of the model relies on. */
module Seqs {
  import opened Wrappers

  /** `Array.prototype.filter`: the elements of `s` that satisfy `p`, in order. */
  function Filter<T>(s: seq<T>, p: T -> bool): (r: seq<T>)
    ensures |r| <= |s|
    ensures forall x :: x in r ==> x in s && p(x)
    ensures forall x :: x in s && p(x) ==> x in r
    decreases |s|
  {
    if |s| == 0 then []
    else if p(s[0]) then [s[0]] + Filter(s[1..], p)
    else Filter(s[1..], p)
  }

  /** `t` is obtained from `s` by deleting elements (order kept). */
  ghost predicate IsSubsequence<T>(t: seq<T>, s: seq<T>)
    decreases |s|
  {
    if |t| == 0 then true
    else if |s| == 0 then false
    else if t[0] == s[0] then IsSubsequence(t[1..], s[1..])
    else IsSubsequence(t, s[1..])
  }

  lemma {:induction false} FilterIsSubsequence<T>(s: seq<T>, p: T -> bool)
    ensures IsSubsequence(Filter(s, p), s)
    decreases |s|
  {
    if |s| == 0 {
    } else {
      FilterIsSubsequence(s[1..], p);
      if p(s[0]) {
        assert Filter(s, p) == [s[0]] + Filter(s[1..], p);
        assert Filter(s, p)[1..] == Filter(s[1..], p);
      } else {
        SubsequenceDropHead(Filter(s, p), s);
      }
    }
  }

  /** Helper: a subsequence of the tail is a subsequence of the whole. */
  lemma {:induction false} SubsequenceDropHead<T>(t: seq<T>, s: seq<T>)
    requires |s| > 0 && IsSubsequence(t, s[1..])
    ensures IsSubsequence(t, s)
    decreases |s|, 1
  {
    if |t| == 0 {
    } else if t[0] == s[0] {
      // IsSubsequence(t, s[1..]) with t nonempty: t[1..] fits into s[1..] as well
      SubsequenceTail(t, s[1..]);
    } else {
    }
  }

  /** Helper: dropping the head of a subsequence keeps it a subsequence. */
  lemma {:induction false} SubsequenceTail<T>(t: seq<T>, s: seq<T>)
    requires |t| > 0 && IsSubsequence(t, s)
    ensures IsSubsequence(t[1..], s)
    decreases |s| + 1, 0
  {
    if |s| == 0 {
    } else if t[0] == s[0] {
      if |t[1..]| > 0 {
        SubsequenceDropHead(t[1..], s);
      }
    } else {
      SubsequenceTail(t, s[1..]);
      if |t[1..]| > 0 {
        SubsequenceDropHead(t[1..], s);
      }
    }
  }

  /** Number of elements of `s` that satisfy `p`. */
  function Count<T>(s: seq<T>, p: T -> bool): (n: nat)
    ensures n <= |s|
    decreases |s|
  {
    if |s| == 0 then 0
    else (if p(s[0]) then 1 else 0) + Count(s[1..], p)
  }

  lemma {:induction false} CountIsFilterLength<T>(s: seq<T>, p: T -> bool)
    ensures Count(s, p) == |Filter(s, p)|
    decreases |s|
  {
    if |s| > 0 {
      CountIsFilterLength(s[1..], p);
    }
  }

  /** Elements satisfying `p` and elements failing it together make up `s`. */
  lemma {:induction false} CountComplement<T>(s: seq<T>, p: T -> bool, q: T -> bool)
    requires forall x :: q(x) == !p(x)
    ensures Count(s, p) + Count(s, q) == |s|
    decreases |s|
  {
    if |s| > 0 {
      CountComplement(s[1..], p, q);
    }
  }

  /** Sum of the integers in `s`. */
  function Sum(s: seq<int>): int
    decreases |s|
  {
    if |s| == 0 then 0 else s[0] + Sum(s[1..])
  }

  /** Sum of the reals in `s`. */
  function SumReal(s: seq<real>): real
    decreases |s|
  {
    if |s| == 0 then 0.0 else s[0] + SumReal(s[1..])
  }

  lemma {:induction false} SumAppend(a: seq<int>, b: seq<int>)
    ensures Sum(a + b) == Sum(a) + Sum(b)
    decreases |a|
  {
    if |a| == 0 {
      assert a + b == b;
    } else {
      assert (a + b)[1..] == a[1..] + b;
      SumAppend(a[1..], b);
    }
  }

  lemma {:induction false} SumRealAppend(a: seq<real>, b: seq<real>)
    ensures SumReal(a + b) == SumReal(a) + SumReal(b)
    decreases |a|
  {
    if |a| == 0 {
      assert a + b == b;
    } else {
      assert (a + b)[1..] == a[1..] + b;
      SumRealAppend(a[1..], b);
    }
  }

  /** `Array.prototype.find` / `findIndex`: the position of the first
      element that satisfies `p`. */
  function FindFirst<T>(s: seq<T>, p: T -> bool): (r: Option<nat>)
    ensures r.Some? ==> r.value < |s| && p(s[r.value])
    ensures r.Some? ==> forall j :: 0 <= j < r.value ==> !p(s[j])
    ensures r.None? ==> forall j :: 0 <= j < |s| ==> !p(s[j])
    decreases |s|
  {
    if |s| == 0 then None
    else if p(s[0]) then Some(0)
    else
      match FindFirst(s[1..], p)
      case None => None
      case Some(k) => Some(k + 1)
  }
}

=== FILE: strings.dfy ===
/** JavaScript string operations used throughout the application, over
    `string` (= `seq<char>`). Case mapping covers ASCII letters only. */
module Strings {

  /** The characters `String.prototype.trim` and the regular-expression
      class `\s` treat as white space (WhiteSpace and LineTerminator of
      ECMAScript). */
  predicate IsSpace(c: char) {
    || c == ' ' || c == '\t' || c == '\n' || c == '\r' || c == '\U{B}' || c == '\U{C}'
    || c == '\U{A0}' || c == '\U{1680}' || ('\U{2000}' <= c <= '\U{200A}')
    || c == '\U{2028}' || c == '\U{2029}' || c == '\U{202F}' || c == '\U{205F}'
    || c == '\U{3000}' || c == '\U{FEFF}'
  }

  /** Every character of `s` is white space (true of the empty string). */
  predicate IsBlank(s: string) {
    forall i :: 0 <= i < |s| ==> IsSpace(s[i])
  }

  /** `trimStart`: drops the longest all-white-space prefix. */
  function TrimStart(s: string): (r: string)
    ensures |r| <= |s| && r == s[|s| - |r|..]
    ensures forall i :: 0 <= i < |s| - |r| ==> IsSpace(s[i])
    ensures |r| > 0 ==> !IsSpace(r[0])
    decreases |s|
  {
    if |s| > 0 && IsSpace(s[0]) then TrimStart(s[1..]) else s
  }

  /** `trimEnd`: drops the longest all-white-space suffix. */
  function TrimEnd(s: string): (r: string)
    ensures |r| <= |s| && r == s[..|r|]
    ensures forall i :: |r| <= i < |s| ==> IsSpace(s[i])
    ensures |r| > 0 ==> !IsSpace(r[|r| - 1])
    decreases |s|
  {
    if |s| > 0 && IsSpace(s[|s| - 1]) then TrimEnd(s[..|s| - 1]) else s
  }

  /** `trim`: white space removed from both ends. */
  function Trim(s: string): string {
    TrimEnd(TrimStart(s))
  }

  /** Trimming leaves a contiguous slice of the input with no white space at
      either end, and removes only white space. */
  lemma TrimIsSlice(s: string)
    ensures var r := Trim(s);
      && (exists i :: OccursAt(s, r, i))
      && (|r| > 0 ==> !IsSpace(r[0]) && !IsSpace(r[|r| - 1]))
  {
    var a := TrimStart(s);
    var r := TrimEnd(a);
    var i := |s| - |a|;
    assert a == s[i..];
    assert r == a[..|r|] == s[i..i + |r|];
    assert r == Trim(s);
    assert OccursAt(s, Trim(s), i);
  }

  /** The trimmed text is empty exactly when the input is all white space:
      the JavaScript test `!s.trim()` is `IsBlank(s)`. */
  lemma {:induction false} TrimEmptyIffBlank(s: string)
    ensures Trim(s) == [] <==> IsBlank(s)
  {
    var a := TrimStart(s);
    if IsBlank(s) {
      if |a| > 0 {
        assert a[0] == s[|s| - |a|];
      }
    } else {
      var k :| 0 <= k < |s| && !IsSpace(s[k]);
      assert k >= |s| - |a|;
      assert a[0] == s[|s| - |a|];
      assert |a| > 0 && !IsSpace(a[0]);
    }
  }

  /** Trimming is idempotent. */
  lemma TrimIdempotent(s: string)
    ensures Trim(Trim(s)) == Trim(s)
  {
    var r := Trim(s);
    if |r| > 0 {
      assert !IsSpace(r[0]);
      assert TrimStart(r) == r;
      assert TrimEnd(r) == r;
    }
  }

  /** ASCII `toLowerCase` of one character. */
  function LowerChar(c: char): char {
    if 'A' <= c <= 'Z' then (c as int + 32) as char else c
  }

  /** ASCII `toUpperCase` of one character. */
  function UpperChar(c: char): char {
    if 'a' <= c <= 'z' then (c as int - 32) as char else c
  }

  /** `toLowerCase`, restricted to ASCII letters. */
  function ToLower(s: string): (r: string)
    ensures |r| == |s| && forall i :: 0 <= i < |s| ==> r[i] == LowerChar(s[i])
  {
    seq(|s|, i requires 0 <= i < |s| => LowerChar(s[i]))
  }

  /** `toUpperCase`, restricted to ASCII letters. */
  function ToUpper(s: string): (r: string)
    ensures |r| == |s| && forall i :: 0 <= i < |s| ==> r[i] == UpperChar(s[i])
  {
    seq(|s|, i requires 0 <= i < |s| => UpperChar(s[i]))
  }

  /** `s.startsWith(p)`. */
  predicate StartsWith(s: string, p: string) {
    |p| <= |s| && s[..|p|] == p
  }

  /** `s.endsWith(p)`. */
  predicate EndsWith(s: string, p: string) {
    |p| <= |s| && s[|s| - |p|..] == p
  }

  /** `sub` occurs in `s` starting at index `i`. */
  predicate OccursAt(s: string, sub: string, i: int) {
    0 <= i <= |s| - |sub| && s[i..i + |sub|] == sub
  }

  /** `s.includes(sub)`. */
  predicate Contains(s: string, sub: string)
    decreases |s|
  {
    StartsWith(s, sub) || (|s| > 0 && Contains(s[1..], sub))
  }

  /** `includes` means: `sub` occurs at some position of `s`. */
  lemma {:induction false} ContainsIffOccurs(s: string, sub: string)
    ensures Contains(s, sub) <==> exists i :: OccursAt(s, sub, i)
    decreases |s|
  {
    if Contains(s, sub) {
      if StartsWith(s, sub) {
        assert OccursAt(s, sub, 0);
      } else {
        ContainsIffOccurs(s[1..], sub);
        var i :| OccursAt(s[1..], sub, i);
        assert s[i + 1..i + 1 + |sub|] == s[1..][i..i + |sub|];
        assert OccursAt(s, sub, i + 1);
      }
    }
    if exists i :: OccursAt(s, sub, i) {
      var i :| OccursAt(s, sub, i);
      if i == 0 {
        assert StartsWith(s, sub);
      } else {
        assert s[1..][i - 1..i - 1 + |sub|] == s[i..i + |sub|];
        assert OccursAt(s[1..], sub, i - 1);
        ContainsIffOccurs(s[1..], sub);
      }
    }
  }

  /** Every string contains the empty string (so an empty search term
      matches any defined text). */
  lemma ContainsEmpty(s: string)
    ensures Contains(s, "")
  {
    assert StartsWith(s, "");
  }

  /** `s.split(sep)` for a one-character separator. */
  function Split(s: string, sep: char): (parts: seq<string>)
    ensures |parts| >= 1
    ensures forall i :: 0 <= i < |parts| ==> sep !in parts[i]
    decreases |s|
  {
    if |s| == 0 then [""]
    else
      var rest := Split(s[1..], sep);
      if s[0] == sep then [""] + rest
      else [[s[0]] + rest[0]] + rest[1..]
  }

  /** `parts.join(sep)`. */
  function Join(parts: seq<string>, sep: char): string
    decreases |parts|
  {
    if |parts| == 0 then ""
    else if |parts| == 1 then parts[0]
    else parts[0] + [sep] + Join(parts[1..], sep)
  }

  /** Splitting and joining with the same separator gives back the input;
      so `split` loses nothing and the pieces are the separator-free runs. */
  lemma {:induction false} JoinSplit(s: string, sep: char)
    ensures Join(Split(s, sep), sep) == s
    decreases |s|
  {
    if |s| > 0 {
      var rest := Split(s[1..], sep);
      JoinSplit(s[1..], sep);
      if s[0] == sep {
        assert Split(s, sep) == [""] + rest;
        assert ([""] + rest)[1..] == rest;
      } else {
        var parts := [[s[0]] + rest[0]] + rest[1..];
        assert Split(s, sep) == parts;
        if |rest| == 1 {
          assert Join(rest, sep) == rest[0];
        } else {
          assert parts[1..] == rest[1..];
          assert Join(rest, sep) == rest[0] + [sep] + Join(rest[1..], sep);
        }
      }
    }
  }

  /** The number of pieces is one more than the number of separators. */
  lemma {:induction false} SplitCount(s: string, sep: char)
    ensures |Split(s, sep)| == CountChar(s, sep) + 1
    decreases |s|
  {
    if |s| > 0 {
      SplitCount(s[1..], sep);
    }
  }

  /** Occurrences of `c` in `s`. */
  function CountChar(s: string, c: char): nat
    decreases |s|
  {
    if |s| == 0 then 0 else (if s[0] == c then 1 else 0) + CountChar(s[1..], c)
  }

  /** `s.split(sep).pop()`: the text after the last separator (the whole
      string when there is none). */
  function LastPiece(s: string, sep: char): (r: string)
    ensures sep !in r
  {
    var parts := Split(s, sep);
    parts[|parts| - 1]
  }

  /** Text without the separator is one piece. */
  lemma {:induction false} SplitNoSeparator(s: string, sep: char)
    requires sep !in s
    ensures Split(s, sep) == [s]
    decreases |s|
  {
    if |s| > 0 {
      SplitNoSeparator(s[1..], sep);
      assert [s[0]] + s[1..] == s;
    }
  }

  /** The last piece is the text after the last separator. */
  lemma {:induction false} LastPieceAfter(a: string, b: string, sep: char)
    requires sep !in b
    ensures LastPiece(a + [sep] + b, sep) == b
    decreases |a|
  {
    var s := a + [sep] + b;
    if |a| == 0 {
      assert s == [sep] + b && s[1..] == b;
      SplitNoSeparator(b, sep);
    } else {
      assert s[1..] == a[1..] + [sep] + b;
      LastPieceAfter(a[1..], b, sep);
      var rest := Split(s[1..], sep);
      SplitCount(s[1..], sep);
      CountCharAppend(a[1..], [sep] + b, sep);
      assert (a[1..] + [sep] + b) == a[1..] + ([sep] + b);
      assert |rest| >= 2;
    }
  }

  lemma {:induction false} CountCharAppend(x: string, y: string, c: char)
    ensures CountChar(x + y, c) == CountChar(x, c) + CountChar(y, c)
    decreases |x|
  {
    if |x| == 0 {
      assert x + y == y;
    } else {
      assert (x + y)[1..] == x[1..] + y;
      CountCharAppend(x[1..], y, c);
    }
  }

  /** `s.replace(/c/g, "")`: every occurrence of one character removed. */
  function RemoveChar(s: string, c: char): (r: string)
    ensures c !in r
    ensures |r| <= |s|
    decreases |s|
  {
    if |s| == 0 then ""
    else if s[0] == c then RemoveChar(s[1..], c)
    else [s[0]] + RemoveChar(s[1..], c)
  }

  /** `s.substring(0, n)` for a non-negative `n`. */
  function Prefix(s: string, n: nat): (r: string)
    ensures |r| == if n < |s| then n else |s|
    ensures r == s[..|r|]
  {
    if n < |s| then s[..n] else s
  }

  /** A piece placed between two others occurs in the result. */
  lemma ContainsMiddle(a: string, b: string, c: string)
    ensures Contains(a + b + c, b)
  {
    var s := a + b + c;
    assert s[|a|..|a| + |b|] == b;
    assert OccursAt(s, b, |a|);
    ContainsIffOccurs(s, b);
  }

  function EscapeChar(c: char): string {
    if c == '&' then "&amp;"
    else if c == '<' then "&lt;"
    else if c == '>' then "&gt;"
    else if c == '\U{00A0}' then "&nbsp;"
    else [c]
  }

  /** The markup `innerHTML` gives for a text node holding `s`: ampersand,
      angle brackets and the no-break space written as entities, so the
      text can never open a tag. */
  function EscapeHtml(s: string): (r: string)
    ensures '<' !in r && '>' !in r
    ensures (forall i :: 0 <= i < |s| ==> s[i] !in "&<>\U{00A0}") ==> r == s
    decreases |s|
  {
    if |s| == 0 then "" else EscapeChar(s[0]) + EscapeHtml(s[1..])
  }

  /** Text without the separator, then the separator: the first piece is
      that text and the rest is the split of what follows. */
  lemma {:induction false} SplitAt(a: string, b: string, sep: char)
    requires sep !in a
    ensures Split(a + [sep] + b, sep) == [a] + Split(b, sep)
    decreases |a|
  {
    var s := a + [sep] + b;
    if |a| == 0 {
      assert s == [sep] + b && s[1..] == b;
    } else {
      assert s[1..] == a[1..] + [sep] + b;
      SplitAt(a[1..], b, sep);
      assert [a[0]] + a[1..] == a;
    }
  }
}

=== FILE: student.dfy ===
/** The student answer page (`js/student.js`): the live word count, the
    guards in front of starting a test and submitting an answer, the
    request sent for grading, the submission record and the score tier.
    The database and the DOM are outside the model; the question chosen is
    looked up in a map standing for the `questions` collection. */
module Student {
  import opened Wrappers
  import opened Strings
  import opened Numbers
  import opened JsValue

  // ---------------------------------------------------------------------
  // Word count

  /** The word starting at the front of `s`: its longest non-space prefix. */
  function WordAt(s: string): (w: string)
    ensures |w| <= |s| && w == s[..|w|]
    ensures forall i :: 0 <= i < |w| ==> !IsSpace(w[i])
    ensures |w| < |s| ==> IsSpace(s[|w|])
    decreases |s|
  {
    if |s| > 0 && !IsSpace(s[0]) then [s[0]] + WordAt(s[1..]) else ""
  }

  /** `s.split(/\s+/).filter(w => w.length > 0)`: the maximal runs of
      non-white-space characters, left to right. */
  function Words(s: string): (ws: seq<string>)
    ensures forall k :: 0 <= k < |ws| ==> |ws[k]| > 0
    ensures forall k, i :: 0 <= k < |ws| && 0 <= i < |ws[k]| ==> !IsSpace(ws[k][i])
    decreases |s|
  {
    if |s| == 0 then []
    else if IsSpace(s[0]) then Words(s[1..])
    else
      var w := WordAt(s);
      [w] + Words(s[|w|..])
  }

  /** There is no word exactly when the text is blank. */
  lemma {:induction false} NoWordsIffBlank(s: string)
    ensures Words(s) == [] <==> IsBlank(s)
    decreases |s|
  {
    if |s| > 0 {
      if IsSpace(s[0]) {
        NoWordsIffBlank(s[1..]);
        assert IsBlank(s) <==> IsBlank(s[1..]) by {
          if IsBlank(s[1..]) {
            forall i | 0 <= i < |s| ensures IsSpace(s[i]) {
              if i > 0 {
                assert s[i] == s[1..][i - 1];
              }
            }
          }
        }
      }
    }
  }

  /** Stepping back one character: a space adds nothing, a word character
      adds a word exactly when it ends a word (the next character is a
      space or there is none). */
  lemma WordsStep(s: string)
    requires |s| > 0
    ensures IsSpace(s[0]) ==> |Words(s)| == |Words(s[1..])|
    ensures !IsSpace(s[0]) && (|s| == 1 || IsSpace(s[1])) ==> |Words(s)| == |Words(s[1..])| + 1
    ensures !IsSpace(s[0]) && |s| > 1 && !IsSpace(s[1]) ==> |Words(s)| == |Words(s[1..])|
  {
    if !IsSpace(s[0]) {
      if |s| > 1 && !IsSpace(s[1]) {
        WordsStepInside(s);
      } else {
        WordsStepEnd(s);
      }
    }
  }

  /** A word character followed by another adds no word. */
  lemma WordsStepInside(s: string)
    requires |s| > 1 && !IsSpace(s[0]) && !IsSpace(s[1])
    ensures |Words(s)| == |Words(s[1..])|
  {
    var w := WordAt(s);
    var t := s[1..];
    var v := WordAt(t);
    assert w == [s[0]] + v;
    assert s[|w|..] == t[|v|..];
  }

  /** A word character at the end of a word adds one word. */
  lemma WordsStepEnd(s: string)
    requires |s| > 0 && !IsSpace(s[0]) && (|s| == 1 || IsSpace(s[1]))
    ensures |Words(s)| == |Words(s[1..])| + 1
  {
    var w := WordAt(s);
    assert w == [s[0]];
    assert s[|w|..] == s[1..];
  }

  /** The word count shown under the answer box,
      `text.trim().split(/\s+/).filter(w => w.length > 0).length`: the
      number of words of the trimmed text, which are those of the text;
      0 exactly for blank text. */
  method WordCount(text: string) returns (n: nat)
    ensures n == |Words(Trim(text))|
    ensures n == |Words(text)|
    ensures n == 0 <==> IsBlank(text)
  {
    n := CountWords(text);
    WordsOfTrim(text);
  }

  /** Counting right to left the characters that end a word. */
  method CountWords(text: string) returns (n: nat)
    ensures n == |Words(text)|
    ensures n == 0 <==> IsBlank(text)
  {
    n := 0;
    var i := |text|;
    while i > 0
      invariant 0 <= i <= |text|
      invariant n == |Words(text[i..])|
      decreases i
    {
      i := i - 1;
      var t := text[i..];
      WordsStep(t);
      assert t[1..] == text[i + 1..];
      if !IsSpace(text[i]) && (i + 1 == |text| || IsSpace(text[i + 1])) {
        n := n + 1;
      }
    }
    assert text[0..] == text;
    NoWordsIffBlank(text);
  }

  /** Trimming first, as the page does, changes nothing about the words. */
  lemma {:induction false} WordsIgnoreLeadingSpace(s: string, k: nat)
    requires k <= |s| && IsBlank(s[..k])
    ensures Words(s[k..]) == Words(s)
    decreases k
  {
    if k > 0 {
      assert IsSpace(s[0]) by { assert s[..k][0] == s[0]; }
      assert s[1..][..k - 1] == s[..k][1..];
      WordsIgnoreLeadingSpace(s[1..], k - 1);
      assert s[1..][k - 1..] == s[k..];
    }
  }

  /** A word is cut short by nothing but white space. */
  lemma {:induction false} WordAtPrefix(s: string, k: nat)
    requires |WordAt(s)| <= k <= |s|
    ensures WordAt(s[..k]) == WordAt(s)
    decreases |s|
  {
    if |s| > 0 && !IsSpace(s[0]) && k > 0 {
      assert s[..k][1..] == s[1..][..k - 1];
      WordAtPrefix(s[1..], k - 1);
    }
  }

  /** White space at the end changes nothing about the words. */
  lemma {:induction false} WordsIgnoreTrailingSpace(s: string, k: nat)
    requires k <= |s| && IsBlank(s[k..])
    ensures Words(s[..k]) == Words(s)
    decreases |s|
  {
    if k == 0 {
      assert s[k..] == s;
      NoWordsIffBlank(s);
    } else if IsSpace(s[0]) {
      assert s[..k][1..] == s[1..][..k - 1];
      assert s[1..][k - 1..] == s[k..];
      WordsIgnoreTrailingSpace(s[1..], k - 1);
    } else {
      var w := WordAt(s);
      assert |w| <= k by {
        if k < |s| {
          assert IsSpace(s[k]) by { assert s[k..][0] == s[k]; }
        }
      }
      WordAtPrefix(s, k);
      assert s[..k][|w|..] == s[|w|..][..k - |w|];
      assert s[|w|..][k - |w|..] == s[k..];
      WordsIgnoreTrailingSpace(s[|w|..], k - |w|);
    }
  }

  /** `trim()` before splitting changes nothing about the words. */
  lemma WordsOfTrim(s: string)
    ensures Words(Trim(s)) == Words(s)
  {
    var a := TrimStart(s);
    var i := |s| - |a|;
    assert IsBlank(s[..i]);
    WordsIgnoreLeadingSpace(s, i);
    var r := TrimEnd(a);
    assert IsBlank(a[|r|..]);
    WordsIgnoreTrailingSpace(a, |r|);
  }

  // ---------------------------------------------------------------------
  // Starting a test

  /** A question document, with the fields the page reads. */
  datatype Question = Question(question: string, modelAnswer: Val)

  /** What the page remembers once a test is started. */
  datatype StudentData = StudentData(name: string, questionId: string)

  datatype Start =
    | Refused(message: string)
    | NotFound
    | Started(student: StudentData, question: Question)

  /** The start button: the trimmed name and the selected question id must
      both be non-empty, and the question must exist. */
  function StartTest(nameInput: string, questionId: string, questions: map<string, Question>): (r: Start)
    ensures r == Refused("Please enter your name and select a question.") <==> IsBlank(nameInput) || questionId == ""
    ensures r.NotFound? <==> !IsBlank(nameInput) && questionId != "" && questionId !in questions
    ensures r.Started? ==>
      (r.student == StudentData(Trim(nameInput), questionId)
       && questionId in questions && r.question == questions[questionId]
       && r.student.name != "")
  {
    TrimEmptyIffBlank(nameInput);
    var name := Trim(nameInput);
    if name == "" || questionId == "" then Refused("Please enter your name and select a question.")
    else if questionId !in questions then NotFound
    else Started(StudentData(name, questionId), questions[questionId])
  }

  // ---------------------------------------------------------------------
  // Submitting an answer

  datatype Submit =
    | Empty
    | Post(body: Json)

  /** The body posted to the evaluation endpoint: name, question id,
      question, answer and model answer. No maximum mark is sent. */
  function RequestBody(student: StudentData, q: Question, answer: string): (b: Json)
    ensures b.Obj?
    ensures Prop(b, "question") == Some(Str(q.question))
    ensures Prop(b, "studentAnswer") == Some(Str(answer))
    ensures Prop(b, "maxMarks") == None
  {
    var entries := [("studentName", Some(Str(student.name))), ("questionId", Some(Str(student.questionId))),
                    ("question", Some(Str(q.question))), ("studentAnswer", Some(Str(answer))),
                    ("modelAnswer", q.modelAnswer)];
    ObjOfProp(entries, 2);
    ObjOfProp(entries, 3);
    ObjOf(entries)
  }

  /** The submit button: nothing is sent for a blank answer; otherwise the
      trimmed answer is posted. */
  function SubmitAnswer(student: StudentData, q: Question, answerInput: string): (r: Submit)
    ensures r.Empty? <==> IsBlank(answerInput)
    ensures r.Post? ==> Prop(r.body, "studentAnswer") == Some(Str(Trim(answerInput)))
    ensures r.Post? ==> Prop(r.body, "maxMarks") == None
  {
    TrimEmptyIffBlank(answerInput);
    var answer := Trim(answerInput);
    if answer == "" then Empty else Post(RequestBody(student, q, answer))
  }

  /** The submission's document id, `${questionId}_${Date.now()}`. */
  function SubmissionId(questionId: string, now: nat): (id: string)
    ensures |id| > |questionId| + 1 && id[..|questionId| + 1] == questionId + "_"
  {
    questionId + "_" + NatToString(now)
  }

  /** Two submissions to the same question at different milliseconds get
      different ids; the time can be read back from the id. */
  lemma SubmissionIdsDistinct(questionId: string, t1: nat, t2: nat)
    requires t1 != t2
    ensures SubmissionId(questionId, t1) != SubmissionId(questionId, t2)
  {
    var p := questionId + "_";
    assert SubmissionId(questionId, t1)[|p|..] == NatToString(t1);
    assert SubmissionId(questionId, t2)[|p|..] == NatToString(t2);
    ParseIntIntToString(t1);
    ParseIntIntToString(t2);
  }

  /** What happens after the request: a non-2xx reply or a failure fails
      the submission; otherwise the record saved. */
  datatype Outcome =
    | Failed(message: string)
    | Saved(id: string, score: Val, feedback: Val, improvements: Val)

  function AfterReply(student: StudentData, ok: bool, reply: Result<Json>, now: nat): (o: Outcome)
    ensures !ok ==> o == Failed("Failed to submit answer. Please try again.")
    ensures o.Saved? ==> ok && reply.Ok? && o.id == SubmissionId(student.questionId, now)
  {
    if !ok then Failed("Failed to submit answer. Please try again.")
    else match reply
      case Err(_) => Failed("Failed to submit answer. Please try again.")
      case Ok(result) =>
        if result == Null then Failed("Failed to submit answer. Please try again.")
        else Saved(SubmissionId(student.questionId, now), Prop(result, "score"),
                   Prop(result, "feedback"), Prop(result, "improvements"))
  }

  // ---------------------------------------------------------------------
  // Score tier

  datatype Tier = NeedsImprovement | Good | Excellent

  /** The colour of the score circle: `result.score >= 80` and `>= 60`
      compare the score converted to a number, so numeric text counts as
      its number and a missing or non-numeric score (NaN) needs
      improvement. */
  function TierOf(score: Val): (t: Tier)
    ensures t == Excellent <==> ToNumber(score).Some? && ToNumber(score).value >= 80.0
    ensures t == Good <==> ToNumber(score).Some? && 60.0 <= ToNumber(score).value < 80.0
    ensures score.None? ==> t == NeedsImprovement
  {
    match ToNumber(score)
    case Some(x) => if x >= 80.0 then Excellent else if x >= 60.0 then Good else NeedsImprovement
    case None => NeedsImprovement
  }

  /** A score sent as numeric text gets the tier of its number. */
  lemma TierOfText(t: string, x: real)
    requires StringNumber(t) == Some(x)
    ensures TierOf(Some(Str(t))) == TierOf(Some(Num(x)))
  {
  }

  /** A higher numeric score never gets a lower tier. */
  lemma TierMonotone(a: real, b: real)
    requires a <= b
    ensures TierOf(Some(Num(a))) == Excellent ==> TierOf(Some(Num(b))) == Excellent
    ensures TierOf(Some(Num(a))) == Good ==> TierOf(Some(Num(b))) != NeedsImprovement
  {
  }
}

=== FILE: tallies.dfy ===
/** Counters kept in a plain JavaScript object, `t[k] = (t[k] || 0) + 1`:
    one count per key, keys in the order they were first counted. */
module Tallies {
  type Tally = seq<(string, nat)>

  /** `t[k] || 0`. */
  function CountOf(t: Tally, k: string): nat
    decreases |t|
  {
    if |t| == 0 then 0 else if t[0].0 == k then t[0].1 else CountOf(t[1..], k)
  }

  /** The sum of all counts. */
  function Total(t: Tally): nat
    decreases |t|
  {
    if |t| == 0 then 0 else t[0].1 + Total(t[1..])
  }

  /** How many times `k` occurs in `keys`. */
  function Occurrences(keys: seq<string>, k: string): nat
    decreases |keys|
  {
    if |keys| == 0 then 0 else (if keys[0] == k then 1 else 0) + Occurrences(keys[1..], k)
  }

  /** `t[k] = (t[k] || 0) + 1`: one more for `k`, every other count kept
      (a new key is added at the end). */
  function Bump(t: Tally, k: string): (r: Tally)
    ensures CountOf(r, k) == CountOf(t, k) + 1
    ensures forall k2 :: k2 != k ==> CountOf(r, k2) == CountOf(t, k2)
    ensures Total(r) == Total(t) + 1
    decreases |t|
  {
    if |t| == 0 then [(k, 1)]
    else if t[0].0 == k then
      var r := [(k, t[0].1 + 1)] + t[1..];
      assert r[1..] == t[1..];
      r
    else
      var r := [t[0]] + Bump(t[1..], k);
      assert r[1..] == Bump(t[1..], k);
      r
  }

  /** Counting `keys` from left to right into `seed`: every key's count
      grows by its occurrences, so the total grows by `|keys|`. */
  function TallyOf(seed: Tally, keys: seq<string>): (r: Tally)
    ensures Total(r) == Total(seed) + |keys|
    ensures forall k :: CountOf(r, k) == CountOf(seed, k) + Occurrences(keys, k)
    decreases |keys|
  {
    if |keys| == 0 then seed else TallyOf(Bump(seed, keys[0]), keys[1..])
  }
}

=== FILE: wrappers.dfy ===
/** Failure-compatible wrappers shared by every module of the model. */
module Wrappers {

  /** `None` stands for JavaScript's `undefined` (a missing property, a
      missing argument), `Some(v)` for a present value. */
  datatype Option<+T> = None | Some(value: T) {
    function GetOr(default: T): T {
      match this
      case Some(v) => v
      case None => default
    }
  }

  /** The outcome of an operation that may throw: `Err` carries the message
      of the thrown error. */
  datatype Result<+R> = Ok(value: R) | Err(message: string)
}
